=== FILE: README.md ===
# OwL browser core in Dafny

A functional model of the sequential core of the OwL browser, with proofs.
The model covers these parts:

- **`IdGen`** (`util/src/lib.rs`): the monotonic id counter.
- **`Tabs`** (`tabs/src/lib.rs`): the `BasicTabManager` lifecycle state machine. It covers create, activate, set state and cyclic next tab over an ordered tab list.
- **`Scheduler`** (`scheduler/src/lib.rs`): the budget tiers, memory pressure levels and the 3×3 `map_execution_hints` table.
- **`Governor`** (`scheduler/src/lib.rs`): the `ExecutionGovernor` reconciliation machine and the `JSExecutionGovernor` entry points.
  - The clock is an explicit millisecond `now: nat`.
  - The engine is an appended log of `ApplyTabState`, `ApplyExecutionBudget` and `ApplyExecutionHints` calls.
  - A pass over all tracked tabs is a pure function, `Reconciled`. The `Reconcile` method walks the tabs in an arbitrary order and is proved equal to it.
- **`PressureParse`** (`memory/src/pressure.rs`): the byte-level readers.
  - The `parse_kb_value` and `parse_cgroup_value` digit scanners use saturating u64 arithmetic.
  - Line selection covers `/proc/meminfo` and `/proc/self/status`.
  - Also modelled: the `/proc/self/cgroup` lookup, Unix `Path::join`, and the UTF-8 check of `from_utf8`.
  - Files are a map from path to bytes; a missing file is an absent key.
- **`Pressure`** (`memory/src/pressure.rs`):
  - the per-mille headroom ratio and threshold classification;
  - the cgroup, meminfo and RSS sources and the fallback chain of the default source;
  - a `Build` parameter choosing the helpers of the chain. `AsWritten` uses the program's saturating ratio and its cgroup path join, so it is the program's behaviour. `Intended` uses the corrected helpers from "## Findings".
  - the hysteresis smoother, one step of the monitor loop, and `drain_latest`.
- **`TabTree`** (`src/state.rs`): `BrowserState`, a forest of tab nodes in an id-keyed map with `roots`/`children` lists.
  - Covered: creation, recursive removal, activation, the toggles, `update_tab`, favicon update by URL and the pinned-first child ordering.
  - Well-formedness is the predicate `WF`. Every id is below `next_id`, and children carry larger ids than their parent (`Ordered`). Every node is keyed by its own id. Parent and child links agree, and roots are parentless.
- **`App`** (`src/app.rs`):
  - Rust's Unicode `trim`, `normalize_url` and the home routing of `load_url`;
  - the three session templates and `open_session` on the tab tree;
  - the URL filter of `prefetch_all_favicons`.
- **`Common`**: saturating u64 helpers (`SatMul`, `SatAdd`, `SatSub`), `Min`, the saturating `duration_since` (`Since`), and sequence helpers.

## Model

| member | source | states |
|---|---|---|
| IdGen.New | util/src/lib.rs:11-15 | the first id drawn from `new(start)` is `start` |
| IdGen.Default | util/src/lib.rs:25-28 | the first id drawn from the default generator is 1 |
| IdGen.Next | util/src/lib.rs:18-22 | returns the stored value and leaves the counter exactly one past it |
| IdGen.TakeIsConsecutive | util/src/lib.rs:18-22 | n successive draws return start, start+1, …, start+n-1 and leave the counter at start+n |
| IdGen.TakeStrictlyIncreasing | util/src/lib.rs:18-22 | successive draws are strictly increasing and pairwise distinct |
| Tabs.New | tabs/src/lib.rs:69-71 | a new manager is empty, has no active tab and satisfies the manager invariant |
| Tabs.Position | tabs/src/lib.rs:73-78 | the index lookup used by `next_tab` and `set_active`: None iff the id is not listed, otherwise the first index holding it |
| Tabs.DemoteActive | tabs/src/lib.rs:83-87 | keeps ids and length, leaves no tab Active, and leaves non-Active tabs untouched |
| Tabs.CreateTab | tabs/src/lib.rs:82-97 | demotes every Active tab, appends one Active tab with a fresh id (unlisted before), makes it active and advances the id counter; afterwards exactly that tab is Active |
| Tabs.SetActive | tabs/src/lib.rs:99-114 | an unknown id gives false and no change; a known id becomes `active` and the only Active tab, other non-Suspended tabs become Background, Suspended tabs stay Suspended, ids and order are kept |
| Tabs.SetState | tabs/src/lib.rs:116-129 | an unknown id gives false and no change; otherwise exactly that entry's state changes; Active makes it `active`; a non-Active state on the active tab clears `active`; otherwise `active` is unchanged |
| Tabs.NextTab | tabs/src/lib.rs:73-78 | None when there is no active tab or it is not listed; otherwise a listed id, and the active tab itself when it is the only tab |
| Tabs.NextTabCycles | tabs/src/lib.rs:73-78 | the next tab is the one after the active tab's position, wrapping to the first tab after the last |
| Scheduler.MapExecutionHints | scheduler/src/lib.rs:139-213 | the hint table as properties: no timer clamp iff Foreground below Severe; Wasm and workers go together; Wasm implies background JS; suspension is preferred iff background JS is denied; background JS iff Foreground, or VisibleBackground below Severe; Wasm iff Foreground below Severe or VisibleBackground under Low |
| Scheduler.PressureRank | memory/src/pressure.rs:282-288 | the rank is 0 exactly for Low and 2 exactly for Severe, so Moderate is 1; it never exceeds 2 |
| Scheduler.HintsMonotoneInPressure | scheduler/src/lib.rs:139-213 | for a fixed budget, higher pressure never re-allows JS, Wasm or workers, never withdraws prefer-suspend and never loosens the timer clamp |
| Scheduler.HintsMonotoneInTier | scheduler/src/lib.rs:139-213 | for a fixed pressure, a lower tier never gets more permissive hints |
| Scheduler.ForegroundHints | scheduler/src/lib.rs:151-165 | Foreground below Severe is unclamped with JS, Wasm and workers; Foreground under Severe is clamped to 50 ms with Wasm and workers denied |
| Governor.New | scheduler/src/lib.rs:776-794 | a new governor tracks no tab, has pressure Low and both clocks at the creation time |
| Governor.State | scheduler/src/lib.rs:797-799 | Some exactly for tracked tabs, carrying their base state |
| Governor.MarkRecentInput | scheduler/src/lib.rs:856-860 | input sets the global input time, the idle-burst anchor and the tab's input time to now, and nothing else |
| Governor.BurstGate | scheduler/src/lib.rs:871-886 | no burst unless the user is idle; when idle and the anchor is at least 5000 ms old, a burst is allowed and the anchor moves to now; otherwise a burst is allowed iff the anchor is at most 500 ms old; an allowed burst is always within 500 ms of the anchor |
| Governor.PrePressure | scheduler/src/lib.rs:902-939 | Active gives Active/Foreground; Suspended gives Suspended/IdleBackground; Background gives VisibleBackground without run permission while the user is active, IdleBackground with the burst permission while idle, VisibleBackground with permission in between; a Background tab stays Background iff it may run or had recent input |
| Governor.DemoteNeverPromotes | scheduler/src/lib.rs:944-954 | demotion never raises a tier, Low pressure is the identity, IdleBackground is a fixed point, and demotion is monotone in pressure |
| Governor.Decide | scheduler/src/lib.rs:902-961 | Active stays Active at the demoted Foreground tier; Suspended stays Suspended at IdleBackground; no non-Active tab becomes Active; an active user suspends a Background tab unless it had recent input; a Background tab at IdleBackground outside a burst and without recent input is Suspended; the final tier is the pre-pressure tier demoted by the pressure, so never above it; a Background tab is Suspended iff it had no recent input and either the burst rule did not allow it or it ended at IdleBackground outside an idle burst |
| Governor.ApplyBudget | scheduler/src/lib.rs:982-992 | reports a change and emits one budget call iff no budget was stored or it differed; the stored budget is the new one |
| Governor.ApplyHints | scheduler/src/lib.rs:994-1003 | emits one hints call iff no hints were stored or they differed; the stored hints are the new ones |
| Governor.ApplyBudgetIdempotent | scheduler/src/lib.rs:982-992 | applying the same budget twice emits nothing the second time |
| Governor.ApplyHintsIdempotent | scheduler/src/lib.rs:994-1003 | applying the same hints twice emits nothing the second time |
| Governor.Reconcile | scheduler/src/lib.rs:862-980 | the loop over tracked tabs in any order ends in the one-pass result, and the calls it logs for each tab are exactly that tab's diffed budget, hints and state calls, with none for untracked tabs |
| Governor.ReconciledAt | scheduler/src/lib.rs:888-976 | after a pass every tracked tab stores the decided budget, the table hints for that budget under the current pressure, and the decided effective state |
| Governor.ReconciledCoherent | scheduler/src/lib.rs:963-976 | after a pass every tracked tab has a stored budget, hints and effective state, with hints matching its budget |
| Governor.CallsOfAppend | scheduler/src/lib.rs:963-976 | the per-tab projection of a log distributes over appending |
| Governor.OutcomeStable | scheduler/src/lib.rs:862-961 | a second pass at the same time decides the same state and budget for every tab |
| Governor.BurstGateStable | scheduler/src/lib.rs:876-886 | a pass leaves the burst gate for the same time unchanged |
| Governor.BudgetsOutStable | scheduler/src/lib.rs:862-961 | the budgets a pass decides are unchanged by a preceding pass at the same time |
| Governor.HintsOutStable | scheduler/src/lib.rs:862-976 | the hints a pass decides are unchanged by a preceding pass at the same time |
| Governor.EffectiveOutStable | scheduler/src/lib.rs:862-961 | the effective states a pass decides are unchanged by a preceding pass at the same time |
| Governor.ReconcileIdempotent | scheduler/src/lib.rs:862-980 | a second pass at the same time with no change in between leaves the governor as it is |
| Governor.SecondPassSilent | scheduler/src/lib.rs:963-1003 | a second pass at the same time emits no engine call for any tab |
| Governor.NoCallsMeansEmpty | scheduler/src/lib.rs:963-976 | a log with no calls for any tab is empty |
| Governor.BurstWindow | scheduler/src/lib.rs:876-886 | once a burst opens at time t, a pass at t+d allows it iff d ≤ 500 ms while d < 5000 ms, and reopens it at t+d when d ≥ 5000 ms |
| Governor.Poll | scheduler/src/lib.rs:852-854 | one pass at the given time; the result is coherent and the log holds each tab's diffed calls |
| Governor.PollTwice | scheduler/src/lib.rs:852-854 | two polls at the same time: the second changes nothing and emits nothing |
| Governor.RecordUserInput | scheduler/src/lib.rs:802-806 | marks input on the tab, then runs one pass at the same time |
| Governor.InputClocks | scheduler/src/lib.rs:802-806 | after recording input the global, burst and per-tab clocks all read now |
| Governor.InputBackground | scheduler/src/lib.rs:802-806 | right after input every Background tab is at the demoted VisibleBackground tier, and stays Background iff it had input of its own within the grace window |
| Governor.InputKeepsTab | scheduler/src/lib.rs:802-806 | the tab that received input keeps its base state as its effective state |
| Governor.ForegroundOverride | scheduler/src/lib.rs:802-806 | an Active tab receiving input below Severe pressure runs Foreground without a timer clamp |
| Governor.SetMemoryPressure | scheduler/src/lib.rs:809-812 | stores the new pressure, then runs one pass |
| Governor.PressureOnlyDemotes | scheduler/src/lib.rs:944-954 | after a pressure change no tab's tier is above its pre-pressure tier |
| Governor.PressureKeepsActive | scheduler/src/lib.rs:944-954 | under any pressure Active tabs stay Active, at the demoted Foreground tier |
| Governor.SevereDemotesForeground | scheduler/src/lib.rs:944-954 | under Severe pressure an Active tab runs at VisibleBackground with Wasm denied |
| Governor.IdleBackgroundSuspended | scheduler/src/lib.rs:956-961 | an idle user outside any burst window suspends a Background tab that had no recent input, at IdleBackground |
| Governor.StateChanged | scheduler/src/lib.rs:1044-1049 | records the new base state; becoming Active counts as input on that tab, other states leave the clocks alone |
| Governor.OnTabStateChanged | scheduler/src/lib.rs:1044-1051 | records the state and runs one pass; the governor then reports exactly that state for the tab |
| Governor.TabStateEffect | scheduler/src/lib.rs:1044-1051 | after the change the tab is effectively Active iff its new state is Active; Suspended gives Suspended at IdleBackground |
| Governor.SetBudget | scheduler/src/lib.rs:1037-1042 | stores the budget and the table hints under the current pressure; emits only calls for that tab: exactly the budget call if the budget changed, followed by the hints call if the hints changed; coherence is kept |
| Governor.SetBudgetIdempotent | scheduler/src/lib.rs:1037-1042 | setting the same budget twice emits nothing the second time |
| PressureParse.SatDecimalIsCapped | memory/src/pressure.rs:398-416 | the saturating `*10 +` accumulation equals the true decimal value capped at u64::MAX |
| PressureParse.FirstStop | memory/src/pressure.rs:323-343 | finds the first digit (or `m`/`M` when asked) and nothing before it is one |
| PressureParse.RunEnd | memory/src/pressure.rs:398-416 | the end of the maximal digit run starting at a position |
| PressureParse.KbValue | memory/src/pressure.rs:398-416 | None iff the line has no ASCII digit |
| PressureParse.CgroupValue | memory/src/pressure.rs:323-343 | None when there is no digit and for the literal `max` |
| PressureParse.ParseKbValue | memory/src/pressure.rs:398-416 | the byte loop computes the first maximal digit run, with saturation, and None without a digit |
| PressureParse.ParseCgroupValue | memory/src/pressure.rs:323-343 | the byte loop stops at `m`/`M` before any digit run ends with None, otherwise returns the first digit run with saturation, or None without a digit |
| PressureParse.ScanEnd | memory/src/pressure.rs:398-416 | when the scan leaves a digit run, the value held is the capped decimal value of exactly the first run |
| PressureParse.SplitLines | memory/src/pressure.rs:363 | splitting on newline yields at least one piece and no piece contains a newline |
| PressureParse.SplitJoin | memory/src/pressure.rs:363 | rejoining the pieces with newlines gives back the input |
| PressureParse.Find | memory/src/pressure.rs:363 | the first newline that ends a line: the first occurrence of the byte, or None when absent |
| PressureParse.FindLine | memory/src/pressure.rs:378-396 | the first line with the prefix, or None when no line has it |
| PressureParse.FindParsed | memory/src/pressure.rs:358-376 | the first line with the prefix whose value parses, or None when no such line exists |
| PressureParse.KbToBytes | memory/src/pressure.rs:364-367 | a kB value times 1024, saturated at u64::MAX |
| PressureParse.ReadKbLine | memory/src/pressure.rs:378-396 | a missing file gives None; otherwise the first line with the prefix decides; its value in bytes, or None when it has no digits |
| PressureParse.ReadMeminfoTotal | memory/src/pressure.rs:378-386 | a figure exists only when `/proc/meminfo` is readable and has a `MemTotal:` line; it is a whole number of kB in bytes, or u64::MAX once saturated |
| PressureParse.ReadVmRss | memory/src/pressure.rs:388-396 | a figure exists only when `/proc/self/status` is readable and has a `VmRSS:` line; it is a whole number of kB in bytes, or u64::MAX once saturated |
| PressureParse.ScanMeminfo | memory/src/pressure.rs:358-376 | the scan keeps the first parsed `MemTotal:` and `MemAvailable:` values, converted to bytes |
| PressureParse.ReadMeminfo | memory/src/pressure.rs:358-376 | None for a missing file; otherwise Some iff both keys have a line that parses, carrying the first such values in bytes |
| PressureParse.MeminfoTotalsAgree | memory/src/pressure.rs:358-386 | when the first `MemTotal:` line parses, `read_meminfo` and `read_meminfo_total` pick the same line |
| PressureParse.ReadU64FromFile | memory/src/pressure.rs:318-321 | None for a missing file, otherwise the cgroup parse of its contents |
| PressureParse.AsciiIsUtf8 | memory/src/pressure.rs:351 | ASCII bytes always pass the UTF-8 check |
| PressureParse.PathJoin | memory/src/pressure.rs:352 | an absolute path replaces the base; a relative one is appended after the base |
| PressureParse.CgroupPathEscapes | memory/src/pressure.rs:345-356 | with the join as written, an absolute cgroup path (the usual case) yields that path itself, outside `/sys/fs/cgroup` |
| PressureParse.UserSliceEscapes | memory/src/pressure.rs:352 | as written, joining `/user.slice` onto `/sys/fs/cgroup` gives `/user.slice` |
| PressureParse.UserSliceIntended | memory/src/pressure.rs:352 | the corrected join of `/user.slice` gives `/sys/fs/cgroup/user.slice` |
| PressureParse.StripSlashes | memory/src/pressure.rs:352 | drops leading slashes only: the result is a suffix of the input and does not start with a slash |
| PressureParse.CgroupV2PathAsWritten | memory/src/pressure.rs:345-356 | a path exists only when `/proc/self/cgroup` is readable and has a `0::` line; it is always absolute (starts with `/`) |
| PressureParse.CgroupV2Path | memory/src/pressure.rs:345-356 | finds a path exactly when the as-written lookup does, and the path always lies under `/sys/fs/cgroup` |
| PressureParse.CgroupPathInside | memory/src/pressure.rs:345-356 | the corrected path for a `0::` line is `/sys/fs/cgroup/` followed by the named path without leading slashes |
| Pressure.DefaultThresholds | memory/src/pressure.rs:22-35 | the severe threshold is below the moderate one, and both are at most 1000 |
| Pressure.DefaultMonitorConfig | memory/src/pressure.rs:37-53 | samples every second with a three-sample monotonic window |
| Pressure.MapHeadroomPerMille | memory/src/pressure.rs:290-301 | Severe iff at or below the severe threshold; Moderate iff above it and at or below the moderate one; Low iff above both |
| Pressure.MapMonotone | memory/src/pressure.rs:290-301 | more headroom never gives a higher pressure |
| Pressure.DefaultClassification | memory/src/pressure.rs:423-433 | with default thresholds: 250 is Low, 150 Moderate, 100 and 5 Severe |
| Pressure.HeadroomPerMilleAsWritten | memory/src/pressure.rs:303-309 | the ratio with saturating multiplication: None iff the total is 0, otherwise at most 1000 |
| Pressure.HeadroomSaturates | memory/src/pressure.rs:303-309 | with 2^62 bytes both available and total, the as-written ratio is 3 (Severe) where the true ratio is 1000 |
| Pressure.HeadroomAgrees | memory/src/pressure.rs:303-309 | whenever `available * 1000` fits in u64, the as-written and corrected ratios agree |
| Pressure.HeadroomPerMille | memory/src/pressure.rs:303-309 | None iff the total is 0, otherwise at most 1000 |
| Pressure.HeadroomIsRatio | memory/src/pressure.rs:303-309 | for a nonzero total the result is 1000 when available ≥ total, else the floor of available×1000/total |
| Pressure.Ratio | memory/src/pressure.rs:303-309 | the headroom ratio of either build: None iff the total is 0, otherwise at most 1000 |
| Pressure.CgroupDir | memory/src/pressure.rs:345-356 | the cgroup directory of either build: found iff the program finds one; under the intended build it lies under `/sys/fs/cgroup` |
| Pressure.Classify | memory/src/pressure.rs:206-212 | None iff the total is 0; otherwise a reading of the given source whose headroom is the build's ratio and whose pressure is that ratio's threshold classification |
| Pressure.ClassifySaturates | memory/src/pressure.rs:205-212 | a system reading with 2^62 bytes available of 2^62 is Severe as written and Low as intended |
| Pressure.NewCgroupSource | memory/src/pressure.rs:160-170 | exists iff the program finds a cgroup v2 path; both file paths start with the build's directory, and under the intended build with `/sys/fs/cgroup` |
| Pressure.CgroupSourceEscapes | memory/src/pressure.rs:161-165 | as written, a process in cgroup `/p` reads `/p/memory.max` and `/p/memory.current` |
| Pressure.CgroupSample | memory/src/pressure.rs:172-189 | a reading exists iff `memory.max` parses to a nonzero limit and `memory.current` parses; its headroom is the build's ratio of (limit − current, floored at 0) to the limit |
| Pressure.SystemSample | memory/src/pressure.rs:197-214 | a reading exists iff meminfo yields both values with a nonzero total; its headroom is the build's ratio of available to total |
| Pressure.RssSample | memory/src/pressure.rs:223-243 | a reading exists iff the total is nonzero and the RSS line parses; its headroom is the build's ratio of (total − RSS, floored at 0) to total |
| Pressure.NewDefaultSource | memory/src/pressure.rs:121-127 | holds a cgroup source iff the program finds a cgroup v2 path, reading from the build's directory |
| Pressure.DefaultSample | memory/src/pressure.rs:137-150 | None iff every source fails; a cgroup reading wins when present; meminfo only when cgroup fails; RSS only when both fail |
| Pressure.ReadingConsistent | memory/src/pressure.rs:137-150 | every reading of the default source, under either build, has headroom at most 1000 and a pressure consistent with it |
| Pressure.NewSmoother | memory/src/pressure.rs:253-260 | starts at Low with the last change at the start time |
| Pressure.Filter | memory/src/pressure.rs:262-279 | the output is the new or the old level, never below the new one; a rise or an equal level is taken at once and stamped; a fall inside the window keeps the old state; a fall once the window has elapsed is taken and stamped; the stored level is the output |
| Pressure.NoEarlyDrop | memory/src/pressure.rs:270-279 | a lower output than before only happens once the window has elapsed, and then it is the new sample |
| Pressure.FilterAll | memory/src/pressure.rs:262-279 | over a run of samples every output is at least as severe as its sample |
| Pressure.SpikeHeld | memory/src/pressure.rs:262-279 | a Severe spike is held for the 3000 ms window, then released |
| Pressure.MonitorStep | memory/src/pressure.rs:86-94 | a failed sample leaves the smoother untouched and sends nothing; otherwise it sends exactly the smoother's output for the sampled pressure and keeps the smoother's new state, which is never below the sample |
| Pressure.DrainLatest | memory/src/pressure.rs:103-109 | None iff the queue is empty, otherwise its last element |
| TabTree.Empty | src/state.rs:67-73 | the empty state is well formed |
| TabTree.CreateTabInternalAsWritten | src/state.rs:97-130 | the insertion as written: returns `next_id` and advances it; a node made its own parent lists itself as its own child |
| TabTree.SelfParentBreaksOrder | src/state.rs:121-125 | as written, creating a tab whose parent is its own new id breaks the forest order |
| TabTree.CreateTabInternal | src/state.rs:97-130 | returns the old `next_id`, advances it, adds exactly that key, keeps `active` and the closed list; the new node is fresh and is linked under its existing parent, as a root, or (for a missing parent) nowhere |
| TabTree.CreateKeepsWF | src/state.rs:97-130 | in a well-formed state the new id is unused and creation keeps the state well formed |
| TabTree.CreateAgrees | src/state.rs:97-130 | when the parent is not the new id itself, the as-written and corrected insertions coincide |
| TabTree.CreateTab | src/state.rs:89-91 | returns `next_id`, which now names a node |
| TabTree.CreateGroup | src/state.rs:93-95 | returns `next_id`, which now names a node appended to the roots |
| TabTree.CreateIdsIncrease | src/state.rs:97-119 | two successive creations return strictly increasing ids |
| TabTree.SetActive | src/state.rs:157-161 | `active` changes to a known id and nothing else changes; an unknown id changes nothing |
| TabTree.ToggleExpanded | src/state.rs:163-169 | flips only a known node with children, touching only that flag; otherwise no change |
| TabTree.TogglePin | src/state.rs:183-187 | flips only the pin flag of a known node; an unknown id changes nothing |
| TabTree.ToggleMute | src/state.rs:189-193 | flips only the mute flag of a known node; an unknown id changes nothing |
| TabTree.ToggleSuspended | src/state.rs:195-199 | flips only the suspended flag of a known node; an unknown id changes nothing |
| TabTree.TogglesAreInvolutions | src/state.rs:163-199 | each toggle applied twice restores the state |
| TabTree.UpdateTab | src/state.rs:171-181 | unknown id: no change; otherwise only that node changes; a given title replaces the old one; a given URL replaces it and clears the favicon; every other field is kept |
| TabTree.UpdateKeepsWF | src/state.rs:171-199 | replacing a node's payload without touching its id, parent or children keeps the state well formed |
| TabTree.RemoveTab | src/state.rs:132-155 | unknown id: no change; the id counter and the forest order are kept |
| TabTree.RemoveTabIsSpec | src/state.rs:132-155 | the recursive removal equals its declarative description: drop the post-order subtree, detach the top node, append one closed record per removed node, and re-point `active` to the first remaining root when it lay in the removed subtree |
| TabTree.RemoveAllIsSpec | src/state.rs:134-136 | removing a node's children one by one clears exactly their subtrees |
| TabTree.RemoveTabKeepsWF | src/state.rs:132-155 | removal keeps the state well formed, and keeps `active` naming a node when it did before |
| TabTree.RemoveTabDropsSubtree | src/state.rs:132-155 | exactly the node and its descendants disappear, each visited once, with their closed records appended in removal order; no root or child list mentions the removed id |
| TabTree.ActiveStaysKnown | src/state.rs:89-199 | creation, activation, the toggles and updates keep `active` naming a node |
| TabTree.SetFaviconForUrl | src/state.rs:201-210 | every node with the URL gets the favicon and no other node changes; the returned ids are exactly those nodes, each once |
| TabTree.FaviconKeepsWF | src/state.rs:201-210 | the favicon update keeps the state well formed and `active` known |
| TabTree.OrderedChildren | src/state.rs:212-226 | the loop returns the pinned known ids followed by the unpinned known ids, each in input order |
| TabTree.PinnedArePinned | src/state.rs:212-226 | the first group holds only known pinned ids |
| TabTree.UnpinnedAreUnpinned | src/state.rs:212-226 | the second group holds only known unpinned ids |
| TabTree.OrderedChildrenPermutes | src/state.rs:212-226 | the result is a permutation of the known ids of the input, with unknown ids dropped |
| TabTree.NewLayout | src/state.rs:66-87 | the starting state has Home and the expanded "Reading" group as roots, three tabs under the group, WebKitGTK active and next id 6 |
| TabTree.NewWF | src/state.rs:66-87 | the starting state is well formed and its active tab is known |
| TabTree.SetActiveKeepsWF | src/state.rs:157-161 | activating a known node keeps the state well formed and makes `active` known |
| App.TrimStart | src/app.rs:491 | drops a whitespace prefix only: the result is a suffix of the input and does not start with whitespace |
| App.TrimEnd | src/app.rs:491 | drops a whitespace suffix only: the result is a prefix of the input and does not end with whitespace |
| App.Trim | src/app.rs:491 | the result has no surrounding whitespace and is empty iff the input is all whitespace |
| App.TrimPadded | src/app.rs:491 | trimming whitespace around a trimmed non-empty text gives that text back |
| App.TrimIdempotent | src/app.rs:491 | trimming twice equals trimming once |
| App.NormalizeUrl | src/app.rs:490-501 | blank input gives `owl://home`; trimmed input with `://`, `about:` or `owl://` is kept; anything else is prefixed with `https://` |
| App.NormalizeIdempotent | src/app.rs:490-501 | normalising a normalised address changes nothing |
| App.Route | src/app.rs:482-488 | an address goes home iff it starts with `owl://` or is exactly `about:home`; anything else is loaded unchanged |
| App.RouteOfNormalized | src/app.rs:482-501 | a typed address reaches the home page iff, after trimming, it is blank, starts with `owl://` or is `about:home` |
| App.SessionTemplate | src/app.rs:525-553 | Some exactly for the three known slugs, each with three tabs |
| App.FillShape | src/app.rs:510-516 | the tab loop creates one child of the group per template entry, in template order and with consecutive ids, and leaves every earlier node unchanged |
| App.OpenResultShape | src/app.rs:503-523 | opening a template adds one root group with the template title, its children are fresh tabs with the template titles and URLs in order, the first becomes active, and every earlier node is unchanged |
| App.FillTabs | src/app.rs:510-516 | the loop creates the tabs and reports the first tab's id and URL, or None for an empty template |
| App.OpenTemplate | src/app.rs:504-522 | creates the group and tabs, activates the first tab and returns its URL |
| App.OpenSession | src/app.rs:503-523 | an unknown slug returns None and leaves the state untouched; a known slug opens its template and returns the first tab's URL |
| App.PrefetchUrls | src/app.rs:582-603 | the list has no duplicates, and holds a URL iff some tab without a favicon has that http:// or https:// URL |

## Left out

- Diagnostics in the scheduler (`maybe_poll_feedback`, the feedback sampler, `poll_execution_feedback`): they sit behind a build feature and only observe. `maybe_poll_feedback` is treated as a no-op.
- `Instant::now()`: every operation that reads the clock takes `now: nat` in milliseconds. `Duration` constants are millisecond naturals, and `duration_since` saturates at zero (`Common.Since`). Where one call reads the clock twice (`on_tab_state_changed`, scheduler/src/lib.rs:1048 and 1050), both reads are taken as the same instant `now`.
- Engine calls are appended to a log. `HashMap` iteration order in `reconcile` is unspecified, so `Governor.Reconcile` picks tabs in an arbitrary order. Its contract fixes each tab's calls, not the interleaving across tabs.
- The background monitor thread, its channel and its sleep (memory/src/pressure.rs:79-100): concurrency. Only one iteration is modelled, as `Pressure.MonitorStep` (sample, then filter).
- File I/O (`read_to_buffer`, `File::open`): a file system is a map from path bytes to contents, and an unreadable file is an absent key.
- GTK, WebKit and libadwaita wiring (`app/src/main.rs`, `engine/src/lib.rs`, the closures in `src/app.rs`), and `src/ipc.rs` and `src/assets.rs` (JSON and JavaScript bridging): foreign library calls.
- `queue_favicon_fetch` and the favicon database callbacks: foreign calls. Only the URL list built by `prefetch_all_favicons` is modelled.
- `to_ui_tree` (src/state.rs:228-256): serialisation for the sidebar UI.
- `animate_sidebar` and `cubic_bezier`: floating point animation.
- storage, memory and ui `lib.rs` stubs: they have no behaviour.
- IdGen.Next: ids are unbounded naturals; the u64 overflow of `id + 1` at `u64::MAX` is not modelled. The same holds for `next_id` in `TabTree.CreateTabInternal`.
- TabTree.RemoveTab: requires `Ordered` (every child id exceeds its parent's id), which every reachable state keeps. Without it, a cycle of child links would make the source recurse forever, which a total function cannot express.
- TabTree.CreateTab: its own contract states only the returned id; well-formedness after creation is stated by `TabTree.CreateKeepsWF`, and the full effect by `TabTree.CreateTabInternal`.
- TabTree.CreateTab: built on the corrected insertion `TabTree.CreateTabInternal`. For `parent == Some(next_id)` the program makes the new node its own child, and this model lists it nowhere (see "## Findings"). The two insertions agree on every other input (`TabTree.CreateAgrees`).
- TabTree.CreateGroup: as for `CreateTab`, well-formedness comes from `TabTree.CreateKeepsWF`.
- App.PrefetchUrls: the order of the list is not stated, because the source follows `HashMap` value order.
- Tabs.ActiveTab and Tabs.TabList are plain accessors and carry no contract.

## Findings

| source | as written | input that shows it | evidently intended | confidence | as-written member | corrected member |
|---|---|---|---|---|---|---|
| memory/src/pressure.rs:303-309 | `available.saturating_mul(1000) / total` saturates before dividing | available = total = 2^62 bytes gives 3 per mille, classified Severe | the true ratio `min(available*1000/total, 1000)`, here 1000 (Low) | not executed; low, since hosts with 2^54 bytes of memory are hypothetical | Pressure.HeadroomPerMilleAsWritten, Pressure.HeadroomSaturates, Pressure.ClassifySaturates | Pressure.HeadroomPerMille, Pressure.HeadroomIsRatio |
| memory/src/pressure.rs:345-356 | `PathBuf::from("/sys/fs/cgroup").join(path)` with the `0::` path, which starts with `/` | a `/proc/self/cgroup` line `0::/user.slice` yields `/user.slice`, not `/sys/fs/cgroup/user.slice` | the cgroup directory under the cgroup2 mount | not executed; high, since `Path::join` with an absolute path replaces the base | PressureParse.CgroupV2PathAsWritten, PressureParse.CgroupPathEscapes, PressureParse.UserSliceEscapes, Pressure.CgroupSourceEscapes | PressureParse.CgroupV2Path, PressureParse.CgroupPathInside, PressureParse.UserSliceIntended |
| src/state.rs:97-130 | the parent lookup happens after the new node is inserted | `create_tab(Some(next_id), ..)` makes the new node its own child, so `remove_tab` on it recurses on itself | a parent must be an existing node other than the new one | not executed; low, since no caller passes an unallocated id | TabTree.CreateTabInternalAsWritten, TabTree.SelfParentBreaksOrder | TabTree.CreateTabInternal, TabTree.CreateKeepsWF, TabTree.CreateAgrees |

=== FILE: app.dfy ===
/** The pure helpers of the browser shell in `src/app.rs`: address-bar
    normalisation, the home routing of `load_url`, the built-in session
    templates, opening a session on the tab tree, and the choice of URLs
    whose favicons are fetched ahead of time. */
module App {
  import opened Common
  import opened TabTree

  // ---------------------------------------------------------------------
  // Trimming

  /** Rust's `char::is_whitespace`: the Unicode White_Space property. */
  predicate IsWhitespace(c: char) {
    || ('\U{9}' <= c <= '\U{D}') || c == ' ' || c == '\U{85}' || c == '\U{A0}' || c == '\U{1680}'
    || ('\U{2000}' <= c <= '\U{200A}') || c == '\U{2028}' || c == '\U{2029}' || c == '\U{202F}'
    || c == '\U{205F}' || c == '\U{3000}'
  }

  predicate AllWhitespace(s: string) {
    forall i :: 0 <= i < |s| ==> IsWhitespace(s[i])
  }

  /** Neither end of `s` is whitespace (an empty string qualifies). */
  predicate Trimmed(s: string) {
    |s| == 0 || (!IsWhitespace(s[0]) && !IsWhitespace(s[|s| - 1]))
  }

  /** `str::trim_start`. */
  function TrimStart(s: string): (r: string)
    ensures |r| <= |s| && r == s[|s| - |r|..]
    ensures |r| == 0 || !IsWhitespace(r[0])
    ensures AllWhitespace(s[..|s| - |r|])
  {
    if |s| > 0 && IsWhitespace(s[0]) then TrimStart(s[1..]) else s
  }

  /** `str::trim_end`. */
  function TrimEnd(s: string): (r: string)
    ensures |r| <= |s| && r == s[..|r|]
    ensures |r| == 0 || !IsWhitespace(r[|r| - 1])
    ensures AllWhitespace(s[|r|..])
  {
    if |s| > 0 && IsWhitespace(s[|s| - 1]) then
      var r := TrimEnd(s[..|s| - 1]);
      assert s[..|s| - 1][..|r|] == s[..|r|];
      assert s[|r|..] == s[..|s| - 1][|r|..] + [s[|s| - 1]];
      r
    else s
  }

  /** `str::trim`: the string without leading and trailing whitespace. */
  function Trim(s: string): (r: string)
    ensures Trimmed(r) && |r| <= |s|
    ensures |r| == 0 <==> AllWhitespace(s)
  {
    var t := TrimStart(s);
    var r := TrimEnd(t);
    assert |r| == 0 ==> AllWhitespace(s) by {
      if |r| == 0 {
        assert s == s[..|s| - |t|] + t;
        assert t == t[|r|..];
      }
    }
    assert |r| > 0 ==> !IsWhitespace(r[0]) by {
      if |r| > 0 {
        assert r[0] == t[0];
      }
    }
    assert |r| > 0 ==> !AllWhitespace(s) by {
      if |r| > 0 {
        assert s[|s| - |t|] == t[0];
      }
    }
    r
  }

  lemma {:induction false} TrimStartPadded(w: string, m: string)
    requires AllWhitespace(w) && (|m| == 0 || !IsWhitespace(m[0]))
    ensures TrimStart(w + m) == m
  {
    if |w| > 0 {
      assert (w + m)[1..] == w[1..] + m;
      TrimStartPadded(w[1..], m);
    } else {
      assert w + m == m;
    }
  }

  lemma {:induction false} TrimEndPadded(m: string, w: string)
    requires AllWhitespace(w) && (|m| == 0 || !IsWhitespace(m[|m| - 1]))
    ensures TrimEnd(m + w) == m
  {
    if |w| > 0 {
      assert (m + w)[..|m + w| - 1] == m + w[..|w| - 1];
      TrimEndPadded(m, w[..|w| - 1]);
    } else {
      assert m + w == m;
    }
  }

  /** `Trim` is characterised by what it strips: whitespace padding around
      a string whose ends are not whitespace comes off, and nothing else. */
  lemma TrimPadded(w1: string, m: string, w2: string)
    requires AllWhitespace(w1) && AllWhitespace(w2) && Trimmed(m) && |m| > 0
    ensures Trim(w1 + m + w2) == m
  {
    assert w1 + m + w2 == w1 + (m + w2);
    TrimStartPadded(w1, m + w2);
    TrimEndPadded(m, w2);
  }

  /** A string without whitespace at its ends trims to itself. */
  lemma TrimFixed(s: string)
    requires Trimmed(s)
    ensures Trim(s) == s
  {
    if |s| > 0 {
      assert [] + s + [] == s;
      TrimPadded([], s, []);
    }
  }

  lemma TrimIdempotent(s: string)
    ensures Trim(Trim(s)) == Trim(s)
  {
    TrimFixed(Trim(s));
  }

  // ---------------------------------------------------------------------
  // Address-bar input

  const SCHEME_SEP: string := "://"
  const OWL: string := "owl" + SCHEME_SEP
  const HOME_URL: string := OWL + "home"
  const HTTPS: string := "https" + SCHEME_SEP
  const ABOUT: string := "about:"
  const ABOUT_HOME: string := ABOUT + "home"

  /** The inputs `normalize_url` passes through unchanged once trimmed. */
  predicate KeepsScheme(t: string) {
    Contains(t, SCHEME_SEP) || StartsWith(t, ABOUT) || StartsWith(t, OWL)
  }

  /** `normalize_url`: blank input goes home, input with a scheme (or an
      `about:` or `owl://` prefix) is kept, anything else gets `https://`. */
  function NormalizeUrl(input: string): (r: string)
    ensures AllWhitespace(input) ==> r == HOME_URL
    ensures !AllWhitespace(input) && KeepsScheme(Trim(input)) ==> r == Trim(input)
    ensures !AllWhitespace(input) && !KeepsScheme(Trim(input)) ==> r == HTTPS + Trim(input)
  {
    var t := Trim(input);
    if |t| == 0 then HOME_URL
    else if KeepsScheme(t) then t
    else HTTPS + t
  }

  /** `needle` found at position `i` is found. */
  lemma {:induction false} ContainsAt(s: string, needle: string, i: nat)
    requires i + |needle| <= |s| && s[i..i + |needle|] == needle
    ensures Contains(s, needle)
    decreases i
  {
    if i > 0 {
      assert s[1..][i - 1..i - 1 + |needle|] == s[i..i + |needle|];
      ContainsAt(s[1..], needle, i - 1);
    }
  }

  lemma ContainsMiddle(a: string, needle: string, b: string)
    ensures Contains(a + needle + b, needle)
  {
    var s := a + needle + b;
    assert s[|a|..|a| + |needle|] == needle;
    ContainsAt(s, needle, |a|);
  }

  lemma StartsWithAppend(a: string, b: string)
    ensures StartsWith(a + b, a)
  {
    assert (a + b)[..|a|] == a;
  }

  /** Strings whose first characters differ do not start one with the other. */
  lemma FirstDiffers(s: string, p: string)
    requires |s| > 0 && |p| > 0 && s[0] != p[0]
    ensures !StartsWith(s, p) && s != p
  {
    if |p| <= |s| {
      assert s[..|p|][0] == s[0];
    }
  }

  lemma HomeKept()
    ensures Trim(HOME_URL) == HOME_URL && KeepsScheme(HOME_URL)
  {
    assert HOME_URL == "owl" + SCHEME_SEP + "home";
    ContainsMiddle("owl", SCHEME_SEP, "home");
    assert HOME_URL[0] == 'o' && HOME_URL[|HOME_URL| - 1] == 'e';
    TrimFixed(HOME_URL);
  }

  lemma HttpsKept(t: string)
    requires Trimmed(t) && |t| > 0
    ensures Trim(HTTPS + t) == HTTPS + t && KeepsScheme(HTTPS + t)
    ensures (HTTPS + t)[0] == 'h'
  {
    var u := HTTPS + t;
    assert u == "https" + SCHEME_SEP + t;
    ContainsMiddle("https", SCHEME_SEP, t);
    assert u[0] == 'h' && u[|u| - 1] == t[|t| - 1];
    TrimFixed(u);
  }

  /** Normalising an already normalised address changes nothing. */
  lemma NormalizeIdempotent(input: string)
    ensures NormalizeUrl(NormalizeUrl(input)) == NormalizeUrl(input)
  {
    var t := Trim(input);
    if |t| == 0 {
      HomeKept();
    } else if KeepsScheme(t) {
      TrimFixed(t);
    } else {
      HttpsKept(t);
    }
  }

  /** Where `load_url` sends the content view. */
  datatype Navigation = LoadHome | LoadUri(uri: string)

  /** `load_url`: internal `owl://` pages and exactly `about:home` go to the
      home page; everything else is loaded as given. */
  function Route(url: string): (n: Navigation)
    ensures n.LoadHome? <==> StartsWith(url, OWL) || url == ABOUT_HOME
    ensures n.LoadUri? ==> n.uri == url
  {
    if StartsWith(url, OWL) || url == ABOUT_HOME then LoadHome else LoadUri(url)
  }

  /** An address typed by the user reaches the home page exactly when it is
      blank, an `owl://` address or `about:home`, after trimming. */
  lemma RouteOfNormalized(input: string)
    ensures var t := Trim(input);
            Route(NormalizeUrl(input)).LoadHome? <==> |t| == 0 || StartsWith(t, OWL) || t == ABOUT_HOME
  {
    var t := Trim(input);
    if |t| == 0 {
      RouteHome();
    } else if !KeepsScheme(t) {
      RouteHttps(t);
    }
  }

  lemma RouteHome()
    ensures Route(HOME_URL).LoadHome?
  {
    StartsWithAppend(OWL, "home");
  }

  lemma RouteHttps(t: string)
    requires Trimmed(t) && |t| > 0 && !KeepsScheme(t)
    ensures Route(HTTPS + t).LoadUri? && !StartsWith(t, OWL) && t != ABOUT_HOME
  {
    HttpsNotHome(t);
    NotAboutHome(t);
  }

  lemma HttpsNotHome(t: string)
    ensures !StartsWith(HTTPS + t, OWL) && HTTPS + t != ABOUT_HOME
  {
    assert (HTTPS + t)[0] == 'h' && OWL[0] == 'o' && ABOUT_HOME[0] == 'a';
    FirstDiffers(HTTPS + t, OWL);
    FirstDiffers(HTTPS + t, ABOUT_HOME);
  }

  lemma NotAboutHome(t: string)
    requires !StartsWith(t, ABOUT)
    ensures t != ABOUT_HOME
  {
    StartsWithAppend(ABOUT, "home");
  }

  // ---------------------------------------------------------------------
  // Session templates

  datatype Template = Template(groupTitle: string, tabs: seq<(string, string)>)

  const SESSION_SLUGS: seq<string> := ["research-notes", "release-planning", "wayland-checklist"]

  /** `session_template`: three built-in sessions of three tabs each. */
  function SessionTemplate(slug: string): (r: Option<Template>)
    ensures r.Some? <==> slug in SESSION_SLUGS
    ensures r.Some? ==> |r.value.tabs| == 3
  {
    if slug == "research-notes" then
      Some(Template("Research Notes", [
        ("WebKitGTK", "https://webkitgtk.org"),
        ("Rust Book", "https://doc.rust-lang.org/book/"),
        ("Fedora Docs", "https://docs.fedoraproject.org")]))
    else if slug == "release-planning" then
      Some(Template("Release Planning", [
        ("GNOME Release", "https://release.gnome.org"),
        ("Fedora Schedule", "https://fedorapeople.org/groups/schedule/"),
        ("Issue Tracker", "https://gitlab.gnome.org")]))
    else if slug == "wayland-checklist" then
      Some(Template("Wayland Checklist", [
        ("Wayland", "https://wayland.freedesktop.org"),
        ("GTK4", "https://www.gtk.org"),
        ("libadwaita", "https://gnome.pages.gitlab.gnome.org/libadwaita/")]))
    else None
  }

  // ---------------------------------------------------------------------
  // Opening a session

  /** The tabs of a template created one after the other under `g`. */
  function Fill(s: BrowserState, g: nat, tabs: seq<(string, string)>): BrowserState {
    if |tabs| == 0 then s
    else CreateTab(Fill(s, g, tabs[..|tabs| - 1]), Some(g), tabs[|tabs| - 1].0, tabs[|tabs| - 1].1).1
  }

  /** `t` is `s` with the tabs appended under the existing node `g`: the
      counters and lists, then the new nodes, then the old ones. */
  ghost predicate Filled(s: BrowserState, g: nat, tabs: seq<(string, string)>, t: BrowserState) {
    FilledTop(s, g, tabs, t) && FilledNew(s, g, tabs, t) && FilledOld(s, g, t)
  }

  ghost predicate FilledTop(s: BrowserState, g: nat, tabs: seq<(string, string)>, t: BrowserState) {
    var n := s.nextId;
    && g in s.tabs && g < n
    && WF(t) && t.nextId == n + |tabs| && t.roots == s.roots && t.active == s.active
    && t.recentlyClosed == s.recentlyClosed
    && g in t.tabs && t.tabs[g] == s.tabs[g].(children := s.tabs[g].children + seq(|tabs|, i => n + i))
  }

  ghost predicate FilledNew(s: BrowserState, g: nat, tabs: seq<(string, string)>, t: BrowserState) {
    forall i :: 0 <= i < |tabs| ==> FreshAt(t.tabs, s.nextId, g, tabs, i)
  }

  /** Node `n + i` of `m` is the fresh child of `g` for the i-th tab. */
  ghost predicate FreshAt(m: map<nat, TabNode>, n: nat, g: nat, tabs: seq<(string, string)>, i: nat)
    requires i < |tabs|
  {
    n + i in m && m[n + i] == FreshNode(n + i, Some(g), tabs[i].0, tabs[i].1, false)
  }

  ghost predicate FilledOld(s: BrowserState, g: nat, t: BrowserState) {
    forall k :: k in s.tabs && k != g ==> k in t.tabs && t.tabs[k] == s.tabs[k]
  }

  lemma FillStepTop(s: BrowserState, g: nat, tabs: seq<(string, string)>, t: BrowserState, u: BrowserState)
    requires |tabs| > 0 && FilledTop(s, g, tabs[..|tabs| - 1], t)
    requires u == CreateTab(t, Some(g), tabs[|tabs| - 1].0, tabs[|tabs| - 1].1).1
    ensures FilledTop(s, g, tabs, u)
  {
    var n := s.nextId;
    var m := |tabs| - 1;
    CreateChildOf(t, g, tabs[m].0, tabs[m].1);
    assert seq(m, i => n + i) + [n + m] == seq(|tabs|, i => n + i);
  }

  lemma FillStepNew(s: BrowserState, g: nat, tabs: seq<(string, string)>, t: BrowserState, u: BrowserState)
    requires |tabs| > 0 && FilledTop(s, g, tabs[..|tabs| - 1], t) && FilledNew(s, g, tabs[..|tabs| - 1], t)
    requires u == CreateTab(t, Some(g), tabs[|tabs| - 1].0, tabs[|tabs| - 1].1).1
    ensures FilledNew(s, g, tabs, u)
  {
    var m := |tabs| - 1;
    CreateChildOf(t, g, tabs[m].0, tabs[m].1);
    assert FreshAt(u.tabs, s.nextId, g, tabs, m);
    NewNodesStep(s.nextId, g, tabs, tabs[..m], t.tabs, u.tabs);
  }

  /** The node half of `FillStepNew`, on the node maps alone. */
  lemma NewNodesStep(n: nat, g: nat, tabs: seq<(string, string)>, init: seq<(string, string)>,
                     t: map<nat, TabNode>, u: map<nat, TabNode>)
    requires |tabs| > 0 && g < n && init == tabs[..|tabs| - 1]
    requires forall i :: 0 <= i < |init| ==> FreshAt(t, n, g, init, i)
    requires FreshAt(u, n, g, tabs, |tabs| - 1)
    requires forall k :: k in t && k != g ==> k in u && u[k] == t[k]
    ensures forall i :: 0 <= i < |tabs| ==> FreshAt(u, n, g, tabs, i)
  {
    forall i | 0 <= i < |tabs| - 1
      ensures FreshAt(u, n, g, tabs, i)
    {
      assert FreshAt(t, n, g, init, i);
      assert init[i] == tabs[i];
    }
  }

  lemma FillStepOld(s: BrowserState, g: nat, tabs: seq<(string, string)>, t: BrowserState, u: BrowserState)
    requires |tabs| > 0 && FilledTop(s, g, tabs[..|tabs| - 1], t) && FilledOld(s, g, t)
    requires u == CreateTab(t, Some(g), tabs[|tabs| - 1].0, tabs[|tabs| - 1].1).1
    ensures FilledOld(s, g, u)
  {
    var m := |tabs| - 1;
    CreateChildOf(t, g, tabs[m].0, tabs[m].1);
  }

  lemma {:induction false} FillShape(s: BrowserState, g: nat, tabs: seq<(string, string)>)
    requires WF(s) && g in s.tabs
    ensures Filled(s, g, tabs, Fill(s, g, tabs))
    decreases |tabs|
  {
    if |tabs| == 0 {
      assert s.tabs[g].children + seq(0, i => s.nextId + i) == s.tabs[g].children;
    } else {
      var t := Fill(s, g, tabs[..|tabs| - 1]);
      var u := Fill(s, g, tabs);
      FillShape(s, g, tabs[..|tabs| - 1]);
      FillStepTop(s, g, tabs, t, u);
      FillStepNew(s, g, tabs, t, u);
      FillStepOld(s, g, tabs, t, u);
    }
  }

  /** The state `open_session` leaves for a known template. */
  function OpenResult(s: BrowserState, tpl: Template): BrowserState {
    var created := CreateGroup(s, tpl.groupTitle);
    var t := FillGroup(created, tpl.tabs);
    if |tpl.tabs| > 0 then SetActive(t, created.0 + 1) else t
  }

  /** The freshly created group `created.0` filled with the tabs; a plain
      name for `Fill`, so that `OpenResult` does not unfold the recursion. */
  function FillGroup(created: (nat, BrowserState), tabs: seq<(string, string)>): BrowserState {
    Fill(created.1, created.0, tabs)
  }

  /** After `open_session`: a new top-level group node titled after the
      template whose children are the template's tabs in order, the first
      of them active. */
  ghost predicate OpenedGroup(s: BrowserState, tpl: Template, r: BrowserState) {
    var g := s.nextId;
    && WF(r) && r.nextId == g + 1 + |tpl.tabs| && r.roots == s.roots + [g]
    && g in r.tabs
    && r.tabs[g] == FreshNode(g, None, tpl.groupTitle, GROUP_URL, true).(children := seq(|tpl.tabs|, i => g + 1 + i))
    && r.active == (if |tpl.tabs| > 0 then Some(g + 1) else s.active)
    && r.recentlyClosed == s.recentlyClosed
  }

  /** After `open_session`: the i-th child is the template's i-th tab. */
  ghost predicate OpenedTabs(s: BrowserState, tpl: Template, r: BrowserState) {
    forall i :: 0 <= i < |tpl.tabs| ==> TabOpened(s, tpl, r, i)
  }

  /** Node `g + 1 + i` is a fresh child of the group `g` for the i-th tab. */
  ghost predicate TabOpened(s: BrowserState, tpl: Template, r: BrowserState, i: nat)
    requires i < |tpl.tabs|
  {
    FreshAt(r.tabs, s.nextId + 1, s.nextId, tpl.tabs, i)
  }

  /** After `open_session`: every earlier node is untouched. */
  ghost predicate OpenedKeeps(s: BrowserState, r: BrowserState) {
    forall k :: k in s.tabs ==> k in r.tabs && r.tabs[k] == s.tabs[k]
  }

  /** What creating the group leaves, as the `Opened` lemmas need it. */
  ghost predicate GroupMade(s: BrowserState, title: string, s1: BrowserState) {
    var g := s.nextId;
    && WF(s1) && g in s1.tabs && s1.nextId == g + 1 && s1.roots == s.roots + [g]
    && s1.tabs[g] == FreshNode(g, None, title, GROUP_URL, true) && s1.active == s.active
    && s1.recentlyClosed == s.recentlyClosed
    && forall k :: k in s.tabs ==> k in s1.tabs && s1.tabs[k] == s.tabs[k]
  }

  lemma GroupCreated(s: BrowserState, title: string)
    requires WF(s)
    ensures CreateGroup(s, title).0 == s.nextId && GroupMade(s, title, CreateGroup(s, title).1)
  {
    CreateKeepsWF(s, None, title, GROUP_URL, true);
  }

  /** `OpenResult` spelled out through the intermediate states. */
  lemma OpenResultSteps(s: BrowserState, tpl: Template) returns (s1: BrowserState, t: BrowserState)
    requires WF(s)
    ensures GroupMade(s, tpl.groupTitle, s1) && Filled(s1, s.nextId, tpl.tabs, t)
    ensures OpenResult(s, tpl) == if |tpl.tabs| > 0 then t.(active := Some(s.nextId + 1)) else t
  {
    GroupCreated(s, tpl.groupTitle);
    s1 := CreateGroup(s, tpl.groupTitle).1;
    FillShape(s1, s.nextId, tpl.tabs);
    t := Fill(s1, s.nextId, tpl.tabs);
    if |tpl.tabs| > 0 {
      assert FreshAt(t.tabs, s1.nextId, s.nextId, tpl.tabs, 0);
    }
  }

  lemma OpenedGroupFrom(s: BrowserState, tpl: Template, s1: BrowserState, t: BrowserState, r: BrowserState)
    requires GroupMade(s, tpl.groupTitle, s1) && FilledTop(s1, s.nextId, tpl.tabs, t)
    requires r == if |tpl.tabs| > 0 then t.(active := Some(s.nextId + 1)) else t
    ensures OpenedGroup(s, tpl, r)
  {
    var g := s.nextId;
    assert [] + seq(|tpl.tabs|, i => s1.nextId + i) == seq(|tpl.tabs|, i => g + 1 + i);
  }

  lemma OpenedTabsFrom(s: BrowserState, tpl: Template, s1: BrowserState, t: BrowserState, r: BrowserState)
    requires GroupMade(s, tpl.groupTitle, s1) && FilledNew(s1, s.nextId, tpl.tabs, t)
    requires r == if |tpl.tabs| > 0 then t.(active := Some(s.nextId + 1)) else t
    ensures OpenedTabs(s, tpl, r)
  {
    forall i | 0 <= i < |tpl.tabs|
      ensures TabOpened(s, tpl, r, i)
    {
      assert FreshAt(t.tabs, s1.nextId, s.nextId, tpl.tabs, i);
    }
  }

  lemma OpenedKeepsFrom(s: BrowserState, tpl: Template, s1: BrowserState, t: BrowserState, r: BrowserState)
    requires WF(s) && GroupMade(s, tpl.groupTitle, s1) && FilledTop(s1, s.nextId, tpl.tabs, t) && FilledOld(s1, s.nextId, t)
    requires r == if |tpl.tabs| > 0 then t.(active := Some(s.nextId + 1)) else t
    ensures OpenedKeeps(s, r)
  {
    forall k | k in s.tabs
      ensures k in r.tabs && r.tabs[k] == s.tabs[k]
    {
      assert k != s.nextId;
    }
  }

  /** Opening a template on a well-formed state gives the promised shape. */
  lemma OpenResultShape(s: BrowserState, tpl: Template)
    requires WF(s)
    ensures var r := OpenResult(s, tpl);
            OpenedGroup(s, tpl, r) && OpenedTabs(s, tpl, r) && OpenedKeeps(s, r)
  {
    var s1, t := OpenResultSteps(s, tpl);
    var r := OpenResult(s, tpl);
    OpenedGroupFrom(s, tpl, s1, t, r);
    OpenedTabsFrom(s, tpl, s1, t, r);
    OpenedKeepsFrom(s, tpl, s1, t, r);
  }

  lemma NextAfterCreate(s: BrowserState, title: string)
    ensures CreateGroup(s, title).1.nextId == CreateGroup(s, title).0 + 1
  {
  }

  /** The state `OpenTemplate` builds is `OpenResult`. */
  lemma OpenTemplateResult(s: BrowserState, tpl: Template, created: (nat, BrowserState), st: BrowserState,
                           firstId: Option<nat>)
    requires created == CreateGroup(s, tpl.groupTitle) && st == Fill(created.1, created.0, tpl.tabs)
    requires firstId == if |tpl.tabs| > 0 then Some(created.1.nextId) else None
    ensures OpenResult(s, tpl) == if firstId.Some? then SetActive(st, firstId.value) else st
  {
    NextAfterCreate(s, tpl.groupTitle);
    var t := FillGroup(created, tpl.tabs);
    assert OpenResult(s, tpl) == if |tpl.tabs| > 0 then SetActive(t, created.0 + 1) else t;
  }

  /** The loop of `open_session`: the tabs created under `g` one by one,
      with the id and URL of the first. */
  method FillTabs(s1: BrowserState, g: nat, tabs: seq<(string, string)>)
    returns (st: BrowserState, firstId: Option<nat>, firstUrl: Option<string>)
    ensures st == Fill(s1, g, tabs)
    ensures firstId == if |tabs| > 0 then Some(s1.nextId) else None
    ensures firstUrl == if |tabs| > 0 then Some(tabs[0].1) else None
  {
    st := s1;
    firstId := None;
    firstUrl := None;
    var i := 0;
    while i < |tabs|
      invariant 0 <= i <= |tabs|
      invariant st == Fill(s1, g, tabs[..i])
      invariant i == 0 ==> firstUrl.None? && firstId.None? && st == s1
      invariant i > 0 ==> firstUrl == Some(tabs[0].1) && firstId == Some(s1.nextId)
    {
      assert tabs[..i + 1][..i] == tabs[..i];
      var next := CreateTab(st, Some(g), tabs[i].0, tabs[i].1);
      if firstUrl.None? {
        firstUrl := Some(tabs[i].1);
        firstId := Some(next.0);
      }
      st := next.1;
      i := i + 1;
    }
    assert tabs[..|tabs|] == tabs;
  }

  /** The body of `open_session` after the template lookup. */
  method OpenTemplate(s: BrowserState, tpl: Template) returns (r: BrowserState, firstUrl: Option<string>)
    ensures r == OpenResult(s, tpl)
    ensures firstUrl == if |tpl.tabs| > 0 then Some(tpl.tabs[0].1) else None
  {
    var created := CreateGroup(s, tpl.groupTitle);
    var st, firstId;
    st, firstId, firstUrl := FillTabs(created.1, created.0, tpl.tabs);
    OpenTemplateResult(s, tpl, created, st, firstId);
    if firstId.Some? {
      st := SetActive(st, firstId.value);
    }
    r := st;
  }

  /** `open_session`: an unknown slug changes nothing and yields nothing;
      a known one builds its group (see `OpenResultShape`) and yields the
      first tab's URL. */
  method OpenSession(s: BrowserState, slug: string) returns (r: BrowserState, firstUrl: Option<string>)
    ensures SessionTemplate(slug).None? ==> r == s && firstUrl.None?
    ensures SessionTemplate(slug).Some? ==>
              r == OpenResult(s, SessionTemplate(slug).value) && firstUrl == Some(SessionTemplate(slug).value.tabs[0].1)
  {
    var tpl := SessionTemplate(slug);
    if tpl.None? {
      return s, None;
    }
    r, firstUrl := OpenTemplate(s, tpl.value);
  }

  // ---------------------------------------------------------------------
  // Favicon prefetch

  const HTTP: string := "http://"

  /** A tab whose favicon is worth fetching: none yet, and a web address. */
  predicate NeedsFavicon(n: TabNode) {
    n.faviconUri.None? && (StartsWith(n.url, HTTP) || StartsWith(n.url, HTTPS))
  }

  /** Some node among `ids` needs the favicon of `u`. */
  ghost predicate WantedAmong(s: BrowserState, ids: set<nat>, u: string) {
    exists k :: k in ids && k in s.tabs && NeedsFavicon(s.tabs[k]) && s.tabs[k].url == u
  }

  ghost predicate PrefetchInv(s: BrowserState, done: set<nat>, seen: set<string>, urls: seq<string>) {
    && NoDuplicates(urls)
    && (forall u :: u in seen <==> u in urls)
    && (forall u :: u in urls <==> WantedAmong(s, done, u))
  }

  lemma PrefetchStep(s: BrowserState, done: set<nat>, seen: set<string>, urls: seq<string>, k: nat)
    requires PrefetchInv(s, done, seen, urls) && k in s.tabs
    ensures var n := s.tabs[k];
            if NeedsFavicon(n) && n.url !in seen then
              PrefetchInv(s, done + {k}, seen + {n.url}, urls + [n.url])
            else PrefetchInv(s, done + {k}, seen, urls)
  {
    var n := s.tabs[k];
    var done' := done + {k};
    forall u | WantedAmong(s, done, u)
      ensures WantedAmong(s, done', u)
    {
      var j :| j in done && j in s.tabs && NeedsFavicon(s.tabs[j]) && s.tabs[j].url == u;
      assert j in done';
    }
    forall u | WantedAmong(s, done', u)
      ensures WantedAmong(s, done, u) || (NeedsFavicon(n) && u == n.url)
    {
    }
    if NeedsFavicon(n) {
      assert WantedAmong(s, done', n.url) by {
        assert k in done';
      }
      if n.url !in seen {
        var urls' := urls + [n.url];
        forall i, j | 0 <= i < j < |urls'|
          ensures urls'[i] != urls'[j]
        {
          if j == |urls| {
            assert urls'[i] == urls[i];
          }
        }
      }
    }
  }

  /** The URL list of `prefetch_all_favicons`: every web address of a tab
      without a favicon, each once, in map iteration order (any order
      here). */
  method PrefetchUrls(s: BrowserState) returns (urls: seq<string>)
    ensures NoDuplicates(urls)
    ensures forall u :: u in urls <==> WantedAmong(s, s.tabs.Keys, u)
  {
    var left := s.tabs.Keys;
    ghost var done: set<nat> := {};
    var seen: set<string> := {};
    urls := [];
    while left != {}
      invariant left <= s.tabs.Keys && done == s.tabs.Keys - left
      invariant PrefetchInv(s, done, seen, urls)
      decreases left
    {
      var k :| k in left;
      PrefetchStep(s, done, seen, urls, k);
      var n := s.tabs[k];
      if NeedsFavicon(n) && n.url !in seen {
        seen := seen + {n.url};
        urls := urls + [n.url];
      }
      done := done + {k};
      left := left - {k};
    }
  }
}

=== FILE: common.dfy ===
/** Shared vocabulary: the optional value, fixed-width integer ranges and the
    saturating arithmetic the Rust sources use on them, and the millisecond
    clock that stands in for `std::time::Instant`. */
module Common {

  /** Rust's `Option<T>`. */
  datatype Option<+T> = None | Some(value: T)

  /** An element of a byte buffer read from a file. */
  type Byte = b: int | 0 <= b < 0x100

  const U64_MAX: nat := 0xFFFF_FFFF_FFFF_FFFF

  /** Rust's `u64`. */
  type U64 = x: nat | x <= U64_MAX

  /** Rust's `u16`. */
  type U16 = x: nat | x < 0x1_0000

  /** `u64::saturating_mul`. */
  function SatMul(a: U64, b: U64): (r: U64) {
    if a * b <= U64_MAX then a * b else U64_MAX
  }

  /** `u64::saturating_add`. */
  function SatAdd(a: U64, b: U64): (r: U64) {
    if a + b <= U64_MAX then a + b else U64_MAX
  }

  /** `u64::saturating_sub`. */
  function SatSub(a: U64, b: U64): (r: U64) {
    if b <= a then a - b else 0
  }

  function Min(a: int, b: int): int {
    if a <= b then a else b
  }

  /** `Instant::duration_since` on a millisecond clock: the elapsed time,
      saturating at zero when `earlier` is actually later than `now`. */
  function Since(now: nat, earlier: nat): (d: nat) {
    if earlier <= now then now - earlier else 0
  }

  function Last<T>(s: seq<T>): T
    requires |s| > 0
  {
    s[|s| - 1]
  }

  /** True when `prefix` is an initial segment of `s` (Rust `starts_with`). */
  predicate StartsWith<T(==)>(s: seq<T>, prefix: seq<T>) {
    |prefix| <= |s| && s[..|prefix|] == prefix
  }

  /** True when `needle` occurs somewhere in `s` (Rust `str::contains`). */
  predicate Contains<T(==)>(s: seq<T>, needle: seq<T>) {
    StartsWith(s, needle) || (|s| > 0 && Contains(s[1..], needle))
  }

  /** The elements of `s` without any occurrence of `x` (Rust `retain(|e| *e != x)`). */
  function Remove<T(==,!new)>(s: seq<T>, x: T): (r: seq<T>)
    ensures forall e :: e in r <==> e in s && e != x
    ensures |r| <= |s|
  {
    if |s| == 0 then []
    else if s[0] == x then Remove(s[1..], x)
    else [s[0]] + Remove(s[1..], x)
  }

  /** First element of a sequence, if any (Rust `first().copied()`). */
  function First<T>(s: seq<T>): (r: Option<T>) {
    if |s| == 0 then None else Some(s[0])
  }

  /** No element occurs twice. */
  predicate NoDuplicates<T(==)>(s: seq<T>) {
    forall i, j :: 0 <= i < j < |s| ==> s[i] != s[j]
  }
}

=== FILE: governor.dfy ===
/** scheduler/src/lib.rs, `ExecutionGovernor`: per-tab reconciliation of
    lifecycle state, user intent and memory pressure into budgets, hints and
    effective states, with engine calls emitted only on change.

    `Instant::now()` is an explicit millisecond clock `now`; the engine is
    the log of calls each operation returns. */
module Governor {
  import opened Common
  import Tabs
  import opened Scheduler

  const ACTIVE_INPUT_WINDOW: nat := 1200
  const IDLE_THRESHOLD: nat := 4000
  const IDLE_BURST_INTERVAL: nat := 5000
  const IDLE_BURST_DURATION: nat := 500
  const TAB_INPUT_GRACE: nat := 800

  /** One call on the `EngineScheduler` collaborator. */
  datatype EngineCall =
    | ApplyTabState(tab: Tabs.TabId, state: Tabs.TabState)
    | ApplyExecutionBudget(tab: Tabs.TabId, budget: ExecutionBudget)
    | ApplyExecutionHints(tab: Tabs.TabId, hints: ExecutionBudgetHints)

  /** The governor's stored state: base states, the last applied budget,
      hints and effective state per tab, and the input clocks. */
  datatype ExecutionGovernor = ExecutionGovernor(
    states: map<Tabs.TabId, Tabs.TabState>,
    budgets: map<Tabs.TabId, ExecutionBudget>,
    hints: map<Tabs.TabId, ExecutionBudgetHints>,
    effectiveStates: map<Tabs.TabId, Tabs.TabState>,
    lastGlobalInput: nat,
    lastIdleBurst: nat,
    lastTabInput: map<Tabs.TabId, nat>,
    memoryPressure: MemoryPressure)

  /** `ExecutionGovernor::new`: nothing tracked, both input clocks at `now`, Low pressure. */
  function New(now: nat): (g: ExecutionGovernor)
    ensures g.states == map[] && g.budgets == map[] && g.hints == map[] && g.effectiveStates == map[]
    ensures g.lastTabInput == map[]
    ensures g.lastGlobalInput == now && g.lastIdleBurst == now && g.memoryPressure == Low
  {
    ExecutionGovernor(map[], map[], map[], map[], now, now, map[], Low)
  }

  /** `state`: the last recorded base state of `tab`. */
  function State(g: ExecutionGovernor, tab: Tabs.TabId): (r: Option<Tabs.TabState>)
    ensures r.Some? <==> tab in g.states
    ensures r.Some? ==> r.value == g.states[tab]
  {
    if tab in g.states then Some(g.states[tab]) else None
  }

  /** `mark_recent_input`: stamps the global clock, the idle-burst anchor and the tab's clock. */
  function MarkRecentInput(g: ExecutionGovernor, tab: Tabs.TabId, now: nat): (r: ExecutionGovernor)
    ensures r.lastGlobalInput == now && r.lastIdleBurst == now && r.lastTabInput == g.lastTabInput[tab := now]
    ensures r.states == g.states && r.budgets == g.budgets && r.hints == g.hints
    ensures r.effectiveStates == g.effectiveStates && r.memoryPressure == g.memoryPressure
  {
    g.(lastGlobalInput := now, lastIdleBurst := now, lastTabInput := g.lastTabInput[tab := now])
  }

  // ---------------------------------------------------------------------
  // The decision made for one tab

  predicate UserActive(sinceInput: nat) {
    sinceInput <= ACTIVE_INPUT_WINDOW
  }

  predicate UserIdle(sinceInput: nat) {
    sinceInput >= IDLE_THRESHOLD
  }

  /** The idle-burst gate evaluated once per reconcile, before the per-tab
      loop: whether background tabs may run in a burst, and the new anchor.
      A new burst window opens (anchor reset to `now`) once at least
      `IDLE_BURST_INTERVAL` has passed since the anchor; it stays open for
      `IDLE_BURST_DURATION` after the anchor. */
  function BurstGate(g: ExecutionGovernor, now: nat): (r: (bool, nat))
    ensures !UserIdle(Since(now, g.lastGlobalInput)) ==> r == (false, g.lastIdleBurst)
    ensures UserIdle(Since(now, g.lastGlobalInput)) && Since(now, g.lastIdleBurst) >= IDLE_BURST_INTERVAL ==> r == (true, now)
    ensures UserIdle(Since(now, g.lastGlobalInput)) && Since(now, g.lastIdleBurst) < IDLE_BURST_INTERVAL ==>
              r == (Since(now, g.lastIdleBurst) <= IDLE_BURST_DURATION, g.lastIdleBurst)
    ensures r.0 ==> Since(now, r.1) <= IDLE_BURST_DURATION
  {
    if UserIdle(Since(now, g.lastGlobalInput)) then
      var sinceBurst := Since(now, g.lastIdleBurst);
      if sinceBurst >= IDLE_BURST_INTERVAL then (true, now)
      else (sinceBurst <= IDLE_BURST_DURATION, g.lastIdleBurst)
    else (false, g.lastIdleBurst)
  }

  /** Whether `tab` had input within the grace window. */
  predicate TabRecent(g: ExecutionGovernor, tab: Tabs.TabId, now: nat) {
    tab in g.lastTabInput && Since(now, g.lastTabInput[tab]) <= TAB_INPUT_GRACE
  }

  /** The per-tab decision before pressure: tentative effective state, tier and run permission. */
  function PrePressure(base: Tabs.TabState, sinceInput: nat, allowIdleBurst: bool, tabRecent: bool): (r: (Tabs.TabState, BudgetTier, bool))
    ensures base == Tabs.Active ==> r.0 == Tabs.Active && r.1 == Foreground
    ensures base == Tabs.Suspended ==> r.0 == Tabs.Suspended && r.1 == IdleBackground
    ensures base == Tabs.Background && UserActive(sinceInput) ==> r.1 == VisibleBackground && !r.2
    ensures base == Tabs.Background && UserIdle(sinceInput) ==> r.1 == IdleBackground && r.2 == allowIdleBurst
    ensures base == Tabs.Background && !UserActive(sinceInput) && !UserIdle(sinceInput) ==> r.1 == VisibleBackground && r.2
    ensures base == Tabs.Background ==> (r.0 == Tabs.Background <==> r.2 || tabRecent)
    ensures base == Tabs.Background ==> r.0 != Tabs.Active
  {
    match base
    case Active => (Tabs.Active, Foreground, true)
    case Suspended => (Tabs.Suspended, IdleBackground, true)
    case Background =>
      var tier := if UserActive(sinceInput) then VisibleBackground
                  else if UserIdle(sinceInput) then IdleBackground
                  else VisibleBackground;
      var allow := if UserActive(sinceInput) then false
                   else if UserIdle(sinceInput) then allowIdleBurst
                   else true;
      var state := if allow || tabRecent then Tabs.Background else Tabs.Suspended;
      (state, tier, allow)
  }

  /** Pressure demotion of a tier. */
  function Demote(pressure: MemoryPressure, tier: BudgetTier): BudgetTier {
    match (pressure, tier)
    case (Low, t) => t
    case (Moderate, Foreground) => Foreground
    case (Moderate, VisibleBackground) => IdleBackground
    case (Moderate, IdleBackground) => IdleBackground
    case (Severe, Foreground) => VisibleBackground
    case (Severe, VisibleBackground) => IdleBackground
    case (Severe, IdleBackground) => IdleBackground
  }

  /** Pressure only ever demotes; Low is the identity, IdleBackground a fixed
      point, and a higher pressure demotes at least as far as a lower one. */
  lemma DemoteNeverPromotes(pressure: MemoryPressure, tier: BudgetTier)
    ensures TierRank(Demote(pressure, tier)) >= TierRank(tier)
    ensures pressure == Low ==> Demote(pressure, tier) == tier
    ensures tier == IdleBackground ==> Demote(pressure, tier) == IdleBackground
    ensures forall q :: PressureRank(q) <= PressureRank(pressure) ==> TierRank(Demote(q, tier)) <= TierRank(Demote(pressure, tier))
  {
  }

  /** The final `(effective state, budget)` for a tab with base state `base`. */
  function Decide(base: Tabs.TabState, sinceInput: nat, allowIdleBurst: bool, tabRecent: bool, pressure: MemoryPressure): (r: (Tabs.TabState, ExecutionBudget))
    ensures base == Tabs.Active ==> r.0 == Tabs.Active && r.1.tier == Demote(pressure, Foreground)
    ensures base == Tabs.Suspended ==> r.0 == Tabs.Suspended && r.1.tier == IdleBackground
    ensures base != Tabs.Active ==> r.0 != Tabs.Active
    ensures base == Tabs.Background && UserActive(sinceInput) ==> (r.0 == Tabs.Background <==> tabRecent)
    ensures base == Tabs.Background && r.1.tier == IdleBackground && !(UserIdle(sinceInput) && allowIdleBurst) && !tabRecent ==>
              r.0 == Tabs.Suspended
    ensures base == Tabs.Background && tabRecent ==> r.0 == Tabs.Background
    ensures TierRank(r.1.tier) >= TierRank(PrePressure(base, sinceInput, allowIdleBurst, tabRecent).1)
    ensures r.1.tier == Demote(pressure, PrePressure(base, sinceInput, allowIdleBurst, tabRecent).1)
    ensures base == Tabs.Background ==>
              (r.0 == Tabs.Suspended <==>
                 !tabRecent && (!PrePressure(base, sinceInput, allowIdleBurst, tabRecent).2
                                || (r.1.tier == IdleBackground && !(UserIdle(sinceInput) && allowIdleBurst))))
  {
    var (effective0, tier0, _) := PrePressure(base, sinceInput, allowIdleBurst, tabRecent);
    var tier := Demote(pressure, tier0);
    var effective :=
      if base == Tabs.Background && tier == IdleBackground && !(UserIdle(sinceInput) && allowIdleBurst) && !tabRecent
      then Tabs.Suspended else effective0;
    DemoteNeverPromotes(pressure, tier0);
    (effective, ExecutionBudget(tier))
  }

  /** What reconciling at `now` decides for tracked tab `tab` of `g`. */
  function Outcome(g: ExecutionGovernor, now: nat, tab: Tabs.TabId): (Tabs.TabState, ExecutionBudget)
    requires tab in g.states
  {
    Decide(g.states[tab], Since(now, g.lastGlobalInput), BurstGate(g, now).0, TabRecent(g, tab, now), g.memoryPressure)
  }

  // ---------------------------------------------------------------------
  // Diffed application

  /** `apply_budget`: store and emit the budget only when it differs from the stored one. */
  function ApplyBudget(g: ExecutionGovernor, tab: Tabs.TabId, budget: ExecutionBudget): (r: (bool, ExecutionGovernor, seq<EngineCall>))
    ensures r.0 <==> tab !in g.budgets || g.budgets[tab] != budget
    ensures r.1 == g.(budgets := g.budgets[tab := budget])
    ensures r.2 == if r.0 then [ApplyExecutionBudget(tab, budget)] else []
  {
    if tab in g.budgets && g.budgets[tab] == budget then (false, g, [])
    else (true, g.(budgets := g.budgets[tab := budget]), [ApplyExecutionBudget(tab, budget)])
  }

  /** `apply_hints`: store and emit the hints only when they differ from the stored ones. */
  function ApplyHints(g: ExecutionGovernor, tab: Tabs.TabId, hints: ExecutionBudgetHints): (r: (ExecutionGovernor, seq<EngineCall>))
    ensures r.0 == g.(hints := g.hints[tab := hints])
    ensures r.1 == if tab !in g.hints || g.hints[tab] != hints then [ApplyExecutionHints(tab, hints)] else []
  {
    if tab in g.hints && g.hints[tab] == hints then (g, [])
    else (g.(hints := g.hints[tab := hints]), [ApplyExecutionHints(tab, hints)])
  }

  /** Applying the same budget twice emits nothing the second time. */
  lemma ApplyBudgetIdempotent(g: ExecutionGovernor, tab: Tabs.TabId, budget: ExecutionBudget)
    ensures var (_, g1, _) := ApplyBudget(g, tab, budget);
            ApplyBudget(g1, tab, budget) == (false, g1, [])
  {
  }

  /** Applying the same hints twice emits nothing the second time. */
  lemma ApplyHintsIdempotent(g: ExecutionGovernor, tab: Tabs.TabId, hints: ExecutionBudgetHints)
    ensures var (g1, _) := ApplyHints(g, tab, hints);
            ApplyHints(g1, tab, hints) == (g1, [])
  {
  }

  /** The body of the per-tab loop of `reconcile`, reading the stored maps of `g`. */
  function ReconcileTab(g: ExecutionGovernor, tab: Tabs.TabId, sinceInput: nat, allowIdleBurst: bool, now: nat): (r: (ExecutionGovernor, seq<EngineCall>))
    requires tab in g.states
  {
    var (effective, budget) := Decide(g.states[tab], sinceInput, allowIdleBurst, TabRecent(g, tab, now), g.memoryPressure);
    var (_, g1, c1) := ApplyBudget(g, tab, budget);
    var (g2, c2) := ApplyHints(g1, tab, MapExecutionHints(budget, g.memoryPressure));
    var stateChanged := tab !in g2.effectiveStates || g2.effectiveStates[tab] != effective;
    if stateChanged then
      (g2.(effectiveStates := g2.effectiveStates[tab := effective]), c1 + c2 + [ApplyTabState(tab, effective)])
    else (g2, c1 + c2)
  }

  // ---------------------------------------------------------------------
  // Reference definition of a reconcile pass

  /** The budgets a pass at `now` decides, one per tracked tab. */
  function BudgetsOut(g: ExecutionGovernor, now: nat): map<Tabs.TabId, ExecutionBudget> {
    map t | t in g.states :: Outcome(g, now, t).1
  }

  /** The hints a pass at `now` decides, one per tracked tab. */
  function HintsOut(g: ExecutionGovernor, now: nat): map<Tabs.TabId, ExecutionBudgetHints> {
    map t | t in g.states :: MapExecutionHints(Outcome(g, now, t).1, g.memoryPressure)
  }

  /** The effective states a pass at `now` decides, one per tracked tab. */
  function EffectiveOut(g: ExecutionGovernor, now: nat): map<Tabs.TabId, Tabs.TabState> {
    map t | t in g.states :: Outcome(g, now, t).0
  }

  /** The state after a reconcile pass at `now`: the burst anchor advanced by
      the gate, and every tracked tab's budget, hints and effective state set
      to its outcome; entries of untracked tabs are kept. */
  function Reconciled(g: ExecutionGovernor, now: nat): ExecutionGovernor {
    g.(lastIdleBurst := BurstGate(g, now).1,
       budgets := g.budgets + BudgetsOut(g, now),
       hints := g.hints + HintsOut(g, now),
       effectiveStates := g.effectiveStates + EffectiveOut(g, now))
  }

  /** The calls a reconcile pass at `now` emits for tracked tab `tab`: budget,
      then hints, then state, each only when it differs from the stored value. */
  function CallsFor(g: ExecutionGovernor, now: nat, tab: Tabs.TabId): seq<EngineCall>
    requires tab in g.states
  {
    var (effective, budget) := Outcome(g, now, tab);
    var hints := MapExecutionHints(budget, g.memoryPressure);
    (if tab !in g.budgets || g.budgets[tab] != budget then [ApplyExecutionBudget(tab, budget)] else [])
    + (if tab !in g.hints || g.hints[tab] != hints then [ApplyExecutionHints(tab, hints)] else [])
    + (if tab !in g.effectiveStates || g.effectiveStates[tab] != effective then [ApplyTabState(tab, effective)] else [])
  }

  /** The sub-sequence of `log` addressed to `tab`, in order. */
  function CallsOf(log: seq<EngineCall>, tab: Tabs.TabId): seq<EngineCall> {
    if |log| == 0 then []
    else (if log[0].tab == tab then [log[0]] else []) + CallsOf(log[1..], tab)
  }

  lemma {:induction false} CallsOfAppend(a: seq<EngineCall>, b: seq<EngineCall>, tab: Tabs.TabId)
    ensures CallsOf(a + b, tab) == CallsOf(a, tab) + CallsOf(b, tab)
    decreases |a|
  {
    if |a| == 0 {
      assert a + b == b;
    } else {
      assert (a + b)[1..] == a[1..] + b;
      CallsOfAppend(a[1..], b, tab);
    }
  }

  lemma {:induction false} CallsOfSingleTab(calls: seq<EngineCall>, t: Tabs.TabId, tab: Tabs.TabId)
    requires forall i :: 0 <= i < |calls| ==> calls[i].tab == t
    ensures CallsOf(calls, tab) == if tab == t then calls else []
    decreases |calls|
  {
    if |calls| > 0 {
      CallsOfSingleTab(calls[1..], t, tab);
      assert calls == [calls[0]] + calls[1..];
    }
  }

  /** `m` restricted to the keys in `keys`. */
  function Restrict<K, V>(m: map<K, V>, keys: set<K>): map<K, V> {
    map k | k in keys && k in m :: m[k]
  }

  /** The stored values of the tabs in `done` are their outcomes at `now`;
      everything else is as in `g`, except the burst anchor, already advanced. */
  ghost predicate PartlyReconciled(cur: ExecutionGovernor, g: ExecutionGovernor, now: nat, done: set<Tabs.TabId>) {
    && cur.states == g.states && cur.lastGlobalInput == g.lastGlobalInput
    && cur.lastTabInput == g.lastTabInput && cur.memoryPressure == g.memoryPressure
    && cur.lastIdleBurst == BurstGate(g, now).1
    && cur.budgets == g.budgets + Restrict(BudgetsOut(g, now), done)
    && cur.hints == g.hints + Restrict(HintsOut(g, now), done)
    && cur.effectiveStates == g.effectiveStates + Restrict(EffectiveOut(g, now), done)
  }

  /** The calls of `log` addressed to each tab in `done` are exactly that
      tab's calls of a pass at `now`; no call in `log` addresses another tab. */
  ghost predicate LogCovers(log: seq<EngineCall>, g: ExecutionGovernor, now: nat, done: set<Tabs.TabId>) {
    && (forall u :: u in done && u in g.states ==> CallsOf(log, u) == CallsFor(g, now, u))
    && (forall u :: u !in done ==> CallsOf(log, u) == [])
  }

  /** The loop invariant of `reconcile`: `done` are the visited tabs,
      `remaining` the others; `cur` and `log` reflect exactly the visited ones. */
  ghost predicate LoopInv(g: ExecutionGovernor, now: nat, cur: ExecutionGovernor, log: seq<EngineCall>,
                          remaining: set<Tabs.TabId>, done: set<Tabs.TabId>) {
    && remaining <= g.states.Keys && done == g.states.Keys - remaining
    && PartlyReconciled(cur, g, now, done)
    && LogCovers(log, g, now, done)
  }

  /** The body of the per-tab loop of `reconcile` stores the tab's decision
      and emits a call for each of budget, hints and state that changed. */
  lemma ReconcileTabEffect(g: ExecutionGovernor, tab: Tabs.TabId, sinceInput: nat, allowIdleBurst: bool, now: nat)
    requires tab in g.states
    ensures var (effective, budget) := Decide(g.states[tab], sinceInput, allowIdleBurst, TabRecent(g, tab, now), g.memoryPressure);
            var hints := MapExecutionHints(budget, g.memoryPressure);
            && ReconcileTab(g, tab, sinceInput, allowIdleBurst, now).0
               == g.(budgets := g.budgets[tab := budget], hints := g.hints[tab := hints],
                     effectiveStates := g.effectiveStates[tab := effective])
            && ReconcileTab(g, tab, sinceInput, allowIdleBurst, now).1
               == (if tab !in g.budgets || g.budgets[tab] != budget then [ApplyExecutionBudget(tab, budget)] else [])
                  + (if tab !in g.hints || g.hints[tab] != hints then [ApplyExecutionHints(tab, hints)] else [])
                  + (if tab !in g.effectiveStates || g.effectiveStates[tab] != effective then [ApplyTabState(tab, effective)] else [])
  {
  }

  /** Restricting to one more key of `m`. */
  lemma RestrictExtend<K, V>(base: map<K, V>, m: map<K, V>, keys: set<K>, k: K)
    requires k in m
    ensures (base + Restrict(m, keys))[k := m[k]] == base + Restrict(m, keys + {k})
  {
  }

  /** Restricting to all keys of `m`. */
  lemma RestrictAll<K, V>(base: map<K, V>, m: map<K, V>)
    ensures base + Restrict(m, m.Keys) == base + m
  {
    assert Restrict(m, m.Keys) == m;
  }

  /** One loop step on the state: reconciling a not-yet-visited tab in the
      partly reconciled state emits exactly that tab's calls and extends `done`. */
  lemma ReconcileTabStep(cur: ExecutionGovernor, g: ExecutionGovernor, now: nat, done: set<Tabs.TabId>, t: Tabs.TabId)
    requires t in g.states && t !in done
    requires PartlyReconciled(cur, g, now, done)
    ensures PartlyReconciled(ReconcileTab(cur, t, Since(now, g.lastGlobalInput), BurstGate(g, now).0, now).0, g, now, done + {t})
    ensures ReconcileTab(cur, t, Since(now, g.lastGlobalInput), BurstGate(g, now).0, now).1 == CallsFor(g, now, t)
  {
    ReconcileTabEffect(cur, t, Since(now, g.lastGlobalInput), BurstGate(g, now).0, now);
    assert TabRecent(cur, t, now) == TabRecent(g, t, now);
    assert Outcome(g, now, t) == Decide(cur.states[t], Since(now, g.lastGlobalInput), BurstGate(g, now).0, TabRecent(cur, t, now), cur.memoryPressure);
    assert t !in Restrict(BudgetsOut(g, now), done);
    assert t !in Restrict(HintsOut(g, now), done);
    assert t !in Restrict(EffectiveOut(g, now), done);
    RestrictExtend(g.budgets, BudgetsOut(g, now), done, t);
    RestrictExtend(g.hints, HintsOut(g, now), done, t);
    RestrictExtend(g.effectiveStates, EffectiveOut(g, now), done, t);
  }

  /** One loop step on the log: appending one tab's calls. */
  lemma LogStep(g: ExecutionGovernor, now: nat, log: seq<EngineCall>, done: set<Tabs.TabId>, t: Tabs.TabId)
    requires t in g.states && t !in done
    requires LogCovers(log, g, now, done)
    ensures LogCovers(log + CallsFor(g, now, t), g, now, done + {t})
  {
    var calls := CallsFor(g, now, t);
    forall u
      ensures CallsOf(log + calls, u) == CallsOf(log, u) + (if u == t then calls else [])
    {
      CallsOfAppend(log, calls, u);
      CallsOfSingleTab(calls, t, u);
    }
  }

  /** Before the loop nothing is visited. */
  lemma LoopStart(g: ExecutionGovernor, now: nat)
    ensures LoopInv(g, now, g.(lastIdleBurst := BurstGate(g, now).1), [], g.states.Keys, {})
  {
    RestrictNone(g.budgets, BudgetsOut(g, now));
    RestrictNone(g.hints, HintsOut(g, now));
    RestrictNone(g.effectiveStates, EffectiveOut(g, now));
  }

  /** Restricting to no key at all. */
  lemma RestrictNone<K, V>(base: map<K, V>, m: map<K, V>)
    ensures base + Restrict(m, {}) == base
  {
    assert Restrict(m, {}) == map[];
  }

  lemma MoveOne<T>(all: set<T>, remaining: set<T>, done: set<T>, t: T)
    requires t in remaining && remaining <= all && done == all - remaining
    ensures remaining - {t} < remaining && done + {t} == all - (remaining - {t})
    ensures t !in done && t in all
  {
  }

  /** The loop body of `reconcile`: reconcile some tab `t` not yet visited and append its calls. */
  method ReconcileOne(cur: ExecutionGovernor, log: seq<EngineCall>, ghost g: ExecutionGovernor, now: nat,
                      remaining: set<Tabs.TabId>, ghost done: set<Tabs.TabId>, sinceInput: nat, allowIdleBurst: bool)
    returns (cur': ExecutionGovernor, log': seq<EngineCall>, remaining': set<Tabs.TabId>, ghost done': set<Tabs.TabId>)
    requires remaining != {} && sinceInput == Since(now, g.lastGlobalInput) && allowIdleBurst == BurstGate(g, now).0
    requires LoopInv(g, now, cur, log, remaining, done)
    ensures remaining' < remaining && LoopInv(g, now, cur', log', remaining', done')
  {
    var t :| t in remaining;
    MoveOne(g.states.Keys, remaining, done, t);
    ReconcileTabStep(cur, g, now, done, t);
    LogStep(g, now, log, done, t);
    var step := ReconcileTab(cur, t, sinceInput, allowIdleBurst, now);
    cur', log', remaining', done' := step.0, log + step.1, remaining - {t}, done + {t};
  }

  /** Once every tracked tab is visited, the state is the reference one and
      the log holds exactly every tab's calls. */
  lemma LoopEnd(g: ExecutionGovernor, now: nat, cur: ExecutionGovernor, log: seq<EngineCall>, done: set<Tabs.TabId>)
    requires LoopInv(g, now, cur, log, {}, done)
    ensures cur == Reconciled(g, now)
    ensures forall t :: t in g.states ==> CallsOf(log, t) == CallsFor(g, now, t)
    ensures forall t :: t !in g.states ==> CallsOf(log, t) == []
  {
    assert done == g.states.Keys;
    assert BudgetsOut(g, now).Keys == g.states.Keys;
    assert HintsOut(g, now).Keys == g.states.Keys;
    assert EffectiveOut(g, now).Keys == g.states.Keys;
    RestrictAll(g.budgets, BudgetsOut(g, now));
    RestrictAll(g.hints, HintsOut(g, now));
    RestrictAll(g.effectiveStates, EffectiveOut(g, now));
  }

  /** `reconcile`: one pass over every tracked tab in an unspecified order
      (the `HashMap` iteration order). The resulting state does not depend on
      the order, and the calls addressed to each tab are exactly that tab's
      diffed budget, hints and state calls. */
  method Reconcile(g: ExecutionGovernor, now: nat) returns (g': ExecutionGovernor, log: seq<EngineCall>)
    ensures g' == Reconciled(g, now)
    ensures forall t :: t in g.states ==> CallsOf(log, t) == CallsFor(g, now, t)
    ensures forall t :: t !in g.states ==> CallsOf(log, t) == []
  {
    var sinceInput := Since(now, g.lastGlobalInput);
    var gate := BurstGate(g, now);
    g', log := g.(lastIdleBurst := gate.1), [];
    var remaining := g.states.Keys;
    ghost var done: set<Tabs.TabId> := {};
    LoopStart(g, now);
    while remaining != {}
      invariant LoopInv(g, now, g', log, remaining, done)
      decreases remaining
    {
      g', log, remaining, done := ReconcileOne(g', log, g, now, remaining, done, sinceInput, gate.0);
    }
    LoopEnd(g, now, g', log, done);
  }

  // ---------------------------------------------------------------------
  // Properties of a reconcile pass

  /** What a pass stores for a tracked tab. */
  lemma ReconciledAt(g: ExecutionGovernor, now: nat, t: Tabs.TabId)
    requires t in g.states
    ensures var r := Reconciled(g, now);
            && t in r.budgets && t in r.hints && t in r.effectiveStates
            && r.budgets[t] == Outcome(g, now, t).1
            && r.hints[t] == MapExecutionHints(Outcome(g, now, t).1, g.memoryPressure)
            && r.effectiveStates[t] == Outcome(g, now, t).0
  {
  }

  /** Every tracked tab has a stored budget, hints and effective state, and
      its hints are the table entry of its budget under the current pressure. */
  ghost predicate Coherent(g: ExecutionGovernor) {
    forall t :: t in g.states ==>
      t in g.budgets && t in g.hints && t in g.effectiveStates &&
      g.hints[t] == MapExecutionHints(g.budgets[t], g.memoryPressure)
  }

  /** A pass leaves the governor coherent. */
  lemma {:induction false} ReconciledCoherent(g: ExecutionGovernor, now: nat)
    ensures Coherent(Reconciled(g, now))
  {
    forall t | t in g.states
      ensures t in Reconciled(g, now).budgets && t in Reconciled(g, now).hints && t in Reconciled(g, now).effectiveStates
      ensures Reconciled(g, now).hints[t] == MapExecutionHints(Reconciled(g, now).budgets[t], g.memoryPressure)
    {
      ReconciledAt(g, now, t);
    }
  }

  /** A pass keeps the gate's verdict for a second pass at the same instant:
      a burst opened by the first pass is still open (zero time has passed). */
  lemma BurstGateStable(g: ExecutionGovernor, now: nat)
    ensures BurstGate(Reconciled(g, now), now) == BurstGate(g, now)
  {
  }

  /** A second pass at the same instant decides exactly what the first did. */
  lemma OutcomeStable(g: ExecutionGovernor, now: nat, t: Tabs.TabId)
    requires t in g.states
    ensures t in Reconciled(g, now).states
    ensures Outcome(Reconciled(g, now), now, t) == Outcome(g, now, t)
  {
    BurstGateStable(g, now);
    assert TabRecent(Reconciled(g, now), t, now) == TabRecent(g, t, now);
  }

  lemma BudgetsOutStable(g: ExecutionGovernor, now: nat)
    ensures BudgetsOut(Reconciled(g, now), now) == BudgetsOut(g, now)
  {
    forall t | t in g.states
      ensures Outcome(Reconciled(g, now), now, t) == Outcome(g, now, t)
    {
      OutcomeStable(g, now, t);
    }
  }

  lemma HintsOutStable(g: ExecutionGovernor, now: nat)
    ensures HintsOut(Reconciled(g, now), now) == HintsOut(g, now)
  {
    forall t | t in g.states
      ensures Outcome(Reconciled(g, now), now, t) == Outcome(g, now, t)
    {
      OutcomeStable(g, now, t);
    }
  }

  lemma EffectiveOutStable(g: ExecutionGovernor, now: nat)
    ensures EffectiveOut(Reconciled(g, now), now) == EffectiveOut(g, now)
  {
    forall t | t in g.states
      ensures Outcome(Reconciled(g, now), now, t) == Outcome(g, now, t)
    {
      OutcomeStable(g, now, t);
    }
  }

  lemma UnionAbsorb<K, V>(a: map<K, V>, b: map<K, V>)
    ensures (a + b) + b == a + b
  {
  }

  /** Reconciling twice at the same instant with no change in between: the
      second pass leaves the state as the first left it. */
  lemma ReconcileIdempotent(g: ExecutionGovernor, now: nat)
    ensures Reconciled(Reconciled(g, now), now) == Reconciled(g, now)
  {
    BudgetsOutStable(g, now);
    HintsOutStable(g, now);
    EffectiveOutStable(g, now);
    BurstGateStable(g, now);
    UnionAbsorb(g.budgets, BudgetsOut(g, now));
    UnionAbsorb(g.hints, HintsOut(g, now));
    UnionAbsorb(g.effectiveStates, EffectiveOut(g, now));
  }

  /** ... and the second pass emits no call for any tab. */
  lemma SecondPassSilent(g: ExecutionGovernor, now: nat)
    ensures forall t :: t in g.states ==> CallsFor(Reconciled(g, now), now, t) == []
  {
    forall t | t in g.states
      ensures CallsFor(Reconciled(g, now), now, t) == []
    {
      OutcomeStable(g, now, t);
      ReconciledAt(g, now, t);
    }
  }

  /** A log with no call for any tab is empty. */
  lemma NoCallsMeansEmpty(log: seq<EngineCall>)
    ensures (forall t :: CallsOf(log, t) == []) ==> log == []
  {
    if |log| > 0 {
      assert CallsOf(log, log[0].tab) == [log[0]] + CallsOf(log[1..], log[0].tab);
    }
  }

  /** Once the burst interval has elapsed while the user is idle, a pass opens
      a burst window at `now`: a later pass with no new input allows
      background bursts exactly while at most `IDLE_BURST_DURATION` has
      passed, and opens the next window `IDLE_BURST_INTERVAL` after this one. */
  lemma BurstWindow(g: ExecutionGovernor, now: nat, d: nat)
    requires UserIdle(Since(now, g.lastGlobalInput)) && Since(now, g.lastIdleBurst) >= IDLE_BURST_INTERVAL
    ensures BurstGate(g, now) == (true, now)
    ensures d < IDLE_BURST_INTERVAL ==> BurstGate(Reconciled(g, now), now + d) == (d <= IDLE_BURST_DURATION, now)
    ensures d >= IDLE_BURST_INTERVAL ==> BurstGate(Reconciled(g, now), now + d) == (true, now + d)
  {
    assert Since(now + d, g.lastGlobalInput) >= Since(now, g.lastGlobalInput);
    assert Since(now + d, now) == d;
  }

  // ---------------------------------------------------------------------
  // The public operations

  /** `poll`: a pass at `now` with no new input. */
  method Poll(g: ExecutionGovernor, now: nat) returns (g': ExecutionGovernor, log: seq<EngineCall>)
    ensures g' == Reconciled(g, now) && Coherent(g')
    ensures forall t :: t in g.states ==> CallsOf(log, t) == CallsFor(g, now, t)
    ensures forall t :: t !in g.states ==> CallsOf(log, t) == []
  {
    g', log := Reconcile(g, now);
    ReconciledCoherent(g, now);
  }

  /** Two polls at the same instant: the second emits no call at all and
      leaves the state as the first left it. */
  method PollTwice(g: ExecutionGovernor, now: nat) returns (g2: ExecutionGovernor, log2: seq<EngineCall>)
    ensures g2 == Reconciled(g, now)
    ensures log2 == []
  {
    var g1, log1 := Poll(g, now);
    g2, log2 := Poll(g1, now);
    ReconcileIdempotent(g, now);
    SecondPassSilent(g, now);
    NoCallsMeansEmpty(log2);
  }

  /** `record_user_input`: stamps the clocks, then reconciles. */
  method RecordUserInput(g: ExecutionGovernor, tab: Tabs.TabId, now: nat) returns (g': ExecutionGovernor, log: seq<EngineCall>)
    ensures g' == Reconciled(MarkRecentInput(g, tab, now), now) && Coherent(g')
    ensures forall t :: t in g.states ==> CallsOf(log, t) == CallsFor(MarkRecentInput(g, tab, now), now, t)
    ensures forall t :: t !in g.states ==> CallsOf(log, t) == []
  {
    g', log := Reconcile(MarkRecentInput(g, tab, now), now);
    ReconciledCoherent(MarkRecentInput(g, tab, now), now);
  }

  /** After input the clocks and the burst anchor read `now`. */
  lemma InputClocks(g: ExecutionGovernor, tab: Tabs.TabId, now: nat)
    ensures var r := Reconciled(MarkRecentInput(g, tab, now), now);
            r.lastGlobalInput == now && r.lastIdleBurst == now && r.lastTabInput == g.lastTabInput[tab := now]
  {
  }

  /** After input the user is active, so no Background tab is granted a
      burst: each is one tier below Foreground before pressure and keeps
      running only if it had input of its own within the grace window. */
  lemma InputBackground(g: ExecutionGovernor, tab: Tabs.TabId, now: nat)
    ensures var r := Reconciled(MarkRecentInput(g, tab, now), now);
            forall t :: t in g.states && g.states[t] == Tabs.Background ==>
              && r.budgets[t].tier == Demote(g.memoryPressure, VisibleBackground)
              && (r.effectiveStates[t] == Tabs.Background <==> TabRecent(r, t, now))
  {
    var g1 := MarkRecentInput(g, tab, now);
    forall t | t in g.states
      ensures Reconciled(g1, now).budgets[t] == Outcome(g1, now, t).1
      ensures Reconciled(g1, now).effectiveStates[t] == Outcome(g1, now, t).0
    {
      ReconciledAt(g1, now, t);
    }
  }

  /** The tab that received the input keeps its base state as effective
      state. */
  lemma InputKeepsTab(g: ExecutionGovernor, tab: Tabs.TabId, now: nat)
    requires tab in g.states
    ensures Reconciled(MarkRecentInput(g, tab, now), now).effectiveStates[tab] == g.states[tab]
  {
    ReconciledAt(MarkRecentInput(g, tab, now), now, tab);
    assert TabRecent(MarkRecentInput(g, tab, now), tab, now);
  }

  /** `set_memory_pressure`: stores the new pressure and reconciles. */
  method SetMemoryPressure(g: ExecutionGovernor, pressure: MemoryPressure, now: nat) returns (g': ExecutionGovernor, log: seq<EngineCall>)
    ensures g' == Reconciled(g.(memoryPressure := pressure), now) && Coherent(g')
    ensures forall t :: t in g.states ==> CallsOf(log, t) == CallsFor(g.(memoryPressure := pressure), now, t)
    ensures forall t :: t !in g.states ==> CallsOf(log, t) == []
  {
    g', log := Reconcile(g.(memoryPressure := pressure), now);
    ReconciledCoherent(g.(memoryPressure := pressure), now);
  }

  /** Pressure only demotes: every tracked tab ends at or below the tier it
      would have before pressure. */
  lemma PressureOnlyDemotes(g: ExecutionGovernor, pressure: MemoryPressure, now: nat)
    ensures var g1 := g.(memoryPressure := pressure);
            forall t :: t in g.states ==>
              TierRank(Reconciled(g1, now).budgets[t].tier)
                >= TierRank(PrePressure(g.states[t], Since(now, g.lastGlobalInput), BurstGate(g1, now).0, TabRecent(g, t, now)).1)
  {
    var g1 := g.(memoryPressure := pressure);
    forall t | t in g.states
      ensures Reconciled(g1, now).budgets[t] == Outcome(g1, now, t).1
    {
      ReconciledAt(g1, now, t);
    }
  }

  /** Under any pressure Active tabs stay Active, at the demoted Foreground tier. */
  lemma PressureKeepsActive(g: ExecutionGovernor, pressure: MemoryPressure, now: nat)
    ensures var r := Reconciled(g.(memoryPressure := pressure), now);
            forall t :: t in g.states && g.states[t] == Tabs.Active ==>
              r.budgets[t].tier == Demote(pressure, Foreground) && r.effectiveStates[t] == Tabs.Active
  {
    var g1 := g.(memoryPressure := pressure);
    forall t | t in g.states
      ensures Reconciled(g1, now).budgets[t] == Outcome(g1, now, t).1
      ensures Reconciled(g1, now).effectiveStates[t] == Outcome(g1, now, t).0
    {
      ReconciledAt(g1, now, t);
    }
  }

  /** The state `on_tab_state_changed` reconciles: the base state recorded,
      and an Active state counted as input on the tab. */
  function StateChanged(g: ExecutionGovernor, tab: Tabs.TabId, state: Tabs.TabState, now: nat): (r: ExecutionGovernor)
    ensures r.states == g.states[tab := state] && r.memoryPressure == g.memoryPressure
    ensures state == Tabs.Active ==> r.lastGlobalInput == now && r.lastTabInput == g.lastTabInput[tab := now]
    ensures state != Tabs.Active ==> r.lastGlobalInput == g.lastGlobalInput && r.lastTabInput == g.lastTabInput
  {
    var g1 := g.(states := g.states[tab := state]);
    if state == Tabs.Active then MarkRecentInput(g1, tab, now) else g1
  }

  /** `on_tab_state_changed`: records the base state (tracking the tab if
      new), then reconciles. */
  method OnTabStateChanged(g: ExecutionGovernor, tab: Tabs.TabId, state: Tabs.TabState, now: nat)
    returns (g': ExecutionGovernor, log: seq<EngineCall>)
    ensures g' == Reconciled(StateChanged(g, tab, state, now), now) && Coherent(g')
    ensures State(g', tab) == Some(state)
    ensures forall t :: t in g.states || t == tab ==> CallsOf(log, t) == CallsFor(StateChanged(g, tab, state, now), now, t)
    ensures forall t :: t !in g.states && t != tab ==> CallsOf(log, t) == []
  {
    g', log := Reconcile(StateChanged(g, tab, state, now), now);
    ReconciledCoherent(StateChanged(g, tab, state, now), now);
  }

  /** The changed tab is effectively Active exactly when its new state is
      Active, and a tab set to Suspended is Suspended at IdleBackground. */
  lemma TabStateEffect(g: ExecutionGovernor, tab: Tabs.TabId, state: Tabs.TabState, now: nat)
    ensures var r := Reconciled(StateChanged(g, tab, state, now), now);
            && (r.effectiveStates[tab] == Tabs.Active <==> state == Tabs.Active)
            && (state == Tabs.Suspended ==> r.effectiveStates[tab] == Tabs.Suspended && r.budgets[tab].tier == IdleBackground)
  {
    ReconciledAt(StateChanged(g, tab, state, now), now, tab);
  }

  /** `set_budget`: the direct override. Stores and emits the budget and its
      hints under the stored pressure, each only on change, without a pass;
      nothing else changes. */
  function SetBudget(g: ExecutionGovernor, tab: Tabs.TabId, budget: ExecutionBudget): (r: (ExecutionGovernor, seq<EngineCall>))
    ensures r.0 == g.(budgets := g.budgets[tab := budget], hints := g.hints[tab := MapExecutionHints(budget, g.memoryPressure)])
    ensures CallsOf(r.1, tab) == r.1
    ensures ApplyExecutionBudget(tab, budget) in r.1 <==> tab !in g.budgets || g.budgets[tab] != budget
    ensures ApplyExecutionHints(tab, MapExecutionHints(budget, g.memoryPressure)) in r.1
            <==> tab !in g.hints || g.hints[tab] != MapExecutionHints(budget, g.memoryPressure)
    ensures Coherent(g) && tab in g.states ==> Coherent(r.0)
    ensures var h := MapExecutionHints(budget, g.memoryPressure);
            r.1 == (if tab !in g.budgets || g.budgets[tab] != budget then [ApplyExecutionBudget(tab, budget)] else [])
                   + (if tab !in g.hints || g.hints[tab] != h then [ApplyExecutionHints(tab, h)] else [])
  {
    var (_, g1, c1) := ApplyBudget(g, tab, budget);
    var (g2, c2) := ApplyHints(g1, tab, MapExecutionHints(budget, g.memoryPressure));
    CallsOfSingleTab(c1 + c2, tab, tab);
    (g2, c1 + c2)
  }

  /** `set_budget` twice with the same budget: the second call emits nothing. */
  lemma SetBudgetIdempotent(g: ExecutionGovernor, tab: Tabs.TabId, budget: ExecutionBudget)
    ensures SetBudget(SetBudget(g, tab, budget).0, tab, budget) == (SetBudget(g, tab, budget).0, [])
  {
    var g1 := SetBudget(g, tab, budget).0;
    assert ApplyBudget(g1, tab, budget) == (false, g1, []);
    assert ApplyHints(g1, tab, MapExecutionHints(budget, g1.memoryPressure)) == (g1, []);
  }

  // ---------------------------------------------------------------------
  // Scenarios

  /** A tab in Active state that receives input: it stays Active at
      Foreground with no timer clamp, unless pressure is Severe. */
  lemma ForegroundOverride(g: ExecutionGovernor, tab: Tabs.TabId, now: nat)
    requires tab in g.states && g.states[tab] == Tabs.Active && g.memoryPressure != Severe
    ensures var r := Reconciled(MarkRecentInput(g, tab, now), now);
            && r.effectiveStates[tab] == Tabs.Active
            && r.budgets[tab].tier == Foreground
            && r.hints[tab].maxTimerFrequency.None?
  {
    ReconciledAt(MarkRecentInput(g, tab, now), now, tab);
  }

  /** Severe pressure demotes an Active tab to VisibleBackground, and its
      hints deny Wasm. */
  lemma SevereDemotesForeground(g: ExecutionGovernor, tab: Tabs.TabId, now: nat)
    requires tab in g.states && g.states[tab] == Tabs.Active
    ensures var r := Reconciled(g.(memoryPressure := Severe), now);
            && r.effectiveStates[tab] == Tabs.Active
            && r.budgets[tab].tier == VisibleBackground
            && !r.hints[tab].allowWasm
  {
    ReconciledAt(g.(memoryPressure := Severe), now, tab);
  }

  /** A Background tab without input of its own for more than the grace
      window, while the user is idle and outside any burst window, is
      suspended. */
  lemma IdleBackgroundSuspended(g: ExecutionGovernor, tab: Tabs.TabId, now: nat)
    requires tab in g.states && g.states[tab] == Tabs.Background
    requires UserIdle(Since(now, g.lastGlobalInput)) && !BurstGate(g, now).0 && !TabRecent(g, tab, now)
    ensures Reconciled(g, now).effectiveStates[tab] == Tabs.Suspended
    ensures Reconciled(g, now).budgets[tab].tier == IdleBackground
  {
    ReconciledAt(g, now, tab);
    DemoteNeverPromotes(g.memoryPressure, IdleBackground);
  }
}

=== FILE: idgen.dfy ===
/** util/src/lib.rs: the monotonic counter behind tab identifiers. */
module IdGen {

  /** `IdGenerator`: the value the next call to `next()` hands out. */
  datatype IdGenerator = IdGenerator(next: nat)

  /** `IdGenerator::new(start)`. */
  function New(start: nat): (g: IdGenerator)
    ensures Next(g).0 == start
  {
    IdGenerator(start)
  }

  /** `IdGenerator::default()`, which starts at 1. */
  function Default(): (g: IdGenerator)
    ensures Next(g).0 == 1
  {
    New(1)
  }

  /** `IdGenerator::next()`: the stored value, with the generator advanced. */
  function Next(g: IdGenerator): (r: (nat, IdGenerator))
    ensures r.1.next == r.0 + 1
    ensures r.0 == g.next
  {
    (g.next, IdGenerator(g.next + 1))
  }

  /** The ids handed out by `n` successive calls of `next()` on `g`. */
  function Take(g: IdGenerator, n: nat): seq<nat>
    decreases n
  {
    if n == 0 then [] else [Next(g).0] + Take(Next(g).1, n - 1)
  }

  /** The generator after `n` successive calls of `next()`. */
  function Advance(g: IdGenerator, n: nat): IdGenerator
    decreases n
  {
    if n == 0 then g else Advance(Next(g).1, n - 1)
  }

  /** Successive calls hand out `start, start + 1, ...`: each id is the
      previous one plus exactly one, and the generator ends just past the last. */
  lemma {:induction false} TakeIsConsecutive(g: IdGenerator, n: nat)
    ensures |Take(g, n)| == n
    ensures forall i :: 0 <= i < n ==> Take(g, n)[i] == g.next + i
    ensures Advance(g, n).next == g.next + n
    decreases n
  {
    if n > 0 {
      TakeIsConsecutive(Next(g).1, n - 1);
    }
  }

  /** Ids from successive calls are strictly increasing, hence pairwise distinct. */
  lemma TakeStrictlyIncreasing(g: IdGenerator, n: nat)
    ensures forall i, j :: 0 <= i < j < |Take(g, n)| ==> Take(g, n)[i] < Take(g, n)[j]
    ensures forall i, j :: 0 <= i < j < |Take(g, n)| ==> Take(g, n)[i] != Take(g, n)[j]
  {
    TakeIsConsecutive(g, n);
  }
}

=== FILE: pressure.dfy ===
/** memory/src/pressure.rs: classification of memory headroom into pressure
    levels, the three sampling sources and their fallback chain, the
    smoother that delays decreases, and the monitor's hand-over of levels
    to the main loop. Time is the millisecond clock of `Common.Since`. */
module Pressure {
  import opened Common
  import opened Scheduler
  import opened PressureParse

  /** `MemoryPressureThresholds`: headroom per mille at or below which a
      level starts. */
  datatype Thresholds = Thresholds(moderateHeadroomPerMille: U16, severeHeadroomPerMille: U16)

  /** `MemoryPressureThresholds::default()`: Moderate below 20 %, Severe below 10 %. */
  function DefaultThresholds(): (t: Thresholds)
    ensures t.severeHeadroomPerMille < t.moderateHeadroomPerMille <= 1000
  {
    Thresholds(200, 100)
  }

  /** `MemoryPressureMonitorConfig`, in milliseconds. */
  datatype MonitorConfig = MonitorConfig(sampleInterval: nat, monotonicWindow: nat)

  /** `MemoryPressureMonitorConfig::default()`: sample every second, hold a
      level for three seconds before lowering it. */
  function DefaultMonitorConfig(): (c: MonitorConfig)
    ensures c.monotonicWindow == 3 * c.sampleInterval && c.sampleInterval == 1000
  {
    MonitorConfig(1000, 3000)
  }

  /** `MemoryPressureSourceKind`. */
  datatype SourceKind = CgroupV2 | SystemMemInfo | ProcessRss

  /** `MemoryPressureReading`. */
  datatype Reading = Reading(pressure: MemoryPressure, headroomPerMille: U16, source: SourceKind)

  // ---------------------------------------------------------------------
  // Classification

  /** `map_headroom_per_mille`: the severe threshold is checked first, each
      bound inclusive. */
  function MapHeadroomPerMille(h: U16, t: Thresholds): (p: MemoryPressure)
    ensures p == Severe <==> h <= t.severeHeadroomPerMille
    ensures p == Moderate <==> t.severeHeadroomPerMille < h <= t.moderateHeadroomPerMille
    ensures p == Low <==> h > t.severeHeadroomPerMille && h > t.moderateHeadroomPerMille
  {
    if h <= t.severeHeadroomPerMille then Severe
    else if h <= t.moderateHeadroomPerMille then Moderate
    else Low
  }

  /** Less headroom never means less pressure. */
  lemma MapMonotone(h1: U16, h2: U16, t: Thresholds)
    requires h1 <= h2
    ensures PressureRank(MapHeadroomPerMille(h1, t)) >= PressureRank(MapHeadroomPerMille(h2, t))
  {
  }

  /** The unit test's table under the default thresholds. */
  lemma DefaultClassification()
    ensures MapHeadroomPerMille(250, DefaultThresholds()) == Low
    ensures MapHeadroomPerMille(150, DefaultThresholds()) == Moderate
    ensures MapHeadroomPerMille(100, DefaultThresholds()) == Severe
    ensures MapHeadroomPerMille(5, DefaultThresholds()) == Severe
  {
  }

  // ---------------------------------------------------------------------
  // Headroom ratio

  /** `headroom_per_mille` as written: `available.saturating_mul(1000) / total`,
      capped at 1000. The multiplication saturates once `available` exceeds
      `u64::MAX / 1000`, and the quotient is then no longer the ratio. */
  function HeadroomPerMilleAsWritten(available: U64, total: U64): (r: Option<U16>)
    ensures r.None? <==> total == 0
    ensures r.Some? ==> r.value <= 1000
  {
    if total == 0 then None else Some(Min(SatMul(available, 1000) / total, 1000))
  }

  /** The ratio as evidently intended: available over total in per mille,
      rounded down, capped at 1000. */
  function HeadroomPerMille(available: U64, total: U64): (r: Option<U16>)
    ensures r.None? <==> total == 0
    ensures r.Some? ==> r.value <= 1000
  {
    if total == 0 then None else Some(Min(available * 1000 / total, 1000))
  }

  /** The intended ratio is exact: 1000 when everything is available, and
      otherwise the largest per-mille figure not above available / total. */
  lemma HeadroomIsRatio(available: U64, total: U64)
    requires total > 0
    ensures available >= total ==> HeadroomPerMille(available, total) == Some(1000)
    ensures available < total ==>
              var h := HeadroomPerMille(available, total).value;
              h * total <= available * 1000 < (h + 1) * total
  {
    RatioFacts(available, total);
  }

  /** The per-mille quotient brackets the ratio; it is at least 1000 when
      everything is available and below 1000 otherwise. */
  lemma RatioFacts(available: nat, total: nat)
    requires total > 0
    ensures (available * 1000 / total) * total <= available * 1000 < (available * 1000 / total + 1) * total
    ensures available >= total ==> available * 1000 / total >= 1000
    ensures available < total ==> available * 1000 / total < 1000
  {
    var q := available * 1000 / total;
    DivBounds(available * 1000, total);
    if available >= total {
      MulMono(total, available, 1000);
      if q < 1000 {
        MulMono(q + 1, 1000, total);
      }
    } else {
      MulMono(available + 1, total, 1000);
      if q >= 1000 {
        MulMono(1000, q, total);
      }
    }
  }

  /** Floor division brackets the dividend. */
  lemma DivBounds(a: nat, b: nat)
    requires b > 0
    ensures (a / b) * b <= a < (a / b + 1) * b
  {
  }

  /** Multiplication by a natural number is monotone. */
  lemma MulMono(x: nat, y: nat, c: nat)
    requires x <= y
    ensures x * c <= y * c
  {
  }

  /** Below 18 PB of available memory (`available * 1000` fits in 64 bits)
      the ratio as written is the intended one. */
  lemma HeadroomAgrees(available: U64, total: U64)
    requires available * 1000 <= U64_MAX
    ensures HeadroomPerMilleAsWritten(available, total) == HeadroomPerMille(available, total)
  {
  }

  /** Above it the saturation shows: with all of 2^62 bytes available the
      ratio as written is 3 per mille, classified Severe, where the intended
      ratio is 1000. */
  lemma HeadroomSaturates()
    ensures HeadroomPerMilleAsWritten(0x4000_0000_0000_0000, 0x4000_0000_0000_0000) == Some(3)
    ensures HeadroomPerMille(0x4000_0000_0000_0000, 0x4000_0000_0000_0000) == Some(1000)
    ensures MapHeadroomPerMille(3, DefaultThresholds()) == Severe
  {
  }

  // ---------------------------------------------------------------------
  // Builds

  /** Which version of the two defective helpers a sampling chain runs on:
      the program's own (`headroom_per_mille` and `cgroup_v2_path` as
      written), or the evidently intended ones. */
  datatype Build = AsWritten | Intended

  /** The headroom ratio of a build. */
  function Ratio(b: Build, available: U64, total: U64): (r: Option<U16>)
    ensures r.None? <==> total == 0
    ensures r.Some? ==> r.value <= 1000
  {
    if b == AsWritten then HeadroomPerMilleAsWritten(available, total) else HeadroomPerMille(available, total)
  }

  /** The cgroup directory of a build. */
  function CgroupDir(b: Build, fs: FileSystem): (r: Option<seq<Byte>>)
    ensures r.Some? <==> CgroupV2PathAsWritten(fs).Some?
    ensures b == Intended && r.Some? ==> StartsWith(r.value, SYS_FS_CGROUP)
  {
    if b == AsWritten then CgroupV2PathAsWritten(fs) else CgroupV2Path(fs)
  }

  /** A reading from `headroom` out of `total`: none when `total` is zero. */
  function Classify(b: Build, headroom: U64, total: U64, t: Thresholds, kind: SourceKind): (r: Option<Reading>)
    ensures r.None? <==> total == 0
    ensures r.Some? ==> r.value.source == kind && r.value.headroomPerMille <= 1000
    ensures r.Some? ==> r.value.pressure == MapHeadroomPerMille(r.value.headroomPerMille, t)
    ensures r.Some? ==> Some(r.value.headroomPerMille) == Ratio(b, headroom, total)
  {
    match Ratio(b, headroom, total)
    case None => None
    case Some(h) => Some(Reading(MapHeadroomPerMille(h, t), h, kind))
  }

  /** The program's classification of a full machine of 2^62 bytes is
      Severe; the intended one is Low. */
  lemma ClassifySaturates()
    ensures Classify(AsWritten, 0x4000_0000_0000_0000, 0x4000_0000_0000_0000, DefaultThresholds(), SystemMemInfo).value.pressure == Severe
    ensures Classify(Intended, 0x4000_0000_0000_0000, 0x4000_0000_0000_0000, DefaultThresholds(), SystemMemInfo).value.pressure == Low
  {
    HeadroomSaturates();
  }

  // ---------------------------------------------------------------------
  // Sources

  /** `memory.max` */
  const MEMORY_MAX: seq<Byte> := [109, 101, 109, 111, 114, 121, 46, 109, 97, 120]
  /** `memory.current` */
  const MEMORY_CURRENT: seq<Byte> := [109, 101, 109, 111, 114, 121, 46, 99, 117, 114, 114, 101, 110, 116]

  /** `CgroupV2Source`: the two files of the process's cgroup. */
  datatype CgroupSource = CgroupSource(memoryMax: seq<Byte>, memoryCurrent: seq<Byte>)

  /** `CgroupV2Source::new`: present exactly when the cgroup v2 path is
      known; both files lie in that directory. */
  function NewCgroupSource(b: Build, fs: FileSystem): (r: Option<CgroupSource>)
    ensures r.Some? <==> CgroupV2PathAsWritten(fs).Some?
    ensures r.Some? ==> StartsWith(r.value.memoryMax, CgroupDir(b, fs).value)
    ensures r.Some? ==> StartsWith(r.value.memoryCurrent, CgroupDir(b, fs).value)
    ensures b == Intended && r.Some? ==>
              StartsWith(r.value.memoryMax, SYS_FS_CGROUP) && StartsWith(r.value.memoryCurrent, SYS_FS_CGROUP)
  {
    match CgroupDir(b, fs)
    case None => None
    case Some(dir) =>
      var r := CgroupSource(PathJoin(dir, MEMORY_MAX), PathJoin(dir, MEMORY_CURRENT));
      if b == Intended then
        StartsWithTrans(r.memoryMax, dir, SYS_FS_CGROUP);
        StartsWithTrans(r.memoryCurrent, dir, SYS_FS_CGROUP);
        Some(r)
      else Some(r)
  }

  /** A prefix of a prefix is a prefix. */
  lemma StartsWithTrans(a: seq<Byte>, b: seq<Byte>, c: seq<Byte>)
    requires StartsWith(a, b) && StartsWith(b, c)
    ensures StartsWith(a, c)
  {
    assert a[..|c|] == b[..|b|][..|c|];
  }

  /** As written, a process in cgroup `p` (an absolute path, as the kernel
      writes it) gets a source reading `p/memory.max` and `p/memory.current`,
      outside the cgroup file system. */
  lemma CgroupSourceEscapes(fs: FileSystem, p: seq<Byte>)
    requires CgroupLineNames(fs, p) && |p| > 0 && p[0] == SLASH && ValidUtf8(p)
    ensures NewCgroupSource(AsWritten, fs) == Some(CgroupSource(PathJoin(p, MEMORY_MAX), PathJoin(p, MEMORY_CURRENT)))
  {
    CgroupPathEscapes(fs, p);
  }

  /** `CgroupV2Source::sample`: headroom is the limit minus current usage
      (zero when usage exceeds it); an unreadable file, `max` or a zero
      limit gives no reading. */
  function CgroupSample(b: Build, src: CgroupSource, fs: FileSystem, t: Thresholds): (r: Option<Reading>)
    ensures r.Some? <==> ReadU64FromFile(fs, src.memoryMax).Some? && ReadU64FromFile(fs, src.memoryMax).value != 0
                         && ReadU64FromFile(fs, src.memoryCurrent).Some?
    ensures r.Some? ==> r.value.source == CgroupV2
    ensures r.Some? ==>
              var limit := ReadU64FromFile(fs, src.memoryMax).value;
              var current := ReadU64FromFile(fs, src.memoryCurrent).value;
              Some(r.value.headroomPerMille) == Ratio(b, SatSub(limit, current), limit)
  {
    match ReadU64FromFile(fs, src.memoryMax)
    case None => None
    case Some(limit) =>
      if limit == 0 then None
      else match ReadU64FromFile(fs, src.memoryCurrent)
        case None => None
        case Some(current) => Classify(b, SatSub(limit, current), limit, t, CgroupV2)
  }

  /** `SystemMemSource::sample`: `MemAvailable` out of `MemTotal`. */
  function SystemSample(b: Build, fs: FileSystem, t: Thresholds): (r: Option<Reading>)
    ensures r.Some? <==> ReadMeminfo(fs).Some? && ReadMeminfo(fs).value.0 != 0
    ensures r.Some? ==> r.value.source == SystemMemInfo
    ensures r.Some? ==> Some(r.value.headroomPerMille) == Ratio(b, ReadMeminfo(fs).value.1, ReadMeminfo(fs).value.0)
  {
    match ReadMeminfo(fs)
    case None => None
    case Some((total, available)) => Classify(b, available, total, t, SystemMemInfo)
  }

  /** `ProcessRssSource::sample`: `MemTotal` minus this process's `VmRSS`
      (zero when it exceeds the total) out of `MemTotal`. */
  function RssSample(b: Build, fs: FileSystem, t: Thresholds): (r: Option<Reading>)
    ensures r.Some? <==> ReadMeminfoTotal(fs).Some? && ReadMeminfoTotal(fs).value != 0 && ReadVmRss(fs).Some?
    ensures r.Some? ==> r.value.source == ProcessRss
    ensures r.Some? ==>
              var total := ReadMeminfoTotal(fs).value;
              Some(r.value.headroomPerMille) == Ratio(b, SatSub(total, ReadVmRss(fs).value), total)
  {
    match ReadMeminfoTotal(fs)
    case None => None
    case Some(total) =>
      match ReadVmRss(fs)
      case None => None
      case Some(rss) => Classify(b, SatSub(total, rss), total, t, ProcessRss)
  }

  /** `DefaultMemoryPressureSource`: the cgroup source when one was found at
      construction; the other two need no state. */
  datatype DefaultSource = DefaultSource(cgroup: Option<CgroupSource>)

  /** `DefaultMemoryPressureSource::new`. */
  function NewDefaultSource(b: Build, fs: FileSystem): (s: DefaultSource)
    ensures s.cgroup.Some? <==> CgroupV2PathAsWritten(fs).Some?
    ensures s.cgroup.Some? ==> StartsWith(s.cgroup.value.memoryMax, CgroupDir(b, fs).value)
  {
    DefaultSource(NewCgroupSource(b, fs))
  }

  /** The cgroup reading of a default source, if it has a cgroup source. */
  function CgroupOf(b: Build, src: DefaultSource, fs: FileSystem, t: Thresholds): Option<Reading> {
    match src.cgroup
    case None => None
    case Some(c) => CgroupSample(b, c, fs, t)
  }

  /** `DefaultMemoryPressureSource::sample`: the first source that gives a
      reading, in the order cgroup v2, system meminfo, process RSS. */
  function DefaultSample(b: Build, src: DefaultSource, fs: FileSystem, t: Thresholds): (r: Option<Reading>)
    ensures r.None? <==> CgroupOf(b, src, fs, t).None? && SystemSample(b, fs, t).None? && RssSample(b, fs, t).None?
    ensures r.Some? && r.value.source == CgroupV2 ==> r == CgroupOf(b, src, fs, t)
    ensures r.Some? && r.value.source == SystemMemInfo ==> CgroupOf(b, src, fs, t).None? && r == SystemSample(b, fs, t)
    ensures r.Some? && r.value.source == ProcessRss ==>
              CgroupOf(b, src, fs, t).None? && SystemSample(b, fs, t).None? && r == RssSample(b, fs, t)
  {
    match CgroupOf(b, src, fs, t)
    case Some(reading) => Some(reading)
    case None =>
      match SystemSample(b, fs, t)
      case Some(reading) => Some(reading)
      case None => RssSample(b, fs, t)
  }

  /** Every reading of either build, whatever its source, classifies its own
      headroom. */
  lemma ReadingConsistent(b: Build, src: DefaultSource, fs: FileSystem, t: Thresholds)
    requires DefaultSample(b, src, fs, t).Some?
    ensures var r := DefaultSample(b, src, fs, t).value;
            r.headroomPerMille <= 1000 && r.pressure == MapHeadroomPerMille(r.headroomPerMille, t)
  {
  }

  // ---------------------------------------------------------------------
  // Smoothing

  /** `PressureSmoother`: the level last let through and when. */
  datatype Smoother = Smoother(last: MemoryPressure, lastChange: nat, monotonicWindow: nat)

  /** `PressureSmoother::new`: Low, as of `now`. */
  function NewSmoother(monotonicWindow: nat, now: nat): (s: Smoother)
    ensures s.last == Low && s.lastChange == now && s.monotonicWindow == monotonicWindow
  {
    Smoother(Low, now, monotonicWindow)
  }

  /** `PressureSmoother::filter`: a rise or an equal level passes at once
      and restarts the window; a drop passes only once the window has
      elapsed since the last change, and is held back before that. */
  function Filter(s: Smoother, next: MemoryPressure, now: nat): (r: (MemoryPressure, Smoother))
    ensures r.1.last == r.0 && r.1.monotonicWindow == s.monotonicWindow
    ensures r.0 == next || r.0 == s.last
    ensures PressureRank(r.0) >= PressureRank(next)
    ensures PressureRank(next) >= PressureRank(s.last) ==> r == (next, s.(last := next, lastChange := now))
    ensures PressureRank(next) < PressureRank(s.last) && Since(now, s.lastChange) < s.monotonicWindow ==>
              r == (s.last, s)
    ensures PressureRank(next) < PressureRank(s.last) && Since(now, s.lastChange) >= s.monotonicWindow ==>
              r == (next, s.(last := next, lastChange := now))
  {
    if PressureRank(next) > PressureRank(s.last) then (next, s.(last := next, lastChange := now))
    else if PressureRank(next) < PressureRank(s.last) && Since(now, s.lastChange) < s.monotonicWindow then (s.last, s)
    else (next, s.(last := next, lastChange := now))
  }

  /** The level only ever drops once the window has elapsed since the last
      change it let through. */
  lemma NoEarlyDrop(s: Smoother, next: MemoryPressure, now: nat)
    requires PressureRank(Filter(s, next, now).0) < PressureRank(s.last)
    ensures Since(now, s.lastChange) >= s.monotonicWindow
    ensures Filter(s, next, now).0 == next
  {
  }

  /** The levels a smoother lets through for a run of timed samples, and its final state. */
  function FilterAll(s: Smoother, samples: seq<(MemoryPressure, nat)>): (r: (seq<MemoryPressure>, Smoother))
    ensures |r.0| == |samples|
    ensures forall i :: 0 <= i < |samples| ==> PressureRank(r.0[i]) >= PressureRank(samples[i].0)
    decreases |samples|
  {
    if |samples| == 0 then ([], s)
    else
      var (p, s') := Filter(s, samples[0].0, samples[0].1);
      var (ps, s'') := FilterAll(s', samples[1..]);
      ([p] + ps, s'')
  }

  /** A spike to Severe at 0 ms followed by Low samples every second is held
      at Severe for the three-second window and released at 3000 ms. */
  lemma SpikeHeld()
    ensures FilterAll(NewSmoother(3000, 0), [(Severe, 0), (Low, 1000), (Low, 2000), (Low, 3000)]).0
            == [Severe, Severe, Severe, Low]
  {
    var s0 := NewSmoother(3000, 0);
    var s1 := Smoother(Severe, 0, 3000);
    assert Filter(s0, Severe, 0) == (Severe, s1);
    assert Filter(s1, Low, 1000) == (Severe, s1);
    assert Filter(s1, Low, 2000) == (Severe, s1);
    assert Filter(s1, Low, 3000) == (Low, Smoother(Low, 3000, 3000));
  }

  // ---------------------------------------------------------------------
  // Monitor

  /** One iteration of the monitor's worker: sample, and when there is a
      reading, pass its level through the smoother and send the result. */
  function MonitorStep(b: Build, src: DefaultSource, fs: FileSystem, t: Thresholds, s: Smoother, now: nat)
    : (r: (Option<MemoryPressure>, Smoother))
    ensures DefaultSample(b, src, fs, t).None? ==> r == (None, s)
    ensures DefaultSample(b, src, fs, t).Some? ==>
              var f := Filter(s, DefaultSample(b, src, fs, t).value.pressure, now);
              r == (Some(f.0), f.1)
    ensures DefaultSample(b, src, fs, t).Some? ==>
              r.0 == Some(r.1.last) && PressureRank(r.1.last) >= PressureRank(DefaultSample(b, src, fs, t).value.pressure)
  {
    match DefaultSample(b, src, fs, t)
    case None => (None, s)
    case Some(reading) =>
      var (p, s') := Filter(s, reading.pressure, now);
      (Some(p), s')
  }

  /** `MemoryPressureReceiver::drain_latest`: empties the channel and keeps
      the most recent level, if any was sent. */
  method DrainLatest(queue: seq<MemoryPressure>) returns (latest: Option<MemoryPressure>)
    ensures latest.None? <==> |queue| == 0
    ensures latest.Some? ==> latest.value == queue[|queue| - 1]
  {
    latest := None;
    var k := 0;
    while k < |queue|
      invariant 0 <= k <= |queue|
      invariant latest.None? <==> k == 0
      invariant latest.Some? ==> latest.value == queue[k - 1]
    {
      latest := Some(queue[k]);
      k := k + 1;
    }
  }
}

=== FILE: pressure_parse.dfy ===
/** memory/src/pressure.rs, the byte-level readers: the two digit-run
    scanners, line splitting, the selection of `/proc` lines and the cgroup
    v2 path. A file system is a map from path bytes to contents; a path that
    is not in the map cannot be opened or read. */
module PressureParse {
  import opened Common

  // ---------------------------------------------------------------------
  // Bytes

  /** `max` */
  const MAX_LITERAL: seq<Byte> := [109, 97, 120]

  const NEWLINE: Byte := 10
  const SLASH: Byte := 47

  /** `u8::is_ascii_digit`. */
  predicate IsDigit(b: Byte) {
    48 <= b <= 57
  }

  /** The bytes `m` and `M`, which start the literal `max`. */
  predicate IsM(b: Byte) {
    b == 109 || b == 77
  }

  // ---------------------------------------------------------------------
  // Decimal digit runs

  /** `b - b'0'` for a digit. */
  function DigitValue(b: Byte): (d: nat)
    requires IsDigit(b)
    ensures d <= 9
  {
    b as int - 48
  }

  /** The exact value of a run of decimal digits. */
  function Decimal(ds: seq<Byte>): nat
    requires forall i :: 0 <= i < |ds| ==> IsDigit(ds[i])
  {
    if |ds| == 0 then 0 else Decimal(ds[..|ds| - 1]) * 10 + DigitValue(ds[|ds| - 1])
  }

  /** The scanners' accumulation: `value.saturating_mul(10).saturating_add(digit)`
      over the run, left to right. */
  function SatDecimal(ds: seq<Byte>): U64
    requires forall i :: 0 <= i < |ds| ==> IsDigit(ds[i])
  {
    if |ds| == 0 then 0 else SatAdd(SatMul(SatDecimal(ds[..|ds| - 1]), 10), DigitValue(ds[|ds| - 1]))
  }

  /** Saturating accumulation never wraps: it is the exact value, capped at `u64::MAX`. */
  lemma {:induction false} SatDecimalIsCapped(ds: seq<Byte>)
    requires forall i :: 0 <= i < |ds| ==> IsDigit(ds[i])
    ensures SatDecimal(ds) == Min(Decimal(ds), U64_MAX)
    decreases |ds|
  {
    if |ds| > 0 {
      var init := ds[..|ds| - 1];
      SatDecimalIsCapped(init);
      if Decimal(init) > U64_MAX {
        assert Decimal(ds) >= Decimal(init) * 10;
      } else if Decimal(init) * 10 > U64_MAX {
        assert SatMul(SatDecimal(init), 10) == U64_MAX;
      }
    }
  }

  /** Index of the first byte satisfying `IsDigit` (or, with `stopAtM`, `IsM`). */
  function FirstStop(s: seq<Byte>, stopAtM: bool): (r: Option<nat>)
    ensures r.None? ==> forall i :: 0 <= i < |s| ==> !IsDigit(s[i]) && !(stopAtM && IsM(s[i]))
    ensures r.Some? ==> r.value < |s| && (IsDigit(s[r.value]) || (stopAtM && IsM(s[r.value])))
    ensures r.Some? ==> forall i :: 0 <= i < r.value ==> !IsDigit(s[i]) && !(stopAtM && IsM(s[i]))
  {
    if |s| == 0 then None
    else if IsDigit(s[0]) || (stopAtM && IsM(s[0])) then Some(0)
    else match FirstStop(s[1..], stopAtM)
      case None => None
      case Some(k) => Some(k + 1)
  }

  /** End of the maximal digit run starting at `i`. */
  function RunEnd(s: seq<Byte>, i: nat): (j: nat)
    requires i <= |s|
    ensures i <= j <= |s|
    ensures forall k :: i <= k < j ==> IsDigit(s[k])
    ensures j == |s| || !IsDigit(s[j])
    decreases |s| - i
  {
    if i < |s| && IsDigit(s[i]) then RunEnd(s, i + 1) else i
  }

  /** A run of digits from `i` to `j` followed by a non-digit or the end is the maximal run. */
  lemma {:induction false} RunEndUnique(s: seq<Byte>, i: nat, j: nat)
    requires i <= j <= |s|
    requires forall k :: i <= k < j ==> IsDigit(s[k])
    requires j == |s| || !IsDigit(s[j])
    ensures RunEnd(s, i) == j
    decreases j - i
  {
    if i < j {
      RunEndUnique(s, i + 1, j);
    }
  }

  /** What `parse_kb_value` computes: no value when the line has no digit,
      otherwise the first maximal digit run, capped at `u64::MAX`. */
  function KbValue(line: seq<Byte>): (r: Option<U64>)
    ensures r.None? <==> forall i :: 0 <= i < |line| ==> !IsDigit(line[i])
  {
    match FirstStop(line, false)
    case None => None
    case Some(i) => Some(Min(Decimal(line[i..RunEnd(line, i)]), U64_MAX))
  }

  /** What `parse_cgroup_value` computes: no value when an `m`/`M` comes
      before or right after the first digit run, or when there is no digit;
      otherwise the first digit run, capped at `u64::MAX`. */
  function CgroupValue(bytes: seq<Byte>): (r: Option<U64>)
    ensures (forall i :: 0 <= i < |bytes| ==> !IsDigit(bytes[i])) ==> r.None?
    ensures StartsWith(bytes, MAX_LITERAL) ==> r.None?
  {
    match FirstStop(bytes, true)
    case None => None
    case Some(i) =>
      if IsM(bytes[i]) then None
      else
        var j := RunEnd(bytes, i);
        if j < |bytes| && IsM(bytes[j]) then None
        else Some(Min(Decimal(bytes[i..j]), U64_MAX))
  }

  /** Progress of either scanner after `k` bytes: before the first digit
      nothing has stopped the scan; after it, `value` has accumulated the
      digits from `start` on. */
  ghost predicate Scanned(s: seq<Byte>, stopAtM: bool, k: nat, start: nat, sawDigit: bool, value: U64) {
    && start <= k <= |s|
    && (!sawDigit ==> value == 0 && forall i :: 0 <= i < k ==> !IsDigit(s[i]) && !(stopAtM && IsM(s[i])))
    && (sawDigit ==>
          && start < k && FirstStop(s, stopAtM) == Some(start)
          && (forall i :: start <= i < k ==> IsDigit(s[i]))
          && value == SatDecimal(s[start..k]))
  }

  /** A digit extends the run, or starts it. */
  lemma ScanDigit(s: seq<Byte>, stopAtM: bool, k: nat, start: nat, sawDigit: bool, value: U64)
    requires Scanned(s, stopAtM, k, start, sawDigit, value) && k < |s| && IsDigit(s[k])
    ensures Scanned(s, stopAtM, k + 1, if sawDigit then start else k, true, SatAdd(SatMul(value, 10), DigitValue(s[k])))
  {
    var start' := if sawDigit then start else k;
    if !sawDigit {
      FirstStopAt(s, stopAtM, k);
    }
    assert s[start'..k + 1][..k - start'] == s[start'..k];
  }

  /** A run that has ended holds the capped value of the first maximal digit run. */
  lemma ScanEnd(s: seq<Byte>, stopAtM: bool, k: nat, start: nat, value: U64)
    requires Scanned(s, stopAtM, k, start, true, value) && (k == |s| || !IsDigit(s[k]))
    ensures FirstStop(s, stopAtM) == Some(start) && IsDigit(s[start]) && RunEnd(s, start) == k
    ensures value == Min(Decimal(s[start..k]), U64_MAX)
  {
    RunEndUnique(s, start, k);
    SatDecimalIsCapped(s[start..k]);
  }

  /** `parse_kb_value`: the byte loop with its saturating accumulator. */
  method ParseKbValue(line: seq<Byte>) returns (r: Option<U64>)
    ensures r == KbValue(line)
  {
    var value: U64 := 0;
    var sawDigit := false;
    ghost var start := 0;
    var k := 0;
    while k < |line|
      invariant Scanned(line, false, k, start, sawDigit, value)
    {
      var b := line[k];
      if IsDigit(b) {
        ScanDigit(line, false, k, start, sawDigit, value);
        start := if sawDigit then start else k;
        sawDigit := true;
        value := SatAdd(SatMul(value, 10), DigitValue(b));
      } else if sawDigit {
        break;
      }
      k := k + 1;
    }
    if sawDigit {
      ScanEnd(line, false, k, start, value);
      r := Some(value);
    } else {
      r := None;
    }
  }

  /** `parse_cgroup_value`: as `parse_kb_value`, but an `m` or `M` met
      before the scan stops means no value. */
  method ParseCgroupValue(bytes: seq<Byte>) returns (r: Option<U64>)
    ensures r == CgroupValue(bytes)
  {
    var value: U64 := 0;
    var sawDigit := false;
    ghost var start := 0;
    var k := 0;
    while k < |bytes|
      invariant Scanned(bytes, true, k, start, sawDigit, value)
    {
      var b := bytes[k];
      if IsDigit(b) {
        ScanDigit(bytes, true, k, start, sawDigit, value);
        start := if sawDigit then start else k;
        sawDigit := true;
        value := SatAdd(SatMul(value, 10), DigitValue(b));
      } else if IsM(b) {
        if !sawDigit {
          FirstStopAt(bytes, true, k);
        } else {
          ScanEnd(bytes, true, k, start, value);
        }
        return None;
      } else if sawDigit {
        break;
      }
      k := k + 1;
    }
    if sawDigit {
      ScanEnd(bytes, true, k, start, value);
      r := Some(value);
    } else {
      r := None;
    }
  }

  /** The first stop is at `k` when nothing before `k` stops the scan. */
  lemma {:induction false} FirstStopAt(s: seq<Byte>, stopAtM: bool, k: nat)
    requires k < |s| && (IsDigit(s[k]) || (stopAtM && IsM(s[k])))
    requires forall i :: 0 <= i < k ==> !IsDigit(s[i]) && !(stopAtM && IsM(s[i]))
    ensures FirstStop(s, stopAtM) == Some(k)
    decreases k
  {
    if k > 0 {
      FirstStopAt(s[1..], stopAtM, k - 1);
    }
  }

  // ---------------------------------------------------------------------
  // Lines

  /** `bytes.split(|b| *b == b'\n')`: the pieces between newlines, so one
      more piece than there are newlines. */
  function SplitLines(bytes: seq<Byte>): (lines: seq<seq<Byte>>)
    ensures |lines| >= 1
    ensures forall i, k :: 0 <= i < |lines| && 0 <= k < |lines[i]| ==> lines[i][k] != NEWLINE
    decreases |bytes|
  {
    match Find(bytes, NEWLINE)
    case None => [bytes]
    case Some(i) => [bytes[..i]] + SplitLines(bytes[i + 1..])
  }

  /** Index of the first occurrence of `b`. */
  function Find(s: seq<Byte>, b: Byte): (r: Option<nat>)
    ensures r.None? ==> b !in s
    ensures r.Some? ==> r.value < |s| && s[r.value] == b && b !in s[..r.value]
  {
    if |s| == 0 then None
    else if s[0] == b then Some(0)
    else match Find(s[1..], b)
      case None => None
      case Some(k) => assert s[..k + 1] == [s[0]] + s[1..][..k]; Some(k + 1)
  }

  /** The first occurrence is at `k` when `s[k]` is `b` and no earlier byte is. */
  lemma FindAt(s: seq<Byte>, b: Byte, k: nat)
    requires k < |s| && s[k] == b && forall i :: 0 <= i < k ==> s[i] != b
    ensures Find(s, b) == Some(k)
  {
    var r := Find(s, b);
    assert b in s[..k + 1];
    assert r.Some? && r.value <= k;
    assert s[r.value] == b;
  }

  /** The lines joined back with newlines. */
  function JoinLines(lines: seq<seq<Byte>>): seq<Byte>
    requires |lines| >= 1
  {
    if |lines| == 1 then lines[0] else lines[0] + [NEWLINE] + JoinLines(lines[1..])
  }

  /** Splitting loses nothing: joining the lines gives the bytes back. */
  lemma {:induction false} SplitJoin(bytes: seq<Byte>)
    ensures JoinLines(SplitLines(bytes)) == bytes
    decreases |bytes|
  {
    match Find(bytes, NEWLINE)
    case None =>
    case Some(i) =>
      var rest := SplitLines(bytes[i + 1..]);
      SplitJoin(bytes[i + 1..]);
      assert ([bytes[..i]] + rest)[1..] == rest;
      assert bytes == bytes[..i] + [NEWLINE] + bytes[i + 1..];
  }

  /** Index of the first line that starts with `prefix`. */
  function FindLine(lines: seq<seq<Byte>>, prefix: seq<Byte>): (r: Option<nat>)
    ensures r.None? ==> forall i :: 0 <= i < |lines| ==> !StartsWith(lines[i], prefix)
    ensures r.Some? ==> r.value < |lines| && StartsWith(lines[r.value], prefix)
    ensures r.Some? ==> forall i :: 0 <= i < r.value ==> !StartsWith(lines[i], prefix)
  {
    if |lines| == 0 then None
    else if StartsWith(lines[0], prefix) then Some(0)
    else match FindLine(lines[1..], prefix)
      case None => None
      case Some(k) => Some(k + 1)
  }

  /** Index of the first line that starts with `prefix` and has a kB value. */
  function FindParsed(lines: seq<seq<Byte>>, prefix: seq<Byte>): (r: Option<nat>)
    ensures r.None? ==> forall i :: 0 <= i < |lines| && StartsWith(lines[i], prefix) ==> KbValue(lines[i]).None?
    ensures r.Some? ==> r.value < |lines| && StartsWith(lines[r.value], prefix) && KbValue(lines[r.value]).Some?
    ensures r.Some? ==> forall i :: 0 <= i < r.value && StartsWith(lines[i], prefix) ==> KbValue(lines[i]).None?
  {
    if |lines| == 0 then None
    else if StartsWith(lines[0], prefix) && KbValue(lines[0]).Some? then Some(0)
    else match FindParsed(lines[1..], prefix)
      case None => None
      case Some(k) => Some(k + 1)
  }

  // ---------------------------------------------------------------------
  // /proc readers

  type FileSystem = map<seq<Byte>, seq<Byte>>

  /** `read_to_buffer`: the contents, or nothing when the file cannot be read. */
  function ReadFile(fs: FileSystem, path: seq<Byte>): Option<seq<Byte>> {
    if path in fs then Some(fs[path]) else None
  }

  /** `/proc/meminfo` */
  const PROC_MEMINFO: seq<Byte> := [47, 112, 114, 111, 99, 47, 109, 101, 109, 105, 110, 102, 111]
  /** `/proc/self/status` */
  const PROC_SELF_STATUS: seq<Byte> := [47, 112, 114, 111, 99, 47, 115, 101, 108, 102, 47, 115, 116, 97, 116, 117, 115]
  /** `/proc/self/cgroup` */
  const PROC_SELF_CGROUP: seq<Byte> := [47, 112, 114, 111, 99, 47, 115, 101, 108, 102, 47, 99, 103, 114, 111, 117, 112]
  /** `MemTotal:` */
  const MEM_TOTAL: seq<Byte> := [77, 101, 109, 84, 111, 116, 97, 108, 58]
  /** `MemAvailable:` */
  const MEM_AVAILABLE: seq<Byte> := [77, 101, 109, 65, 118, 97, 105, 108, 97, 98, 108, 101, 58]
  /** `VmRSS:` */
  const VM_RSS: seq<Byte> := [86, 109, 82, 83, 83, 58]
  /** `0::` */
  const CGROUP_V2_PREFIX: seq<Byte> := [48, 58, 58]

  /** A kB figure in bytes, saturating. */
  function KbToBytes(v: Option<U64>): (r: Option<U64>)
    ensures r.Some? <==> v.Some?
    ensures v.Some? ==> r.value == Min(v.value * 1024, U64_MAX)
  {
    match v
    case None => None
    case Some(x) => Some(SatMul(x, 1024))
  }

  /** The first line of the file at `path` that starts with `prefix`,
      parsed as a kB figure in bytes (`read_meminfo_total`, `read_vm_rss`). */
  function ReadKbLine(fs: FileSystem, path: seq<Byte>, prefix: seq<Byte>): (r: Option<U64>)
    ensures ReadFile(fs, path).None? ==> r.None?
    ensures ReadFile(fs, path).Some? ==>
              var lines := SplitLines(ReadFile(fs, path).value);
              && (r.Some? <==> FindLine(lines, prefix).Some? && KbValue(lines[FindLine(lines, prefix).value]).Some?)
              && (r.Some? ==> r == KbToBytes(KbValue(lines[FindLine(lines, prefix).value])))
  {
    match ReadFile(fs, path)
    case None => None
    case Some(bytes) =>
      var lines := SplitLines(bytes);
      match FindLine(lines, prefix)
      case None => None
      case Some(i) => KbToBytes(KbValue(lines[i]))
  }

  /** `read_meminfo_total`: found only on a `MemTotal:` line of a readable
      `/proc/meminfo`, as a whole number of kB in bytes unless it saturates. */
  function ReadMeminfoTotal(fs: FileSystem): (r: Option<U64>)
    ensures r.Some? ==> ReadFile(fs, PROC_MEMINFO).Some?
                        && FindLine(SplitLines(ReadFile(fs, PROC_MEMINFO).value), MEM_TOTAL).Some?
    ensures r.Some? ==> r.value % 1024 == 0 || r.value == U64_MAX
  {
    ReadKbLine(fs, PROC_MEMINFO, MEM_TOTAL)
  }

  /** `read_vm_rss`: found only on a `VmRSS:` line of a readable
      `/proc/self/status`, as a whole number of kB in bytes unless it
      saturates. */
  function ReadVmRss(fs: FileSystem): (r: Option<U64>)
    ensures r.Some? ==> ReadFile(fs, PROC_SELF_STATUS).Some?
                        && FindLine(SplitLines(ReadFile(fs, PROC_SELF_STATUS).value), VM_RSS).Some?
    ensures r.Some? ==> r.value % 1024 == 0 || r.value == U64_MAX
  {
    ReadKbLine(fs, PROC_SELF_STATUS, VM_RSS)
  }

  /** The figure `read_meminfo` keeps for `prefix`: the first line with that
      key whose value parses, in bytes. */
  function Pick(lines: seq<seq<Byte>>, prefix: seq<Byte>): Option<U64> {
    match FindParsed(lines, prefix)
    case None => None
    case Some(i) => KbToBytes(KbValue(lines[i]))
  }

  /** One more line changes the pick only while nothing has been picked and
      the line has the key. */
  lemma {:induction false} PickExtend(lines: seq<seq<Byte>>, k: nat, prefix: seq<Byte>)
    requires k < |lines|
    ensures Pick(lines[..k + 1], prefix) ==
              if Pick(lines[..k], prefix).None? && StartsWith(lines[k], prefix) then KbToBytes(KbValue(lines[k]))
              else Pick(lines[..k], prefix)
  {
    FindParsedExtend(lines, k, prefix);
  }

  /** A pick made on a prefix of the lines is final. */
  lemma PickFinal(lines: seq<seq<Byte>>, k: nat, prefix: seq<Byte>)
    requires k <= |lines| && Pick(lines[..k], prefix).Some?
    ensures Pick(lines, prefix) == Pick(lines[..k], prefix)
  {
    FindParsedPrefix(lines, k, prefix);
  }

  /** The body of `read_meminfo`'s loop for one line. */
  method ScanLine(line: seq<Byte>, total: Option<U64>, available: Option<U64>)
    returns (total': Option<U64>, available': Option<U64>)
    ensures total' == if total.None? && StartsWith(line, MEM_TOTAL) then KbToBytes(KbValue(line)) else total
    ensures available' == if available.None? && StartsWith(line, MEM_AVAILABLE) then KbToBytes(KbValue(line)) else available
  {
    KeysExclusive(line);
    total', available' := total, available;
    if total.None? && StartsWith(line, MEM_TOTAL) {
      var v := ParseKbValue(line);
      total' := KbToBytes(v);
    } else if available.None? && StartsWith(line, MEM_AVAILABLE) {
      var v := ParseKbValue(line);
      available' := KbToBytes(v);
    }
  }

  /** The loop of `read_meminfo` over the lines, stopping once both figures
      are known: each is taken from the first line with its key whose value
      parses; a line whose value does not parse leaves the figure unset. */
  method ScanMeminfo(lines: seq<seq<Byte>>) returns (total: Option<U64>, available: Option<U64>)
    ensures total == Pick(lines, MEM_TOTAL)
    ensures available == Pick(lines, MEM_AVAILABLE)
  {
    total, available := None, None;
    var k := 0;
    while k < |lines|
      invariant 0 <= k <= |lines|
      invariant total == Pick(lines[..k], MEM_TOTAL) && available == Pick(lines[..k], MEM_AVAILABLE)
    {
      PickExtend(lines, k, MEM_TOTAL);
      PickExtend(lines, k, MEM_AVAILABLE);
      total, available := ScanLine(lines[k], total, available);
      if total.Some? && available.Some? {
        PickFinal(lines, k + 1, MEM_TOTAL);
        PickFinal(lines, k + 1, MEM_AVAILABLE);
        return;
      }
      k := k + 1;
    }
    assert lines[..k] == lines;
  }

  /** No line starts with both keys. */
  lemma KeysExclusive(line: seq<Byte>)
    ensures StartsWith(line, MEM_TOTAL) ==> !StartsWith(line, MEM_AVAILABLE)
  {
    if StartsWith(line, MEM_TOTAL) {
      assert line[..9][3] == 84;
      assert MEM_AVAILABLE[3] == 65;
    }
  }

  /** Looking at one more line. */
  lemma {:induction false} FindParsedExtend(lines: seq<seq<Byte>>, k: nat, prefix: seq<Byte>)
    requires k < |lines|
    ensures FindParsed(lines[..k], prefix).Some? ==> FindParsed(lines[..k + 1], prefix) == FindParsed(lines[..k], prefix)
    ensures FindParsed(lines[..k], prefix).None? && StartsWith(lines[k], prefix) && KbValue(lines[k]).Some? ==>
              FindParsed(lines[..k + 1], prefix) == Some(k)
    ensures FindParsed(lines[..k], prefix).None? && !(StartsWith(lines[k], prefix) && KbValue(lines[k]).Some?) ==>
              FindParsed(lines[..k + 1], prefix).None?
  {
    var a := lines[..k];
    var b := lines[..k + 1];
    assert forall i :: 0 <= i < k ==> b[i] == a[i];
    match FindParsed(a, prefix)
    case Some(j) =>
      FindParsedAt(b, prefix, j);
    case None =>
      if StartsWith(lines[k], prefix) && KbValue(lines[k]).Some? {
        FindParsedAt(b, prefix, k);
      }
  }

  /** A found line stays the first one in any longer list. */
  lemma {:induction false} FindParsedPrefix(lines: seq<seq<Byte>>, k: nat, prefix: seq<Byte>)
    requires k <= |lines| && FindParsed(lines[..k], prefix).Some?
    ensures FindParsed(lines, prefix) == FindParsed(lines[..k], prefix)
  {
    var j := FindParsed(lines[..k], prefix).value;
    assert forall i :: 0 <= i <= j ==> lines[..k][i] == lines[i];
    FindParsedAt(lines, prefix, j);
  }

  /** The first matching parsed line is at `j` when it matches and nothing before it does. */
  lemma {:induction false} FindParsedAt(lines: seq<seq<Byte>>, prefix: seq<Byte>, j: nat)
    requires j < |lines| && StartsWith(lines[j], prefix) && KbValue(lines[j]).Some?
    requires forall i :: 0 <= i < j && StartsWith(lines[i], prefix) ==> KbValue(lines[i]).None?
    ensures FindParsed(lines, prefix) == Some(j)
    decreases j
  {
    if j > 0 {
      FindParsedAt(lines[1..], prefix, j - 1);
    }
  }

  /** `read_meminfo`: total and available memory in bytes, when the file
      reads and both figures were found (their search is `ScanMeminfo`). */
  function ReadMeminfo(fs: FileSystem): (r: Option<(U64, U64)>)
    ensures ReadFile(fs, PROC_MEMINFO).None? ==> r.None?
    ensures ReadFile(fs, PROC_MEMINFO).Some? ==>
              var lines := SplitLines(ReadFile(fs, PROC_MEMINFO).value);
              && (r.Some? <==> FindParsed(lines, MEM_TOTAL).Some? && FindParsed(lines, MEM_AVAILABLE).Some?)
              && (r.Some? ==> Some(r.value.0) == KbToBytes(KbValue(lines[FindParsed(lines, MEM_TOTAL).value]))
                              && Some(r.value.1) == KbToBytes(KbValue(lines[FindParsed(lines, MEM_AVAILABLE).value])))
  {
    match ReadFile(fs, PROC_MEMINFO)
    case None => None
    case Some(bytes) =>
      var lines := SplitLines(bytes);
      var total := Pick(lines, MEM_TOTAL);
      var available := Pick(lines, MEM_AVAILABLE);
      if total.Some? && available.Some? then Some((total.value, available.value)) else None
  }

  /** `read_u64_from_file`: the cgroup value of the file, nothing when it cannot be read. */
  function ReadU64FromFile(fs: FileSystem, path: seq<Byte>): (r: Option<U64>)
    ensures path !in fs ==> r.None?
    ensures path in fs ==> r == CgroupValue(fs[path])
  {
    match ReadFile(fs, path)
    case None => None
    case Some(bytes) => CgroupValue(bytes)
  }

  /** `read_meminfo` and `read_meminfo_total` agree on the total whenever
      the first `MemTotal:` line carries a value; they differ only when it
      does not, where `read_meminfo` goes on to a later `MemTotal:` line. */
  lemma MeminfoTotalsAgree(lines: seq<seq<Byte>>)
    requires FindLine(lines, MEM_TOTAL).Some? && KbValue(lines[FindLine(lines, MEM_TOTAL).value]).Some?
    ensures FindParsed(lines, MEM_TOTAL) == FindLine(lines, MEM_TOTAL)
  {
    FindParsedAt(lines, MEM_TOTAL, FindLine(lines, MEM_TOTAL).value);
  }

  // ---------------------------------------------------------------------
  // UTF-8 and paths

  predicate InRange(b: Byte, lo: int, hi: int) {
    lo <= b <= hi
  }

  /** Well-formed UTF-8 (Table 3-7 of the Unicode Standard), the check of
      `std::str::from_utf8`. */
  predicate ValidUtf8(s: seq<Byte>)
    decreases |s|
  {
    if |s| == 0 then true
    else if s[0] <= 0x7F then ValidUtf8(s[1..])
    else if InRange(s[0], 0xC2, 0xDF) then
      |s| >= 2 && InRange(s[1], 0x80, 0xBF) && ValidUtf8(s[2..])
    else if s[0] == 0xE0 then
      |s| >= 3 && InRange(s[1], 0xA0, 0xBF) && InRange(s[2], 0x80, 0xBF) && ValidUtf8(s[3..])
    else if InRange(s[0], 0xE1, 0xEC) || InRange(s[0], 0xEE, 0xEF) then
      |s| >= 3 && InRange(s[1], 0x80, 0xBF) && InRange(s[2], 0x80, 0xBF) && ValidUtf8(s[3..])
    else if s[0] == 0xED then
      |s| >= 3 && InRange(s[1], 0x80, 0x9F) && InRange(s[2], 0x80, 0xBF) && ValidUtf8(s[3..])
    else if s[0] == 0xF0 then
      |s| >= 4 && InRange(s[1], 0x90, 0xBF) && InRange(s[2], 0x80, 0xBF) && InRange(s[3], 0x80, 0xBF) && ValidUtf8(s[4..])
    else if InRange(s[0], 0xF1, 0xF3) then
      |s| >= 4 && InRange(s[1], 0x80, 0xBF) && InRange(s[2], 0x80, 0xBF) && InRange(s[3], 0x80, 0xBF) && ValidUtf8(s[4..])
    else if s[0] == 0xF4 then
      |s| >= 4 && InRange(s[1], 0x80, 0x8F) && InRange(s[2], 0x80, 0xBF) && InRange(s[3], 0x80, 0xBF) && ValidUtf8(s[4..])
    else false
  }

  /** ASCII is valid UTF-8. */
  lemma {:induction false} AsciiIsUtf8(s: seq<Byte>)
    requires forall i :: 0 <= i < |s| ==> s[i] < 0x80
    ensures ValidUtf8(s)
    decreases |s|
  {
    if |s| > 0 {
      AsciiIsUtf8(s[1..]);
    }
  }

  /** `Path::join` on Unix: an absolute `p` replaces `base`; otherwise `p`
      is appended with a separator unless `base` is empty or already ends
      with one. */
  function PathJoin(base: seq<Byte>, p: seq<Byte>): (r: seq<Byte>)
    ensures |p| > 0 && p[0] == SLASH ==> r == p
    ensures !(|p| > 0 && p[0] == SLASH) ==> StartsWith(r, base) && |p| <= |r| && r[|r| - |p|..] == p
  {
    if |p| > 0 && p[0] == SLASH then p
    else if |base| == 0 || base[|base| - 1] == SLASH then base + p
    else base + [SLASH] + p
  }

  /** `/sys/fs/cgroup` */
  const SYS_FS_CGROUP: seq<Byte> := [47, 115, 121, 115, 47, 102, 115, 47, 99, 103, 114, 111, 117, 112]

  /** The cgroup v2 path as written: the text after `0::` on the first such
      line of `/proc/self/cgroup`, joined onto `/sys/fs/cgroup`. The kernel
      writes that text as an absolute path, so the join discards the base. */
  function CgroupV2PathAsWritten(fs: FileSystem): (r: Option<seq<Byte>>)
    ensures r.Some? ==> ReadFile(fs, PROC_SELF_CGROUP).Some?
                        && FindLine(SplitLines(ReadFile(fs, PROC_SELF_CGROUP).value), CGROUP_V2_PREFIX).Some?
    ensures r.Some? ==> |r.value| > 0 && r.value[0] == SLASH
  {
    match ReadFile(fs, PROC_SELF_CGROUP)
    case None => None
    case Some(bytes) =>
      var lines := SplitLines(bytes);
      match FindLine(lines, CGROUP_V2_PREFIX)
      case None => None
      case Some(i) =>
        var path := lines[i][3..];
        if |path| == 0 then Some(PathJoin(SYS_FS_CGROUP, [SLASH]))
        else if !ValidUtf8(path) then None
        else Some(PathJoin(SYS_FS_CGROUP, path))
  }

  /** The `0::` line of `/proc/self/cgroup` names `p`. */
  predicate CgroupLineNames(fs: FileSystem, p: seq<Byte>) {
    && ReadFile(fs, PROC_SELF_CGROUP).Some?
    && var lines := SplitLines(ReadFile(fs, PROC_SELF_CGROUP).value);
       FindLine(lines, CGROUP_V2_PREFIX).Some? && lines[FindLine(lines, CGROUP_V2_PREFIX).value][3..] == p
  }

  /** The kernel writes the cgroup as an absolute path, and then the path as
      written is that path itself, outside the cgroup file system. */
  lemma CgroupPathEscapes(fs: FileSystem, p: seq<Byte>)
    requires CgroupLineNames(fs, p) && |p| > 0 && p[0] == SLASH && ValidUtf8(p)
    ensures CgroupV2PathAsWritten(fs) == Some(p)
  {
  }

  /** `/user.slice` */
  const USER_SLICE: seq<Byte> := [47, 117, 115, 101, 114, 46, 115, 108, 105, 99, 101]

  /** For a process in `/user.slice` the join drops the base. */
  lemma UserSliceEscapes()
    ensures PathJoin(SYS_FS_CGROUP, USER_SLICE) == USER_SLICE
  {
    assert USER_SLICE[0] == SLASH;
  }

  /** The intended path for `/user.slice` is `/sys/fs/cgroup/user.slice`. */
  lemma UserSliceIntended()
    ensures PathJoin(SYS_FS_CGROUP, StripSlashes(USER_SLICE)) == SYS_FS_CGROUP + [SLASH] + USER_SLICE[1..]
  {
    assert USER_SLICE[1] != SLASH;
    assert StripSlashes(USER_SLICE[1..]) == USER_SLICE[1..];
    assert StripSlashes(USER_SLICE) == USER_SLICE[1..];
    assert SYS_FS_CGROUP[|SYS_FS_CGROUP| - 1] != SLASH;
  }

  /** Leading separators removed. */
  function StripSlashes(p: seq<Byte>): (r: seq<Byte>)
    ensures |r| == 0 || r[0] != SLASH
    ensures |r| <= |p| && r == p[|p| - |r|..]
  {
    if |p| > 0 && p[0] == SLASH then StripSlashes(p[1..]) else p
  }

  /** `cgroup_v2_path` as evidently intended: the cgroup's directory under
      `/sys/fs/cgroup`. */
  function CgroupV2Path(fs: FileSystem): (r: Option<seq<Byte>>)
    ensures r.Some? ==> StartsWith(r.value, SYS_FS_CGROUP)
    ensures r.Some? <==> CgroupV2PathAsWritten(fs).Some?
  {
    match ReadFile(fs, PROC_SELF_CGROUP)
    case None => None
    case Some(bytes) =>
      var lines := SplitLines(bytes);
      match FindLine(lines, CGROUP_V2_PREFIX)
      case None => None
      case Some(i) =>
        var path := lines[i][3..];
        if |path| != 0 && !ValidUtf8(path) then None
        else Some(PathJoin(SYS_FS_CGROUP, StripSlashes(path)))
  }

  /** The intended path keeps the cgroup's components under the base: for
      the line `0::/a/b` it is `/sys/fs/cgroup/a/b`. */
  lemma CgroupPathInside(fs: FileSystem, p: seq<Byte>)
    requires CgroupLineNames(fs, p) && ValidUtf8(p)
    ensures CgroupV2Path(fs) == Some(SYS_FS_CGROUP + [SLASH] + StripSlashes(p))
  {
    var q := StripSlashes(p);
    assert |SYS_FS_CGROUP| == 14 && SYS_FS_CGROUP[13] != SLASH;
    assert PathJoin(SYS_FS_CGROUP, q) == SYS_FS_CGROUP + [SLASH] + q;
  }
}

=== FILE: scheduler.dfy ===
/** scheduler/src/lib.rs, policy vocabulary: budget tiers, memory pressure,
    the execution budget and the advisory hints derived from the two. */
module Scheduler {
  import opened Common

  /** `BudgetTier`, from most to least privileged. */
  datatype BudgetTier = Foreground | VisibleBackground | IdleBackground

  /** `MemoryPressure`, from least to most severe. */
  datatype MemoryPressure = Low | Moderate | Severe

  /** `ExecutionBudget`: the authoritative policy signal for one tab. */
  datatype ExecutionBudget = ExecutionBudget(tier: BudgetTier)

  /** `ExecutionBudgetHints`. `maxTimerFrequency` is the minimum timer period
      in milliseconds (`None`: no clamp). */
  datatype ExecutionBudgetHints = ExecutionBudgetHints(
    maxTimerFrequency: Option<nat>,
    allowBackgroundJs: bool,
    allowWasm: bool,
    allowWorkers: bool,
    preferSuspend: bool)

  /** `pressure_rank`: Low 0, Moderate 1, Severe 2. */
  function PressureRank(p: MemoryPressure): (r: nat)
    ensures r <= 2
    ensures r == 0 <==> p == Low
    ensures r == 2 <==> p == Severe
  {
    match p
    case Low => 0
    case Moderate => 1
    case Severe => 2
  }

  /** Position of a tier in the privilege order; a larger rank is a demotion. */
  function TierRank(t: BudgetTier): nat {
    match t
    case Foreground => 0
    case VisibleBackground => 1
    case IdleBackground => 2
  }

  const TIMER_20HZ: nat := 50
  const TIMER_10HZ: nat := 100
  const TIMER_4HZ: nat := 250
  const TIMER_2HZ: nat := 500
  const TIMER_1HZ: nat := 1000
  const TIMER_0_5HZ: nat := 2000

  /** `map_execution_hints`: the 3 x 3 table from tier and pressure to hints. */
  function MapExecutionHints(budget: ExecutionBudget, pressure: MemoryPressure): (r: ExecutionBudgetHints)
    ensures r.maxTimerFrequency.None? <==> budget.tier == Foreground && pressure != Severe
    ensures r.allowWasm == r.allowWorkers
    ensures r.allowWasm ==> r.allowBackgroundJs
    ensures r.preferSuspend <==> !r.allowBackgroundJs
    ensures r.allowBackgroundJs <==> budget.tier == Foreground || (budget.tier == VisibleBackground && pressure != Severe)
    ensures r.allowWasm <==> (budget.tier == Foreground && pressure != Severe) || (budget.tier == VisibleBackground && pressure == Low)
  {
    match budget.tier
    case Foreground =>
      (match pressure
       case Low | Moderate => ExecutionBudgetHints(None, true, true, true, false)
       case Severe => ExecutionBudgetHints(Some(TIMER_20HZ), true, false, false, false))
    case VisibleBackground =>
      (match pressure
       case Low => ExecutionBudgetHints(Some(TIMER_10HZ), true, true, true, false)
       case Moderate => ExecutionBudgetHints(Some(TIMER_4HZ), true, false, false, false)
       case Severe => ExecutionBudgetHints(Some(TIMER_2HZ), false, false, false, true))
    case IdleBackground =>
      (match pressure
       case Low => ExecutionBudgetHints(Some(TIMER_2HZ), false, false, false, true)
       case Moderate => ExecutionBudgetHints(Some(TIMER_1HZ), false, false, false, true)
       case Severe => ExecutionBudgetHints(Some(TIMER_0_5HZ), false, false, false, true))
  }

  /** Timer clamps ordered by restrictiveness: no clamp is below every clamp,
      and a longer minimum period is more restrictive. */
  predicate ClampAtMost(a: Option<nat>, b: Option<nat>) {
    a.None? || (b.Some? && a.value <= b.value)
  }

  /** `stricter` grants nothing `looser` does not, prefers suspension whenever
      `looser` does, and clamps timers at least as hard. */
  predicate NoMorePermissive(stricter: ExecutionBudgetHints, looser: ExecutionBudgetHints) {
    && (stricter.allowBackgroundJs ==> looser.allowBackgroundJs)
    && (stricter.allowWasm ==> looser.allowWasm)
    && (stricter.allowWorkers ==> looser.allowWorkers)
    && (looser.preferSuspend ==> stricter.preferSuspend)
    && ClampAtMost(looser.maxTimerFrequency, stricter.maxTimerFrequency)
  }

  /** The table is monotone in pressure for every tier (Severe within
      Moderate within Low). */
  lemma HintsMonotoneInPressure(budget: ExecutionBudget, p: MemoryPressure, q: MemoryPressure)
    requires PressureRank(p) <= PressureRank(q)
    ensures NoMorePermissive(MapExecutionHints(budget, q), MapExecutionHints(budget, p))
  {
  }

  /** The table is also monotone along the tier order under a fixed pressure. */
  lemma HintsMonotoneInTier(s: BudgetTier, t: BudgetTier, pressure: MemoryPressure)
    requires TierRank(s) <= TierRank(t)
    ensures NoMorePermissive(MapExecutionHints(ExecutionBudget(t), pressure), MapExecutionHints(ExecutionBudget(s), pressure))
  {
  }

  /** Foreground is unclamped with everything allowed under Low and Moderate
      pressure; under Severe it gets a 50 ms clamp with Wasm and workers denied. */
  lemma ForegroundHints(pressure: MemoryPressure)
    ensures pressure != Severe ==>
              MapExecutionHints(ExecutionBudget(Foreground), pressure) == ExecutionBudgetHints(None, true, true, true, false)
    ensures pressure == Severe ==>
              MapExecutionHints(ExecutionBudget(Foreground), pressure) == ExecutionBudgetHints(Some(50), true, false, false, false)
  {
  }
}

=== FILE: tab_tree.dfy ===
/** src/state.rs: the browser's tab tree. Nodes live in a map keyed by id;
    `roots` lists the top-level nodes and each node lists its children;
    removed tabs go to a recently-closed list. */
module TabTree {
  import opened Common

  /** `TabNode`. */
  datatype TabNode = TabNode(
    id: nat,
    parent: Option<nat>,
    title: string,
    url: string,
    faviconUri: Option<string>,
    children: seq<nat>,
    isExpanded: bool,
    isPinned: bool,
    isMuted: bool,
    isSuspended: bool,
    isGroup: bool)

  /** `ClosedTab`. */
  datatype ClosedTab = ClosedTab(title: string, url: string)

  /** `BrowserState`. */
  datatype BrowserState = BrowserState(
    nextId: nat,
    tabs: map<nat, TabNode>,
    roots: seq<nat>,
    active: Option<nat>,
    recentlyClosed: seq<ClosedTab>)

  const GROUP_URL: string := "owl://group"

  /** Ids below `nextId`, and every child id above its parent's. This is
      what makes the recursion of `remove_tab` terminate. */
  ghost predicate Ordered(s: BrowserState) {
    forall k :: k in s.tabs ==> k < s.nextId && Between(s.tabs[k].children, k, s.nextId)
  }

  /** Every id of `cs` lies strictly between `lo` and `hi`. */
  ghost predicate Between(cs: seq<nat>, lo: nat, hi: nat) {
    forall i :: 0 <= i < |cs| ==> lo < cs[i] < hi
  }

  /** Each node is stored under its own id and lists no child twice. */
  ghost predicate NodesKeyed(s: BrowserState) {
    forall k :: k in s.tabs ==> s.tabs[k].id == k && NoDuplicates(s.tabs[k].children)
  }

  /** Every listed child exists and points back at the node that lists it. */
  ghost predicate ChildrenLinked(s: BrowserState) {
    forall k, c :: k in s.tabs && c in s.tabs[k].children ==> c in s.tabs && s.tabs[c].parent == Some(k)
  }

  /** Every root exists and has no parent. */
  ghost predicate RootsLinked(s: BrowserState) {
    forall r :: r in s.roots ==> r in s.tabs && s.tabs[r].parent.None?
  }

  /** The forest shape the operations keep. A node whose parent was
      unknown at creation is listed nowhere, which this allows. */
  ghost predicate WF(s: BrowserState) {
    Ordered(s) && NodesKeyed(s) && ChildrenLinked(s) && RootsLinked(s)
  }

  /** The empty state before `BrowserState::new` creates its tabs. */
  function Empty(): (s: BrowserState)
    ensures WF(s)
  {
    BrowserState(1, map[], [], None, [])
  }

  /** The node `create_tab_internal` stores: expanded, unpinned, unmuted,
      not suspended, no favicon, no children. */
  function FreshNode(id: nat, parent: Option<nat>, title: string, url: string, isGroup: bool): TabNode {
    TabNode(id, parent, title, url, None, [], true, false, false, false, isGroup)
  }

  // ---------------------------------------------------------------------
  // Creation

  /** `create_tab_internal` as written: the node is inserted before its
      parent is looked up, so a parent id equal to the new id finds the new
      node itself, which then lists itself as its own child. */
  function CreateTabInternalAsWritten(s: BrowserState, parent: Option<nat>, title: string, url: string, isGroup: bool)
    : (r: (nat, BrowserState))
    ensures r.0 == s.nextId && r.1.nextId == s.nextId + 1
    ensures parent == Some(s.nextId) ==> r.0 in r.1.tabs && r.0 in r.1.tabs[r.0].children
  {
    var id := s.nextId;
    var tabs := s.tabs[id := FreshNode(id, parent, title, url, isGroup)];
    match parent
    case None => (id, s.(nextId := id + 1, tabs := tabs, roots := s.roots + [id]))
    case Some(p) =>
      if p in tabs then (id, s.(nextId := id + 1, tabs := tabs[p := tabs[p].(children := tabs[p].children + [id])]))
      else (id, s.(nextId := id + 1, tabs := tabs))
  }

  /** The self-listing node breaks the tree order, so `remove_tab` on it
      would recurse on the node itself without end. */
  lemma SelfParentBreaksOrder(s: BrowserState, title: string, url: string, isGroup: bool)
    ensures !Ordered(CreateTabInternalAsWritten(s, Some(s.nextId), title, url, isGroup).1)
  {
    var r := CreateTabInternalAsWritten(s, Some(s.nextId), title, url, isGroup);
    assert r.0 in r.1.tabs && r.0 in r.1.tabs[r.0].children;
  }

  /** `create_tab_internal` as evidently intended: the parent is looked up
      among the existing nodes. The new id is fresh, the node is appended to
      `roots` without a parent, to its parent's children when the parent
      exists, and is listed nowhere otherwise. */
  function CreateTabInternal(s: BrowserState, parent: Option<nat>, title: string, url: string, isGroup: bool)
    : (r: (nat, BrowserState))
    ensures r.0 == s.nextId && r.1.nextId == s.nextId + 1
    ensures r.1.tabs.Keys == s.tabs.Keys + {r.0}
    ensures r.1.active == s.active && r.1.recentlyClosed == s.recentlyClosed
    ensures s.nextId !in s.tabs ==> r.1.tabs[r.0] == FreshNode(r.0, parent, title, url, isGroup) && Created(s, r.1, parent)
  {
    var id := s.nextId;
    var listed := parent.Some? && parent.value in s.tabs;
    var tabs := s.tabs[id := FreshNode(id, parent, title, url, isGroup)];
    match parent
    case None => (id, s.(nextId := id + 1, tabs := tabs, roots := s.roots + [id]))
    case Some(p) =>
      if listed then (id, s.(nextId := id + 1, tabs := tabs[p := s.tabs[p].(children := s.tabs[p].children + [id])]))
      else (id, s.(nextId := id + 1, tabs := tabs))
  }

  /** Creation keeps the forest shape, and the new id was not in use. */
  lemma CreateKeepsWF(s: BrowserState, parent: Option<nat>, title: string, url: string, isGroup: bool)
    ensures WF(s) ==> s.nextId !in s.tabs && WF(CreateTabInternal(s, parent, title, url, isGroup).1)
  {
    if WF(s) {
      var t := CreateTabInternal(s, parent, title, url, isGroup).1;
      assert s.nextId !in s.tabs;
      CreateKeepsOrdered(s, t, parent);
      CreateKeepsNodesKeyed(s, t, parent);
      CreateKeepsChildrenLinked(s, t, parent);
    }
  }

  /** What creation does to the map, as the lemmas below need it. */
  ghost predicate Created(s: BrowserState, t: BrowserState, parent: Option<nat>) {
    && s.nextId !in s.tabs
    && t.nextId == s.nextId + 1
    && t.tabs.Keys == s.tabs.Keys + {s.nextId}
    && t.tabs[s.nextId].children == [] && t.tabs[s.nextId].id == s.nextId && t.tabs[s.nextId].parent == parent
    && (forall k :: k in s.tabs && Some(k) != parent ==> t.tabs[k] == s.tabs[k])
    && (parent.Some? && parent.value in s.tabs ==>
          t.tabs[parent.value] == s.tabs[parent.value].(children := s.tabs[parent.value].children + [s.nextId]))
    && (parent.None? ==> t.roots == s.roots + [s.nextId])
    && (parent.Some? ==> t.roots == s.roots)
  }

  lemma CreateKeepsOrdered(s: BrowserState, t: BrowserState, parent: Option<nat>)
    requires WF(s) && Created(s, t, parent)
    ensures Ordered(t)
  {
  }

  lemma CreateKeepsNodesKeyed(s: BrowserState, t: BrowserState, parent: Option<nat>)
    requires WF(s) && Created(s, t, parent)
    ensures NodesKeyed(t) && RootsLinked(t)
  {
    if parent.Some? && parent.value in s.tabs {
      assert s.nextId !in s.tabs[parent.value].children;
    }
  }

  lemma CreateKeepsChildrenLinked(s: BrowserState, t: BrowserState, parent: Option<nat>)
    requires WF(s) && Created(s, t, parent)
    ensures ChildrenLinked(t)
  {
  }

  /** Apart from a parent equal to the new id, the function as written
      agrees with the intended one. */
  lemma CreateAgrees(s: BrowserState, parent: Option<nat>, title: string, url: string, isGroup: bool)
    requires Ordered(s) && parent != Some(s.nextId)
    ensures CreateTabInternalAsWritten(s, parent, title, url, isGroup) == CreateTabInternal(s, parent, title, url, isGroup)
  {
    assert s.nextId !in s.tabs;
  }

  /** `create_tab`: a plain tab under `parent`. */
  function CreateTab(s: BrowserState, parent: Option<nat>, title: string, url: string): (r: (nat, BrowserState))
    ensures r.0 == s.nextId && r.0 in r.1.tabs
  {
    CreateTabInternal(s, parent, title, url, false)
  }

  /** `create_group`: a top-level group node. */
  function CreateGroup(s: BrowserState, title: string): (r: (nat, BrowserState))
    ensures r.0 == s.nextId && r.0 in r.1.tabs
    ensures r.1.roots == s.roots + [r.0]
  {
    CreateTabInternal(s, None, title, GROUP_URL, true)
  }

  /** Successive creations hand out consecutive ids. */
  lemma CreateIdsIncrease(s: BrowserState, parent1: Option<nat>, parent2: Option<nat>, title: string, url: string)
    requires Ordered(s)
    ensures var (a, s1) := CreateTab(s, parent1, title, url);
            var (b, _) := CreateTab(s1, parent2, title, url);
            b == a + 1 && a !in s.tabs
  {
  }

  // ---------------------------------------------------------------------
  // Single-node updates

  /** `set_active`: only an existing id becomes active. */
  function SetActive(s: BrowserState, id: nat): (r: BrowserState)
    ensures id in s.tabs ==> r == s.(active := Some(id))
    ensures id !in s.tabs ==> r == s
  {
    if id in s.tabs then s.(active := Some(id)) else s
  }

  /** The node `id` replaced by `node`, nothing else changed. */
  function UpdateNode(s: BrowserState, id: nat, node: TabNode): BrowserState
    requires id in s.tabs
  {
    s.(tabs := s.tabs[id := node])
  }

  /** `toggle_expanded`: flips `is_expanded` of a node that has children. */
  function ToggleExpanded(s: BrowserState, id: nat): (r: BrowserState)
    ensures id in s.tabs && |s.tabs[id].children| > 0 ==>
              r == s.(tabs := s.tabs[id := s.tabs[id].(isExpanded := !s.tabs[id].isExpanded)])
    ensures !(id in s.tabs && |s.tabs[id].children| > 0) ==> r == s
  {
    if id in s.tabs && |s.tabs[id].children| > 0 then UpdateNode(s, id, s.tabs[id].(isExpanded := !s.tabs[id].isExpanded))
    else s
  }

  /** `toggle_pin`. */
  function TogglePin(s: BrowserState, id: nat): (r: BrowserState)
    ensures id in s.tabs ==> r == s.(tabs := s.tabs[id := s.tabs[id].(isPinned := !s.tabs[id].isPinned)])
    ensures id !in s.tabs ==> r == s
  {
    if id in s.tabs then UpdateNode(s, id, s.tabs[id].(isPinned := !s.tabs[id].isPinned)) else s
  }

  /** `toggle_mute`. */
  function ToggleMute(s: BrowserState, id: nat): (r: BrowserState)
    ensures id in s.tabs ==> r == s.(tabs := s.tabs[id := s.tabs[id].(isMuted := !s.tabs[id].isMuted)])
    ensures id !in s.tabs ==> r == s
  {
    if id in s.tabs then UpdateNode(s, id, s.tabs[id].(isMuted := !s.tabs[id].isMuted)) else s
  }

  /** `toggle_suspended`. */
  function ToggleSuspended(s: BrowserState, id: nat): (r: BrowserState)
    ensures id in s.tabs ==> r == s.(tabs := s.tabs[id := s.tabs[id].(isSuspended := !s.tabs[id].isSuspended)])
    ensures id !in s.tabs ==> r == s
  {
    if id in s.tabs then UpdateNode(s, id, s.tabs[id].(isSuspended := !s.tabs[id].isSuspended)) else s
  }

  /** Each toggle undoes itself. */
  lemma TogglesAreInvolutions(s: BrowserState, id: nat)
    ensures ToggleExpanded(ToggleExpanded(s, id), id) == s
    ensures TogglePin(TogglePin(s, id), id) == s
    ensures ToggleMute(ToggleMute(s, id), id) == s
    ensures ToggleSuspended(ToggleSuspended(s, id), id) == s
  {
    ExpandTwice(s, id);
    PinTwice(s, id);
    MuteTwice(s, id);
    SuspendTwice(s, id);
  }

  lemma ExpandTwice(s: BrowserState, id: nat)
    ensures ToggleExpanded(ToggleExpanded(s, id), id) == s
  {
    if id in s.tabs {
      assert s.tabs[id := s.tabs[id]] == s.tabs;
    }
  }

  lemma PinTwice(s: BrowserState, id: nat)
    ensures TogglePin(TogglePin(s, id), id) == s
  {
    if id in s.tabs {
      assert s.tabs[id := s.tabs[id]] == s.tabs;
    }
  }

  lemma MuteTwice(s: BrowserState, id: nat)
    ensures ToggleMute(ToggleMute(s, id), id) == s
  {
    if id in s.tabs {
      assert s.tabs[id := s.tabs[id]] == s.tabs;
    }
  }

  lemma SuspendTwice(s: BrowserState, id: nat)
    ensures ToggleSuspended(ToggleSuspended(s, id), id) == s
  {
    if id in s.tabs {
      assert s.tabs[id := s.tabs[id]] == s.tabs;
    }
  }

  /** Changing a node's flags, title, URL or favicon keeps the forest shape. */
  lemma UpdateKeepsWF(s: BrowserState, id: nat, node: TabNode)
    requires WF(s) && id in s.tabs
    requires node.id == id && node.parent == s.tabs[id].parent && node.children == s.tabs[id].children
    ensures WF(UpdateNode(s, id, node))
  {
  }

  /** `update_tab`: a given title replaces the title; a given URL replaces
      the URL and drops the favicon. */
  function UpdateTab(s: BrowserState, id: nat, title: Option<string>, url: Option<string>): (r: BrowserState)
    ensures id !in s.tabs ==> r == s
    ensures id in s.tabs ==> r.tabs.Keys == s.tabs.Keys && r.roots == s.roots && r.active == s.active
    ensures id in s.tabs ==> forall k :: k in s.tabs && k != id ==> r.tabs[k] == s.tabs[k]
    ensures id in s.tabs ==>
              var (old_, new_) := (s.tabs[id], r.tabs[id]);
              && new_.title == (if title.Some? then title.value else old_.title)
              && new_.url == (if url.Some? then url.value else old_.url)
              && new_.faviconUri == (if url.Some? then None else old_.faviconUri)
              && new_.(title := old_.title, url := old_.url, faviconUri := old_.faviconUri) == old_
  {
    if id !in s.tabs then s
    else
      var n := s.tabs[id];
      var n1 := if title.Some? then n.(title := title.value) else n;
      var n2 := if url.Some? then n1.(url := url.value, faviconUri := None) else n1;
      UpdateNode(s, id, n2)
  }

  // ---------------------------------------------------------------------
  // Removal

  /** `remove_tab`: nothing for an unknown id; otherwise the children are
      removed one by one (recursively), then the node is detached from its
      parent's children or from `roots`, dropped, recorded as closed, and
      if it was active, the first root becomes active. */
  function RemoveTab(s: BrowserState, id: nat): (r: BrowserState)
    requires Ordered(s)
    ensures Ordered(r) && r.nextId == s.nextId
    ensures id !in s.tabs ==> r == s
    decreases s.nextId - id, 1
  {
    if id !in s.tabs then s
    else
      var node := s.tabs[id];
      Detach(RemoveAll(s, node.children, id), id, node)
  }

  /** The loop of `remove_tab` over the (copied) children list. */
  function RemoveAll(s: BrowserState, cs: seq<nat>, p: nat): (r: BrowserState)
    requires Ordered(s) && p < s.nextId && Between(cs, p, s.nextId)
    ensures Ordered(r) && r.nextId == s.nextId
    decreases s.nextId - p, 0, |cs|
  {
    if |cs| == 0 then s else RemoveAll(RemoveTab(s, cs[0]), cs[1..], p)
  }

  /** The rest of `remove_tab` once the children are gone; `node` is the
      copy taken before. */
  function Detach(s: BrowserState, id: nat, node: TabNode): (r: BrowserState)
    requires Ordered(s)
    ensures Ordered(r) && r.nextId == s.nextId
  {
    var tabs :=
      if node.parent.Some? && node.parent.value in s.tabs then
        var q := node.parent.value;
        RemoveBetween(s.tabs[q].children, id, q, s.nextId);
        s.tabs[q := s.tabs[q].(children := Remove(s.tabs[q].children, id))]
      else s.tabs;
    var roots := if node.parent.None? then Remove(s.roots, id) else s.roots;
    var active := if s.active == Some(id) then First(roots) else s.active;
    BrowserState(s.nextId, tabs - {id}, roots, active, s.recentlyClosed + [ClosedTab(node.title, node.url)])
  }

  /** Removing an id from a list keeps it within bounds. */
  lemma {:induction false} RemoveBetween(cs: seq<nat>, x: nat, lo: nat, hi: nat)
    requires Between(cs, lo, hi)
    ensures Between(Remove(cs, x), lo, hi)
  {
    if |cs| > 0 {
      RemoveBetween(cs[1..], x, lo, hi);
    }
  }

  /** The subtree of `x`, children before parents, siblings in list order. */
  ghost function PostOrder(s: BrowserState, x: nat): (r: seq<nat>)
    requires Ordered(s)
    ensures forall y :: y in r ==> y in s.tabs && x <= y
    ensures x in s.tabs ==> x in r
    decreases s.nextId - x, 1
  {
    if x !in s.tabs then [] else PostOrderAll(s, s.tabs[x].children, x) + [x]
  }

  /** The subtrees of `cs`, one after the other. */
  ghost function PostOrderAll(s: BrowserState, cs: seq<nat>, p: nat): (r: seq<nat>)
    requires Ordered(s) && p < s.nextId && Between(cs, p, s.nextId)
    ensures forall y :: y in r ==> y in s.tabs && p < y
    decreases s.nextId - p, 0, |cs|
  {
    if |cs| == 0 then [] else PostOrder(s, cs[0]) + PostOrderAll(s, cs[1..], p)
  }

  /** The closed-tab records of `ids`, in order. */
  ghost function Closed(s: BrowserState, ids: seq<nat>): seq<ClosedTab>
    requires forall y :: y in ids ==> y in s.tabs
  {
    seq(|ids|, i requires 0 <= i < |ids| => ClosedTab(s.tabs[ids[i]].title, s.tabs[ids[i]].url))
  }

  /** What `remove_tab` leaves, stated on the state before it: the subtree
      of `id` is gone and recorded as closed in post-order, `id` is taken
      out of its parent's children or out of `roots`, and an active tab
      inside the subtree gives way to the first remaining root. */
  ghost function RemoveSpec(s: BrowserState, id: nat): BrowserState
    requires Ordered(s)
  {
    if id !in s.tabs then s
    else
      var gone := PostOrder(s, id);
      var parent := s.tabs[id].parent;
      var roots := if parent.None? then Remove(s.roots, id) else s.roots;
      BrowserState(
        s.nextId,
        map k | k in s.tabs && k !in gone ::
          if parent == Some(k) then s.tabs[k].(children := Remove(s.tabs[k].children, id)) else s.tabs[k],
        roots,
        if s.active.Some? && s.active.value in gone then First(roots) else s.active,
        s.recentlyClosed + Closed(s, gone))
  }

  /** What removing all children of `p` leaves, stated on the state before. */
  ghost function ClearSpec(s: BrowserState, p: nat): (r: BrowserState)
    requires Ordered(s) && p in s.tabs
    ensures Ordered(r) && r.nextId == s.nextId
  {
    var gone := PostOrderAll(s, s.tabs[p].children, p);
    BrowserState(
      s.nextId,
      map k | k in s.tabs && k !in gone :: if k == p then s.tabs[p].(children := []) else s.tabs[k],
      s.roots,
      if s.active.Some? && s.active.value in gone then First(s.roots) else s.active,
      s.recentlyClosed + Closed(s, gone))
  }

  /** Membership in a run of subtrees. */
  lemma {:induction false} InPostOrderAll(s: BrowserState, cs: seq<nat>, p: nat, y: nat)
    requires Ordered(s) && p < s.nextId && Between(cs, p, s.nextId)
    ensures y in PostOrderAll(s, cs, p) <==> exists c :: c in cs && y in PostOrder(s, c)
    decreases |cs|
  {
    if |cs| > 0 {
      InPostOrderAll(s, cs[1..], p, y);
      if y in PostOrder(s, cs[0]) {
        assert cs[0] in cs;
      }
      forall c | c in cs[1..]
        ensures c in cs
      {
      }
      if exists c :: c in cs && y in PostOrder(s, c) {
        var c :| c in cs && y in PostOrder(s, c);
        if c != cs[0] {
          assert c in cs[1..];
        }
      }
    }
  }

  /** Below its top, a subtree is the subtree of one of the top's children. */
  lemma ChildOf(s: BrowserState, x: nat, y: nat) returns (c: nat)
    requires Ordered(s) && y in PostOrder(s, x) && y != x
    ensures x in s.tabs && c in s.tabs[x].children && y in PostOrder(s, c)
  {
    InPostOrderAll(s, s.tabs[x].children, x, y);
    c :| c in s.tabs[x].children && y in PostOrder(s, c);
  }

  /** A child's subtree lies inside its parent's. */
  lemma Within(s: BrowserState, x: nat, c: nat, y: nat)
    requires Ordered(s) && x in s.tabs && c in s.tabs[x].children && y in PostOrder(s, c)
    ensures y in PostOrder(s, x)
  {
    InPostOrderAll(s, s.tabs[x].children, x, y);
  }

  /** Below the top of a subtree every node's parent is in the subtree too,
      and lists it. */
  lemma {:induction false} ParentInside(s: BrowserState, x: nat, y: nat) returns (q: nat)
    requires Ordered(s) && ChildrenLinked(s) && y in PostOrder(s, x) && y != x
    ensures y in s.tabs && s.tabs[y].parent == Some(q)
    ensures q in PostOrder(s, x) && q in s.tabs && y in s.tabs[q].children
    decreases s.nextId - x
  {
    var c := ChildOf(s, x, y);
    if y == c {
      q := x;
    } else {
      q := ParentInside(s, c, y);
      Within(s, x, c, q);
    }
  }

  /** Subtrees of two different children of one node share nothing. */
  lemma {:induction false} Disjoint(s: BrowserState, p: nat, c1: nat, c2: nat, y: nat)
    requires WF(s) && p in s.tabs && c1 in s.tabs[p].children && c2 in s.tabs[p].children && c1 != c2
    ensures !(y in PostOrder(s, c1) && y in PostOrder(s, c2))
    decreases y
  {
    if y in PostOrder(s, c1) && y in PostOrder(s, c2) {
      if y == c1 {
        var q := ParentInside(s, c2, y);
        assert false;
      } else if y == c2 {
        var q := ParentInside(s, c1, y);
        assert false;
      } else {
        var q := ParentInside(s, c1, y);
        var q' := ParentInside(s, c2, y);
        Disjoint(s, p, c1, c2, q);
      }
    }
  }

  /** The subtree of the first child and those of the others share nothing. */
  lemma DisjointRest(s: BrowserState, p: nat, y: nat)
    requires WF(s) && p in s.tabs && |s.tabs[p].children| > 0
    requires y in PostOrder(s, s.tabs[p].children[0])
    ensures y !in PostOrderAll(s, s.tabs[p].children[1..], p)
  {
    var cs := s.tabs[p].children;
    InPostOrderAll(s, cs[1..], p, y);
    if y in PostOrderAll(s, cs[1..], p) {
      var c :| c in cs[1..] && y in PostOrder(s, c);
      Disjoint(s, p, cs[0], c, y);
    }
  }

  /** A subtree's post-order lists each of its nodes once: one closed-tab
      record per removed node. */
  lemma {:induction false} PostOrderDistinct(s: BrowserState, x: nat)
    requires WF(s)
    ensures NoDuplicates(PostOrder(s, x))
    decreases s.nextId - x, 1
  {
    if x in s.tabs {
      PostOrderAllDistinct(s, x, |s.tabs[x].children|);
    }
  }

  /** The subtrees of the last `n` children of `p`, one after the other,
      list each node once. */
  lemma {:induction false} PostOrderAllDistinct(s: BrowserState, p: nat, n: nat)
    requires WF(s) && p in s.tabs && n <= |s.tabs[p].children|
    ensures NoDuplicates(PostOrderAll(s, s.tabs[p].children[|s.tabs[p].children| - n..], p))
    decreases s.nextId - p, 0, n
  {
    var cs := s.tabs[p].children;
    var k := |cs| - n;
    if n > 0 {
      var a := PostOrder(s, cs[k]);
      var b := PostOrderAll(s, cs[k + 1..], p);
      assert cs[k..][1..] == cs[k + 1..];
      PostOrderDistinct(s, cs[k]);
      PostOrderAllDistinct(s, p, n - 1);
      forall y | y in a
        ensures y !in b
      {
        InPostOrderAll(s, cs[k + 1..], p, y);
        if y in b {
          var c :| c in cs[k + 1..] && y in PostOrder(s, c);
          Disjoint(s, p, cs[k], c, y);
        }
      }
      ConcatDistinct(a, b);
    }
  }

  /** Two duplicate-free sequences with no common element concatenate
      without duplicates. */
  lemma ConcatDistinct(a: seq<nat>, b: seq<nat>)
    requires NoDuplicates(a) && NoDuplicates(b) && forall y :: y in a ==> y !in b
    ensures NoDuplicates(a + b)
  {
    forall i, j | 0 <= i < j < |a + b|
      ensures (a + b)[i] != (a + b)[j]
    {
      if i < |a| && j >= |a| {
        assert (a + b)[i] in a && (a + b)[j] == b[j - |a|];
      }
    }
  }

  // Facts about `Remove` on id lists.

  /** Removing an absent id changes nothing. */
  lemma {:induction false} RemoveAbsent(cs: seq<nat>, x: nat)
    requires x !in cs
    ensures Remove(cs, x) == cs
  {
    if |cs| > 0 {
      RemoveAbsent(cs[1..], x);
      assert cs == [cs[0]] + cs[1..];
    }
  }

  /** In a list without duplicates, removing the head leaves the tail. */
  lemma RemoveHead(cs: seq<nat>)
    requires |cs| > 0 && NoDuplicates(cs)
    ensures Remove(cs, cs[0]) == cs[1..]
  {
    assert cs[0] !in cs[1..] by {
      forall i | 0 <= i < |cs[1..]|
        ensures cs[1..][i] != cs[0]
      {
        assert cs[1..][i] == cs[i + 1];
      }
    }
    RemoveAbsent(cs[1..], cs[0]);
  }

  /** Removing keeps a list free of duplicates. */
  lemma {:induction false} RemoveKeepsDistinct(cs: seq<nat>, x: nat)
    requires NoDuplicates(cs)
    ensures NoDuplicates(Remove(cs, x))
  {
    if |cs| > 0 {
      assert NoDuplicates(cs[1..]) by {
        forall i, j | 0 <= i < j < |cs[1..]|
          ensures cs[1..][i] != cs[1..][j]
        {
          assert cs[1..][i] == cs[i + 1] && cs[1..][j] == cs[j + 1];
        }
      }
      RemoveKeepsDistinct(cs[1..], x);
      if cs[0] != x {
        var t := Remove(cs[1..], x);
        assert cs[0] !in t;
        forall i, j | 0 <= i < j < |[cs[0]] + t|
          ensures ([cs[0]] + t)[i] != ([cs[0]] + t)[j]
        {
          if i == 0 {
            assert ([cs[0]] + t)[j] == t[j - 1];
          } else {
            assert ([cs[0]] + t)[i] == t[i - 1] && ([cs[0]] + t)[j] == t[j - 1];
          }
        }
      }
    }
  }

  /** Removing something other than the head keeps the head first. */
  lemma FirstAfterRemove(cs: seq<nat>, x: nat)
    requires |cs| > 0 && cs[0] != x
    ensures First(Remove(cs, x)) == First(cs)
  {
  }

  // Frame facts: a subtree and its closed records depend only on its own
  // nodes.

  lemma {:induction false} PostOrderFrame(s: BrowserState, t: BrowserState, x: nat)
    requires Ordered(s) && Ordered(t) && t.nextId == s.nextId && t.tabs.Keys <= s.tabs.Keys
    requires forall y :: y in PostOrder(s, x) ==> y in t.tabs && t.tabs[y] == s.tabs[y]
    ensures PostOrder(t, x) == PostOrder(s, x)
    decreases s.nextId - x, 1
  {
    if x in s.tabs {
      PostOrderAllFrame(s, t, s.tabs[x].children, x);
    }
  }

  lemma {:induction false} PostOrderAllFrame(s: BrowserState, t: BrowserState, cs: seq<nat>, p: nat)
    requires Ordered(s) && Ordered(t) && t.nextId == s.nextId && t.tabs.Keys <= s.tabs.Keys
    requires p < s.nextId && Between(cs, p, s.nextId)
    requires forall y :: y in PostOrderAll(s, cs, p) ==> y in t.tabs && t.tabs[y] == s.tabs[y]
    ensures PostOrderAll(t, cs, p) == PostOrderAll(s, cs, p)
    decreases s.nextId - p, 0, |cs|
  {
    if |cs| > 0 {
      PostOrderFrame(s, t, cs[0]);
      PostOrderAllFrame(s, t, cs[1..], p);
    }
  }

  lemma ClosedConcat(s: BrowserState, a: seq<nat>, b: seq<nat>)
    requires forall y :: y in a + b ==> y in s.tabs
    ensures Closed(s, a + b) == Closed(s, a) + Closed(s, b)
  {
  }

  lemma ClosedFrame(s: BrowserState, t: BrowserState, ids: seq<nat>)
    requires forall y :: y in ids ==> y in s.tabs && y in t.tabs && t.tabs[y] == s.tabs[y]
    ensures Closed(t, ids) == Closed(s, ids)
  {
  }

  // The declarative removal keeps the forest shape.

  lemma RemoveSpecOrdered(s: BrowserState, id: nat)
    requires Ordered(s)
    ensures Ordered(RemoveSpec(s, id))
  {
    if id in s.tabs {
      var r := RemoveSpec(s, id);
      forall k | k in r.tabs
        ensures k < r.nextId && Between(r.tabs[k].children, k, r.nextId)
      {
        if s.tabs[id].parent == Some(k) {
          RemoveBetween(s.tabs[k].children, id, k, s.nextId);
        }
      }
    }
  }

  lemma RemoveSpecKeyed(s: BrowserState, id: nat)
    requires Ordered(s) && NodesKeyed(s)
    ensures NodesKeyed(RemoveSpec(s, id))
  {
    if id in s.tabs {
      var r := RemoveSpec(s, id);
      forall k | k in r.tabs
        ensures r.tabs[k].id == k && NoDuplicates(r.tabs[k].children)
      {
        if s.tabs[id].parent == Some(k) {
          RemoveKeepsDistinct(s.tabs[k].children, id);
        }
      }
    }
  }

  lemma RemoveSpecLinked(s: BrowserState, id: nat)
    requires Ordered(s) && ChildrenLinked(s)
    ensures ChildrenLinked(RemoveSpec(s, id))
  {
    if id in s.tabs {
      var r := RemoveSpec(s, id);
      var gone := PostOrder(s, id);
      forall k, c | k in r.tabs && c in r.tabs[k].children
        ensures c in r.tabs && r.tabs[c].parent == Some(k)
      {
        assert c in s.tabs[k].children;
        if c in gone && c != id {
          var q := ParentInside(s, id, c);
        }
      }
    }
  }

  lemma RemoveSpecRoots(s: BrowserState, id: nat)
    requires Ordered(s) && ChildrenLinked(s) && RootsLinked(s)
    ensures RootsLinked(RemoveSpec(s, id))
  {
    if id in s.tabs {
      var r := RemoveSpec(s, id);
      var gone := PostOrder(s, id);
      forall x | x in r.roots
        ensures x in r.tabs && r.tabs[x].parent.None?
      {
        assert x in s.roots;
        if x in gone && x != id {
          var q := ParentInside(s, id, x);
        }
      }
    }
  }

  /** Removing a subtree keeps the forest well formed. */
  lemma RemoveSpecWF(s: BrowserState, id: nat)
    requires WF(s)
    ensures WF(RemoveSpec(s, id))
  {
    RemoveSpecOrdered(s, id);
    RemoveSpecKeyed(s, id);
    RemoveSpecLinked(s, id);
    RemoveSpecRoots(s, id);
  }

  // The recursive removal computes the declarative one.

  /** Removing the first child's subtree leaves the parent with the other
      children and the other children's subtrees as they were. */
  lemma FirstChildRemoved(s: BrowserState, p: nat)
    requires WF(s) && p in s.tabs && |s.tabs[p].children| > 0
    ensures var cs := s.tabs[p].children;
            var s1 := RemoveSpec(s, cs[0]);
            WF(s1) && s1.nextId == s.nextId && s1.roots == s.roots && s1.tabs.Keys <= s.tabs.Keys &&
            p in s1.tabs && s1.tabs[p] == s.tabs[p].(children := cs[1..])
  {
    var cs := s.tabs[p].children;
    RemoveSpecWF(s, cs[0]);
    RemoveHead(cs);
  }

  /** The other children's subtrees survive removing the first child's. */
  lemma RestSurvives(s: BrowserState, p: nat)
    requires WF(s) && p in s.tabs && |s.tabs[p].children| > 0
    ensures var cs := s.tabs[p].children;
            var s1 := RemoveSpec(s, cs[0]);
            Ordered(s1) && s1.nextId == s.nextId &&
            forall y :: y in PostOrderAll(s, cs[1..], p) ==> y in s1.tabs && s1.tabs[y] == s.tabs[y]
  {
    var cs := s.tabs[p].children;
    RemoveSpecOrdered(s, cs[0]);
    forall y | y in PostOrderAll(s, cs[1..], p)
      ensures y !in PostOrder(s, cs[0])
    {
      if y in PostOrder(s, cs[0]) {
        DisjointRest(s, p, y);
      }
    }
  }

  /** One step of the children loop, on the declarative side. */
  lemma ClearStep(s: BrowserState, p: nat)
    requires WF(s) && p in s.tabs && |s.tabs[p].children| > 0
    ensures var cs := s.tabs[p].children;
            var s1 := RemoveSpec(s, cs[0]);
            WF(s1) && s1.nextId == s.nextId && p in s1.tabs && s1.tabs[p].children == cs[1..] &&
            ClearSpec(s1, p) == ClearSpec(s, p)
  {
    var cs := s.tabs[p].children;
    var s1 := RemoveSpec(s, cs[0]);
    FirstChildRemoved(s, p);
    RestSurvives(s, p);
    var first := PostOrder(s, cs[0]);
    var rest := PostOrderAll(s, cs[1..], p);
    PostOrderAllFrame(s, s1, cs[1..], p);
    assert PostOrderAll(s1, s1.tabs[p].children, p) == rest;
    assert PostOrderAll(s, cs, p) == first + rest;
    RemoveSpecKeys(s, cs[0]);
    ClearTabsStep(s, p, s1, first, rest);
    ClearActiveStep(s, p, s1, first, rest);
    ClearClosedStep(s, p, s1, first, rest);
    ClearSpecFields(s, s1, p);
  }

  /** `ClearSpec` results agree when their fields do. */
  lemma ClearSpecFields(s: BrowserState, s1: BrowserState, p: nat)
    requires Ordered(s) && Ordered(s1) && p in s.tabs && p in s1.tabs
    requires s1.nextId == s.nextId && s1.roots == s.roots
    requires ClearSpec(s1, p).tabs == ClearSpec(s, p).tabs
    requires ClearSpec(s1, p).active == ClearSpec(s, p).active
    requires ClearSpec(s1, p).recentlyClosed == ClearSpec(s, p).recentlyClosed
    ensures ClearSpec(s1, p) == ClearSpec(s, p)
  {
  }

  lemma ClearClosedStep(s: BrowserState, p: nat, s1: BrowserState, first: seq<nat>, rest: seq<nat>)
    requires WF(s) && p in s.tabs && |s.tabs[p].children| > 0
    requires s1 == RemoveSpec(s, s.tabs[p].children[0]) && Ordered(s1) && p in s1.tabs
    requires first == PostOrder(s, s.tabs[p].children[0])
    requires forall y :: y in rest ==> y in s1.tabs && s1.tabs[y] == s.tabs[y]
    requires PostOrderAll(s1, s1.tabs[p].children, p) == rest
    requires PostOrderAll(s, s.tabs[p].children, p) == first + rest
    ensures ClearSpec(s1, p).recentlyClosed == ClearSpec(s, p).recentlyClosed
  {
    assert s1.recentlyClosed == s.recentlyClosed + Closed(s, first);
    ClosedFrame(s, s1, rest);
    ClosedConcat(s, first, rest);
  }

  lemma ClearTabsStep(s: BrowserState, p: nat, s1: BrowserState, first: seq<nat>, rest: seq<nat>)
    requires Ordered(s) && Ordered(s1) && s1.nextId == s.nextId && p in s.tabs && p in s1.tabs
    requires forall k :: k in s1.tabs <==> k in s.tabs && k !in first
    requires forall k :: k in s1.tabs && k != p ==> s1.tabs[k] == s.tabs[k]
    requires s1.tabs[p].(children := []) == s.tabs[p].(children := [])
    requires PostOrderAll(s1, s1.tabs[p].children, p) == rest
    requires PostOrderAll(s, s.tabs[p].children, p) == first + rest
    ensures ClearSpec(s1, p).tabs == ClearSpec(s, p).tabs
  {
    ClearKeysStep(s, p, s1, first, rest);
    ClearValuesStep(s, p, s1, first, rest);
  }

  lemma ClearKeysStep(s: BrowserState, p: nat, s1: BrowserState, first: seq<nat>, rest: seq<nat>)
    requires Ordered(s) && Ordered(s1) && s1.nextId == s.nextId && p in s.tabs && p in s1.tabs
    requires forall k :: k in s1.tabs <==> k in s.tabs && k !in first
    requires forall k :: k in s1.tabs && k != p ==> s1.tabs[k] == s.tabs[k]
    requires s1.tabs[p].(children := []) == s.tabs[p].(children := [])
    requires PostOrderAll(s1, s1.tabs[p].children, p) == rest
    requires PostOrderAll(s, s.tabs[p].children, p) == first + rest
    ensures ClearSpec(s1, p).tabs.Keys == ClearSpec(s, p).tabs.Keys
  {
  }

  lemma ClearValuesStep(s: BrowserState, p: nat, s1: BrowserState, first: seq<nat>, rest: seq<nat>)
    requires Ordered(s) && Ordered(s1) && s1.nextId == s.nextId && p in s.tabs && p in s1.tabs
    requires forall k :: k in s1.tabs <==> k in s.tabs && k !in first
    requires forall k :: k in s1.tabs && k != p ==> s1.tabs[k] == s.tabs[k]
    requires s1.tabs[p].(children := []) == s.tabs[p].(children := [])
    requires PostOrderAll(s1, s1.tabs[p].children, p) == rest
    requires PostOrderAll(s, s.tabs[p].children, p) == first + rest
    ensures forall k :: k in ClearSpec(s1, p).tabs && k in ClearSpec(s, p).tabs ==>
              ClearSpec(s1, p).tabs[k] == ClearSpec(s, p).tabs[k]
  {
  }

  lemma ClearActiveStep(s: BrowserState, p: nat, s1: BrowserState, first: seq<nat>, rest: seq<nat>)
    requires WF(s) && p in s.tabs && |s.tabs[p].children| > 0
    requires s1 == RemoveSpec(s, s.tabs[p].children[0]) && WF(s1) && p in s1.tabs
    requires s1.roots == s.roots
    requires s1.tabs[p] == s.tabs[p].(children := s.tabs[p].children[1..])
    requires first == PostOrder(s, s.tabs[p].children[0]) && rest == PostOrderAll(s, s.tabs[p].children[1..], p)
    requires PostOrderAll(s1, s1.tabs[p].children, p) == rest
    requires PostOrderAll(s, s.tabs[p].children, p) == first + rest
    ensures ClearSpec(s1, p).active == ClearSpec(s, p).active
  {
    if |s.roots| > 0 {
      RootOutside(s, p, s.roots[0]);
    }
  }

  /** A root is in no child's subtree. */
  lemma RootOutside(s: BrowserState, p: nat, x: nat)
    requires Ordered(s) && ChildrenLinked(s) && RootsLinked(s) && p in s.tabs && x in s.roots
    ensures x !in PostOrderAll(s, s.tabs[p].children, p)
  {
    if x in PostOrderAll(s, s.tabs[p].children, p) {
      var q := ParentInside(s, p, x);
    }
  }

  /** What the declarative removal keeps of the nodes. */
  lemma RemoveSpecKeys(s: BrowserState, id: nat)
    requires Ordered(s) && id in s.tabs
    ensures var r := RemoveSpec(s, id);
            forall k :: k in r.tabs <==> k in s.tabs && k !in PostOrder(s, id)
    ensures var r := RemoveSpec(s, id);
            forall k :: k in r.tabs && s.tabs[id].parent != Some(k) ==> r.tabs[k] == s.tabs[k]
  {
  }

  /** With no children, the children loop changes nothing. */
  lemma ClearNothing(s: BrowserState, p: nat)
    requires Ordered(s) && p in s.tabs && s.tabs[p].children == []
    ensures ClearSpec(s, p) == s
  {
    var c := ClearSpec(s, p);
    assert c.tabs.Keys == s.tabs.Keys;
    assert c.tabs == s.tabs;
  }

  lemma DetachTabs(s: BrowserState, id: nat)
    requires Ordered(s) && id in s.tabs
    ensures Detach(ClearSpec(s, id), id, s.tabs[id]).tabs == RemoveSpec(s, id).tabs
  {
    var m1 := Detach(ClearSpec(s, id), id, s.tabs[id]).tabs;
    var m := RemoveSpec(s, id).tabs;
    assert m1.Keys == m.Keys;
    forall k | k in m
      ensures m1[k] == m[k]
    {
    }
  }

  lemma DetachActive(s: BrowserState, id: nat)
    requires Ordered(s) && id in s.tabs
    ensures Detach(ClearSpec(s, id), id, s.tabs[id]).active == RemoveSpec(s, id).active
  {
    if s.tabs[id].parent.None? && |s.roots| > 0 && s.roots[0] != id {
      FirstAfterRemove(s.roots, id);
    }
  }

  lemma DetachClosed(s: BrowserState, id: nat)
    requires Ordered(s) && id in s.tabs
    ensures Detach(ClearSpec(s, id), id, s.tabs[id]).recentlyClosed == RemoveSpec(s, id).recentlyClosed
  {
    ClosedConcat(s, PostOrderAll(s, s.tabs[id].children, id), [id]);
  }

  /** The last step of `remove_tab`, on the declarative side. */
  lemma DetachStep(s: BrowserState, id: nat)
    requires Ordered(s) && id in s.tabs
    ensures Detach(ClearSpec(s, id), id, s.tabs[id]) == RemoveSpec(s, id)
  {
    DetachTabs(s, id);
    DetachActive(s, id);
    DetachClosed(s, id);
  }

  /** `remove_tab` on a well-formed state does what `RemoveSpec` says. */
  lemma {:induction false} RemoveTabIsSpec(s: BrowserState, id: nat)
    requires WF(s)
    ensures RemoveTab(s, id) == RemoveSpec(s, id)
    decreases s.nextId - id, 1
  {
    if id in s.tabs {
      RemoveAllIsSpec(s, id);
      DetachStep(s, id);
    }
  }

  /** The children loop of `remove_tab` does what `ClearSpec` says. */
  lemma {:induction false} RemoveAllIsSpec(s: BrowserState, p: nat)
    requires WF(s) && p in s.tabs
    ensures RemoveAll(s, s.tabs[p].children, p) == ClearSpec(s, p)
    decreases s.nextId - p, 0, |s.tabs[p].children|
  {
    var cs := s.tabs[p].children;
    if |cs| == 0 {
      ClearNothing(s, p);
    } else {
      RemoveTabIsSpec(s, cs[0]);
      ClearStep(s, p);
      RemoveAllIsSpec(RemoveSpec(s, cs[0]), p);
    }
  }

  /** `remove_tab` keeps the forest shape, and an active tab that pointed at
      a node still points at one. */
  lemma RemoveTabKeepsWF(s: BrowserState, id: nat)
    requires WF(s)
    ensures WF(RemoveTab(s, id))
    ensures ActiveKnown(s) ==> ActiveKnown(RemoveTab(s, id))
  {
    RemoveTabIsSpec(s, id);
    RemoveSpecWF(s, id);
    if id in s.tabs {
      RemoveSpecKeys(s, id);
    }
  }

  /** `remove_tab` of a known id drops exactly its subtree, records one
      closed tab per dropped node in post-order, and leaves no reference to
      the id behind. */
  lemma RemoveTabDropsSubtree(s: BrowserState, id: nat)
    requires WF(s) && id in s.tabs
    ensures var r := RemoveTab(s, id);
            (forall k :: k in r.tabs <==> k in s.tabs && k !in PostOrder(s, id)) &&
            r.recentlyClosed == s.recentlyClosed + Closed(s, PostOrder(s, id)) &&
            NoDuplicates(PostOrder(s, id)) &&
            id !in r.roots && forall k :: k in r.tabs ==> id !in r.tabs[k].children
  {
    RemoveTabIsSpec(s, id);
    RemoveSpecKeys(s, id);
    RemoveSpecWF(s, id);
    PostOrderDistinct(s, id);
  }

  /** The active id, when there is one, names a node. */
  ghost predicate ActiveKnown(s: BrowserState) {
    s.active.Some? ==> s.active.value in s.tabs
  }

  /** Creating, activating and the per-node updates keep the active id
      pointing at a node. */
  lemma ActiveStaysKnown(s: BrowserState, id: nat, parent: Option<nat>, title: string, url: string)
    requires ActiveKnown(s)
    ensures ActiveKnown(CreateTab(s, parent, title, url).1)
    ensures ActiveKnown(CreateGroup(s, title).1)
    ensures ActiveKnown(SetActive(s, id))
    ensures ActiveKnown(ToggleExpanded(s, id)) && ActiveKnown(TogglePin(s, id))
    ensures ActiveKnown(ToggleMute(s, id)) && ActiveKnown(ToggleSuspended(s, id))
    ensures ActiveKnown(UpdateTab(s, id, Some(title), Some(url)))
  {
  }

  // ---------------------------------------------------------------------
  // Favicons

  /** A node after `set_favicon_for_url`. */
  function WithFavicon(n: TabNode, url: string, favicon: Option<string>): TabNode {
    if n.url == url then n.(faviconUri := favicon) else n
  }

  ghost predicate FaviconInv(s: BrowserState, url: string, favicon: Option<string>,
                             left: set<nat>, tabs: map<nat, TabNode>, updated: seq<nat>) {
    left <= s.tabs.Keys && tabs.Keys == s.tabs.Keys &&
    (forall k :: k in s.tabs ==> tabs[k] == if k in left then s.tabs[k] else WithFavicon(s.tabs[k], url, favicon)) &&
    NoDuplicates(updated) &&
    (forall k :: k in updated <==> k in s.tabs && k !in left && s.tabs[k].url == url)
  }

  /** `set_favicon_for_url`: every node showing `url` gets the favicon, and
      their ids are returned, each once, in map iteration order (any order
      here). */
  method SetFaviconForUrl(s: BrowserState, url: string, favicon: Option<string>)
    returns (r: BrowserState, updated: seq<nat>)
    ensures r.tabs.Keys == s.tabs.Keys
    ensures forall k :: k in s.tabs ==> r.tabs[k] == WithFavicon(s.tabs[k], url, favicon)
    ensures r == s.(tabs := r.tabs)
    ensures NoDuplicates(updated)
    ensures forall k :: k in updated <==> k in s.tabs && s.tabs[k].url == url
  {
    var left := s.tabs.Keys;
    var tabs := s.tabs;
    updated := [];
    while left != {}
      invariant FaviconInv(s, url, favicon, left, tabs, updated)
      decreases left
    {
      var k :| k in left;
      if tabs[k].url == url {
        tabs := tabs[k := tabs[k].(faviconUri := favicon)];
        updated := updated + [k];
      }
      left := left - {k};
    }
    r := s.(tabs := tabs);
  }

  /** Setting favicons keeps the forest shape. */
  lemma FaviconKeepsWF(s: BrowserState, t: BrowserState, url: string, favicon: Option<string>)
    requires WF(s) && t == s.(tabs := t.tabs) && t.tabs.Keys == s.tabs.Keys
    requires forall k :: k in s.tabs ==> t.tabs[k] == WithFavicon(s.tabs[k], url, favicon)
    ensures WF(t) && (ActiveKnown(s) ==> ActiveKnown(t))
  {
    SameShapeKeepsWF(s, t);
  }

  /** Two states with the same ids, links and children. */
  ghost predicate SameShape(s: BrowserState, t: BrowserState) {
    t.nextId == s.nextId && t.roots == s.roots && t.tabs.Keys == s.tabs.Keys &&
    forall k :: k in s.tabs ==>
      t.tabs[k].id == s.tabs[k].id && t.tabs[k].parent == s.tabs[k].parent && t.tabs[k].children == s.tabs[k].children
  }

  lemma SameShapeKeepsWF(s: BrowserState, t: BrowserState)
    requires WF(s) && SameShape(s, t)
    ensures WF(t)
  {
    assert Ordered(t);
    assert NodesKeyed(t);
    assert ChildrenLinked(t);
  }

  // ---------------------------------------------------------------------
  // Display order of siblings

  /** The known, pinned ids of `ids`, in order. */
  ghost function PinnedOf(s: BrowserState, ids: seq<nat>): seq<nat> {
    if |ids| == 0 then []
    else
      var x := ids[|ids| - 1];
      PinnedOf(s, ids[..|ids| - 1]) + (if x in s.tabs && s.tabs[x].isPinned then [x] else [])
  }

  /** The known, unpinned ids of `ids`, in order. */
  ghost function UnpinnedOf(s: BrowserState, ids: seq<nat>): seq<nat> {
    if |ids| == 0 then []
    else
      var x := ids[|ids| - 1];
      UnpinnedOf(s, ids[..|ids| - 1]) + (if x in s.tabs && !s.tabs[x].isPinned then [x] else [])
  }

  /** The known ids of `ids`, in order. */
  ghost function KnownOf(s: BrowserState, ids: seq<nat>): seq<nat> {
    if |ids| == 0 then []
    else
      var x := ids[|ids| - 1];
      KnownOf(s, ids[..|ids| - 1]) + (if x in s.tabs then [x] else [])
  }

  /** `ordered_children`: the known ids, pinned ones first, each group in
      its original order; unknown ids are dropped. */
  method OrderedChildren(s: BrowserState, ids: seq<nat>) returns (r: seq<nat>)
    ensures r == PinnedOf(s, ids) + UnpinnedOf(s, ids)
  {
    var pinned: seq<nat> := [];
    var normal: seq<nat> := [];
    var i := 0;
    while i < |ids|
      invariant 0 <= i <= |ids|
      invariant pinned == PinnedOf(s, ids[..i]) && normal == UnpinnedOf(s, ids[..i])
    {
      assert ids[..i + 1][..i] == ids[..i];
      var id := ids[i];
      if id in s.tabs {
        if s.tabs[id].isPinned {
          pinned := pinned + [id];
        } else {
          normal := normal + [id];
        }
      }
      i := i + 1;
    }
    assert ids[..|ids|] == ids;
    r := pinned + normal;
  }

  /** The pinned group holds only known, pinned tabs. */
  lemma {:induction false} PinnedArePinned(s: BrowserState, ids: seq<nat>)
    ensures forall x :: x in PinnedOf(s, ids) ==> x in s.tabs && s.tabs[x].isPinned
  {
    if |ids| > 0 {
      PinnedArePinned(s, ids[..|ids| - 1]);
    }
  }

  /** The other group holds only known, unpinned tabs. */
  lemma {:induction false} UnpinnedAreUnpinned(s: BrowserState, ids: seq<nat>)
    ensures forall x :: x in UnpinnedOf(s, ids) ==> x in s.tabs && !s.tabs[x].isPinned
  {
    if |ids| > 0 {
      UnpinnedAreUnpinned(s, ids[..|ids| - 1]);
    }
  }

  /** Together the two groups are the known ids again, so the display order
      is a stable partition of them. */
  lemma {:induction false} OrderedChildrenPermutes(s: BrowserState, ids: seq<nat>)
    ensures multiset(PinnedOf(s, ids) + UnpinnedOf(s, ids)) == multiset(KnownOf(s, ids))
  {
    if |ids| > 0 {
      var init := ids[..|ids| - 1];
      OrderedChildrenPermutes(s, init);
      assert multiset(PinnedOf(s, ids) + UnpinnedOf(s, ids))
          == multiset(PinnedOf(s, init) + UnpinnedOf(s, init)) + multiset(KnownOf(s, ids) [|KnownOf(s, init)|..]);
    }
  }

  // ---------------------------------------------------------------------
  // The starting state

  /** `BrowserState::new`: a Home tab, then an expanded "Reading" group with
      three tabs under it, the first of which is active. */
  function New(): BrowserState {
    var p := NewGroup();
    var g := p.0;
    var r4 := CreateTab(p.1, Some(g), "WebKitGTK", "https://webkitgtk.org");
    var s5 := CreateTab(r4.1, Some(g), "GNOME", "https://www.gnome.org").1;
    var s6 := CreateTab(s5, Some(g), "Fedora", "https://fedoraproject.org").1;
    SetActive(s6, r4.0)
  }

  /** The first half of `BrowserState::new`: the Home tab and the "Reading"
      group, marked expanded; yields the group's id. */
  function NewGroup(): (nat, BrowserState) {
    var s1 := CreateTab(Empty(), None, "Home", "owl://home").1;
    var r2 := CreateGroup(s1, "Reading");
    var g := r2.0;
    var s2 := r2.1;
    (g, if g in s2.tabs then UpdateNode(s2, g, s2.tabs[g].(isExpanded := true)) else s2)
  }

  /** Creating under a known parent in a well-formed state: the parent
      gains the new id as its last child and nothing else changes. */
  lemma CreateChildOf(t: BrowserState, g: nat, title: string, url: string)
    requires WF(t) && g in t.tabs
    ensures var u := CreateTab(t, Some(g), title, url).1;
            WF(u) && u.nextId == t.nextId + 1 && u.roots == t.roots && u.active == t.active &&
            u.recentlyClosed == t.recentlyClosed && g < t.nextId &&
            t.nextId in u.tabs && u.tabs[t.nextId] == FreshNode(t.nextId, Some(g), title, url, false) &&
            u.tabs[g] == t.tabs[g].(children := t.tabs[g].children + [t.nextId]) &&
            forall k :: k in t.tabs && k != g ==> k in u.tabs && u.tabs[k] == t.tabs[k]
  {
    CreateKeepsWF(t, Some(g), title, url, false);
  }

  /** The ids in use are exactly 1 up to `nextId`: true until a removal. */
  ghost predicate Dense(s: BrowserState) {
    1 <= s.nextId && forall k :: k in s.tabs <==> 1 <= k < s.nextId
  }

  /** Creating a top-level node, one step as `NewLayout` needs it. */
  lemma CreateRoot(s: BrowserState, title: string, url: string, isGroup: bool)
    requires Dense(s)
    ensures var t := CreateTabInternal(s, None, title, url, isGroup).1;
            Dense(t) && t.nextId == s.nextId + 1 && t.roots == s.roots + [s.nextId] && t.active == s.active &&
            t.recentlyClosed == s.recentlyClosed && t.tabs[s.nextId] == FreshNode(s.nextId, None, title, url, isGroup)
  {
  }

  /** Creating under a known parent, one step as `NewLayout` needs it. */
  lemma CreateUnder(s: BrowserState, p: nat, title: string, url: string)
    requires p in s.tabs && Dense(s)
    ensures var t := CreateTab(s, Some(p), title, url).1;
            Dense(t) && t.nextId == s.nextId + 1 && t.roots == s.roots && t.active == s.active &&
            t.recentlyClosed == s.recentlyClosed &&
            t.tabs[p] == s.tabs[p].(children := s.tabs[p].children + [s.nextId])
  {
  }

  /** Three tabs created under one known parent with no children yet. */
  lemma CreateThreeUnder(s: BrowserState, p: nat, t1: string, u1: string, t2: string, u2: string, t3: string, u3: string)
    requires p in s.tabs && Dense(s) && s.tabs[p].children == []
    ensures var n := s.nextId;
            var s4 := CreateTab(s, Some(p), t1, u1).1;
            var s5 := CreateTab(s4, Some(p), t2, u2).1;
            var s6 := CreateTab(s5, Some(p), t3, u3).1;
            Dense(s6) && s6.nextId == n + 3 && s6.roots == s.roots && s6.active == s.active &&
            s6.recentlyClosed == s.recentlyClosed &&
            s6.tabs[p] == s.tabs[p].(children := [n, n + 1, n + 2])
  {
    var n := s.nextId;
    CreateUnder(s, p, t1, u1);
    var s4 := CreateTab(s, Some(p), t1, u1).1;
    CreateUnder(s4, p, t2, u2);
    var s5 := CreateTab(s4, Some(p), t2, u2).1;
    CreateUnder(s5, p, t3, u3);
    assert s5.tabs[p].children == [n, n + 1];
  }

  /** The Home tab and the expanded group, before the group is filled. */
  lemma NewPrefix()
    ensures var p := NewGroup();
            p.0 == 2 && Dense(p.1) && p.1.nextId == 3 && p.1.roots == [1, 2] && p.1.active == None &&
            p.1.recentlyClosed == [] && p.1.tabs[2].isGroup && p.1.tabs[2].isExpanded && p.1.tabs[2].children == []
  {
    var s0 := Empty();
    CreateRoot(s0, "Home", "owl://home", false);
    var s1 := CreateTab(s0, None, "Home", "owl://home").1;
    CreateRoot(s1, "Reading", GROUP_URL, true);
    var s3 := CreateGroup(s1, "Reading").1;
    assert UpdateNode(s3, 2, s3.tabs[2].(isExpanded := true)) == s3;
  }

  /** The shape of the starting state: ids 1 to 5, Home and the group as
      roots, the three tabs in the group in order, the first one active. */
  lemma NewLayout()
    ensures var r := New();
            Dense(r) && r.nextId == 6 && r.roots == [1, 2] &&
            r.tabs[2].isGroup && r.tabs[2].isExpanded && r.tabs[2].children == [3, 4, 5] &&
            r.active == Some(3) && r.recentlyClosed == []
  {
    NewPrefix();
    CreateThreeUnder(NewGroup().1, 2, "WebKitGTK", "https://webkitgtk.org", "GNOME", "https://www.gnome.org",
                     "Fedora", "https://fedoraproject.org");
  }

  /** The starting state is well formed and its active id names a node. */
  lemma NewWF()
    ensures WF(New()) && ActiveKnown(New())
  {
    NewPrefix();
    NewGroupWF();
    var p := NewGroup();
    CreateKeepsWF(p.1, Some(2), "WebKitGTK", "https://webkitgtk.org", false);
    var r4 := CreateTab(p.1, Some(2), "WebKitGTK", "https://webkitgtk.org");
    CreateKeepsWF(r4.1, Some(2), "GNOME", "https://www.gnome.org", false);
    var s5 := CreateTab(r4.1, Some(2), "GNOME", "https://www.gnome.org").1;
    CreateKeepsWF(s5, Some(2), "Fedora", "https://fedoraproject.org", false);
    var s6 := CreateTab(s5, Some(2), "Fedora", "https://fedoraproject.org").1;
    assert WF(s6) && r4.0 in s6.tabs;
    SetActiveKeepsWF(s6, r4.0);
  }

  lemma NewGroupWF()
    ensures WF(NewGroup().1) && NewGroup().0 in NewGroup().1.tabs
  {
    var s1 := CreateTab(Empty(), None, "Home", "owl://home").1;
    var r2 := CreateGroup(s1, "Reading");
    UpdateKeepsWF(r2.1, r2.0, r2.1.tabs[r2.0].(isExpanded := true));
  }

  /** Activating keeps the forest shape and names a node. */
  lemma SetActiveKeepsWF(s: BrowserState, id: nat)
    requires WF(s) && id in s.tabs
    ensures WF(SetActive(s, id)) && ActiveKnown(SetActive(s, id))
  {
  }
}

=== FILE: tabs.dfy ===
/** tabs/src/lib.rs: tab identities, lifecycle states and the basic tab
    manager that owns the ordered tab list and the active tab. */
module Tabs {
  import opened Common
  import IdGen

  /** `TabId`: an opaque handle wrapping a 64-bit number. */
  datatype TabId = TabId(raw: nat)

  /** `TabState`: the externally visible lifecycle of a tab. */
  datatype TabState = Active | Background | Suspended

  /** `TabEntry`: one record of the manager's list. */
  datatype TabEntry = TabEntry(id: TabId, state: TabState)

  /** `BasicTabManager`: the ordered tab list, the active tab and the id source. */
  datatype BasicTabManager = BasicTabManager(tabs: seq<TabEntry>, active: Option<TabId>, ids: IdGen.IdGenerator)

  /** `BasicTabManager::new()` (its `Default`): no tabs, ids from 1. */
  function New(): (m: BasicTabManager)
    ensures Valid(m)
    ensures |m.tabs| == 0 && m.active.None?
  {
    BasicTabManager([], None, IdGen.Default())
  }

  /** Every id was handed out by the generator and no id is listed twice. */
  ghost predicate Valid(m: BasicTabManager) {
    && (forall i :: 0 <= i < |m.tabs| ==> m.tabs[i].id.raw < m.ids.next)
    && (forall i, j :: 0 <= i < j < |m.tabs| ==> m.tabs[i].id != m.tabs[j].id)
  }

  predicate Listed(tabs: seq<TabEntry>, id: TabId) {
    exists i :: 0 <= i < |tabs| && tabs[i].id == id
  }

  /** Exactly one tab is Active, and it is the one recorded as active. */
  ghost predicate SingleActive(m: BasicTabManager) {
    && m.active.Some?
    && (exists i :: 0 <= i < |m.tabs| && m.tabs[i].id == m.active.value)
    && (forall i :: 0 <= i < |m.tabs| ==> (m.tabs[i].state == Active <==> m.tabs[i].id == m.active.value))
  }

  /** `Iterator::position(|tab| tab.id == id)`: index of the first entry with `id`. */
  function Position(tabs: seq<TabEntry>, id: TabId): (r: Option<nat>)
    ensures r.None? <==> !Listed(tabs, id)
    ensures r.Some? ==> r.value < |tabs| && tabs[r.value].id == id
    ensures r.Some? ==> forall k :: 0 <= k < r.value ==> tabs[k].id != id
  {
    if |tabs| == 0 then None
    else if tabs[0].id == id then Some(0)
    else match Position(tabs[1..], id)
      case None => None
      case Some(k) => Some(k + 1)
  }

  /** The first loop of `create_tab`: every Active tab becomes Background. */
  function DemoteActive(tabs: seq<TabEntry>): (r: seq<TabEntry>)
    ensures |r| == |tabs|
    ensures forall i :: 0 <= i < |r| ==> r[i].id == tabs[i].id && r[i].state != Active
    ensures forall i :: 0 <= i < |r| && tabs[i].state != Active ==> r[i] == tabs[i]
  {
    seq(|tabs|, i requires 0 <= i < |tabs| =>
      if tabs[i].state == Active then tabs[i].(state := Background) else tabs[i])
  }

  /** `create_tab`: demote the Active tabs, append a fresh Active tab and make it active. */
  function CreateTab(m: BasicTabManager): (r: (TabEntry, BasicTabManager))
    ensures r.0.state == Active && r.0.id == TabId(m.ids.next)
    ensures r.1.tabs == DemoteActive(m.tabs) + [r.0]
    ensures r.1.active == Some(r.0.id)
    ensures r.1.ids.next == m.ids.next + 1
    ensures Valid(m) ==> !Listed(m.tabs, r.0.id) && Valid(r.1) && SingleActive(r.1)
  {
    var (raw, ids') := IdGen.Next(m.ids);
    var entry := TabEntry(TabId(raw), Active);
    var tabs' := DemoteActive(m.tabs) + [entry];
    assert tabs'[|m.tabs|].id == entry.id;
    (entry, BasicTabManager(tabs', Some(entry.id), ids'))
  }

  /** The loop of `set_active`: `id` becomes Active, every other tab that is
      not Suspended becomes Background. */
  function Activate(tabs: seq<TabEntry>, id: TabId): (r: seq<TabEntry>)
    ensures |r| == |tabs|
    ensures forall i :: 0 <= i < |r| ==> r[i].id == tabs[i].id
  {
    seq(|tabs|, i requires 0 <= i < |tabs| =>
      if tabs[i].id == id then tabs[i].(state := Active)
      else if tabs[i].state != Suspended then tabs[i].(state := Background)
      else tabs[i])
  }

  /** `set_active`: false and no change for an unknown id; otherwise `id` is
      the one Active tab, the others are Background unless Suspended. */
  function SetActive(m: BasicTabManager, id: TabId): (r: (bool, BasicTabManager))
    ensures !Listed(m.tabs, id) ==> !r.0 && r.1 == m
    ensures Listed(m.tabs, id) ==> r.0 && r.1.active == Some(id) && r.1.ids == m.ids
    ensures |r.1.tabs| == |m.tabs|
    ensures forall i :: 0 <= i < |m.tabs| ==> r.1.tabs[i].id == m.tabs[i].id
    ensures Listed(m.tabs, id) ==> forall i :: 0 <= i < |m.tabs| && m.tabs[i].id != id ==>
      (m.tabs[i].state == Suspended <==> r.1.tabs[i].state == Suspended) &&
      (m.tabs[i].state != Suspended ==> r.1.tabs[i].state == Background)
    ensures Valid(m) ==> Valid(r.1)
    ensures Valid(m) && r.0 ==> SingleActive(r.1)
  {
    if !Listed(m.tabs, id) then (false, m)
    else (true, m.(tabs := Activate(m.tabs, id), active := Some(id)))
  }

  /** `set_state`: the first entry with `id` takes `state`; Active makes it
      the active tab, any other state on the active tab clears `active`. */
  function SetState(m: BasicTabManager, id: TabId, state: TabState): (r: (bool, BasicTabManager))
    ensures !Listed(m.tabs, id) ==> !r.0 && r.1 == m
    ensures Listed(m.tabs, id) ==> r.0
    ensures Listed(m.tabs, id) ==> exists i :: 0 <= i < |m.tabs| && m.tabs[i].id == id && r.1.tabs == m.tabs[i := m.tabs[i].(state := state)]
    ensures Listed(m.tabs, id) && state == Active ==> r.1.active == Some(id)
    ensures Listed(m.tabs, id) && state != Active && m.active == Some(id) ==> r.1.active.None?
    ensures Listed(m.tabs, id) && state != Active && m.active != Some(id) ==> r.1.active == m.active
    ensures r.1.ids == m.ids
    ensures Valid(m) ==> Valid(r.1)
  {
    match Position(m.tabs, id)
    case None => (false, m)
    case Some(i) =>
      var tabs' := m.tabs[i := m.tabs[i].(state := state)];
      var active' := if state == Active then Some(id) else if m.active == Some(id) then None else m.active;
      (true, m.(tabs := tabs', active := active'))
  }

  /** `active_tab`. */
  function ActiveTab(m: BasicTabManager): Option<TabId> {
    m.active
  }

  /** `tabs`: the ordered list. */
  function TabList(m: BasicTabManager): seq<TabEntry> {
    m.tabs
  }

  /** `next_tab`: the entry after the active one, cyclically. */
  function NextTab(m: BasicTabManager): (r: Option<TabId>)
    ensures m.active.None? || !Listed(m.tabs, m.active.value) ==> r.None?
    ensures m.active.Some? && Listed(m.tabs, m.active.value) ==> r.Some? && Listed(m.tabs, r.value)
    ensures m.active.Some? && |m.tabs| == 1 && Listed(m.tabs, m.active.value) ==> r == m.active
  {
    match m.active
    case None => None
    case Some(active) =>
      match Position(m.tabs, active)
      case None => None
      case Some(idx) => Some(m.tabs[(idx + 1) % |m.tabs|].id)
  }

  /** Cycling with `next_tab`: from the tab at the first position of the
      active id, the next tab is the one at the following position, wrapping
      from the last entry back to the first. */
  lemma NextTabCycles(m: BasicTabManager, idx: nat)
    requires m.active.Some? && idx < |m.tabs| && m.tabs[idx].id == m.active.value
    requires forall k :: 0 <= k < idx ==> m.tabs[k].id != m.active.value
    ensures idx + 1 < |m.tabs| ==> NextTab(m) == Some(m.tabs[idx + 1].id)
    ensures idx + 1 == |m.tabs| ==> NextTab(m) == Some(m.tabs[0].id)
  {
    var p := Position(m.tabs, m.active.value);
    assert p.Some?;
    assert p.value <= idx;
    assert p.value >= idx;
    WrapNext(idx, |m.tabs|);
  }

  /** `(idx + 1) % n` is the following position, or 0 past the last one. */
  lemma WrapNext(idx: nat, n: nat)
    requires idx < n
    ensures idx + 1 < n ==> (idx + 1) % n == idx + 1
    ensures idx + 1 == n ==> (idx + 1) % n == 0
  {
  }
}
